=== FILE: README.md ===
# LeadPulse core, modelled in Dafny

LeadPulse is a small CRM. Its users keep leads on a pipeline board. A lead moves through five stages: leads, prospected, contacted, proposal and closed. Each lead card can carry tags, activities, notes and a history.

Around the board the application offers:
- a dashboard;
- an activities board;
- a community feed with likes and polls;
- cadences of outreach steps;
- a CSV import of leads;
- an extraction page. It asks a webhook for business records, charges the user's monthly extraction quota, and can export the records to the pipeline.
- a WhatsApp bridge. This is a Node server that holds one chat-network client. It talks to browsers over a socket and over three HTTP routes. A browser-side hook mirrors its state.

This project models the logic of those screens and of the bridge.

Shared records and helpers:
- `Leads` holds the shared records: the lead, the subscription with its plan, and the signed-in user.
- `Wrappers`, `Text`, `Seqs`, `StableSort` and `Json` model the JavaScript semantics the code relies on. They cover `||` defaults and truthiness, `split`, `trim`, `toLowerCase`, `includes`, `filter`, `reduce`, the stable `Array.prototype.sort`, and untyped webhook replies.

Each screen is a module:
- `Pipeline` (with `Kanban` for one column);
- `Dashboard`;
- `Activities`;
- `Community`;
- `Scraping` (the extraction page) and `ResultsTable`;
- `CsvImport`;
- `LeadModal`;
- `UserRole`;
- `Cadence`;
- `Register`.

How the model is built:
- Pure logic becomes functions with lemmas.
- Screen state that handlers update becomes a class, and every handler's `ensures` gives the whole new state, so a field a handler leaves alone is stated unchanged. The pipeline page, the community page and the lead modal have a `State()` snapshot, a datatype value holding every field, and their handlers give the new snapshot in terms of the old one and of those functions. The activities page, the extraction page, the results table, the registration page, the bridge server and the chat hook have no snapshot; their handlers list every field instead.
- Loops become methods with loop invariants.
- The bridge server (`ChatBridge.Bridge`) and the browser hook (`ChatFacade.ChatHook`) are classes.
- Events and command results arrive as method parameters.
- The backend, the clock and the webhook are parameters. A query result is a `Result`, and a failed write is a boolean.

## Model

| member | source | states |
|---|---|---|
| Pipeline.ApplyFilters | src/pages/Pipeline.tsx:142-172 | the list shown is the specification `FilteredLeads`: searched, restricted by priority, then sorted by creation date when an order is chosen |
| Pipeline.FilteredSound | src/pages/Pipeline.tsx:142-172 | every lead shown comes from the input and passes both the search (company or contact, ignoring case) and the priority filter |
| Pipeline.FilteredComplete | src/pages/Pipeline.tsx:142-172 | every input lead that passes both filters is shown |
| Pipeline.FilteredOrder | src/pages/Pipeline.tsx:161-169 | without an order the kept leads stay in input order; "asc" sorts them by non-decreasing, "desc" by non-increasing creation date |
| Pipeline.FilteredStable | src/pages/Pipeline.tsx:161-169 | leads created at the same instant keep their relative order under either sort |
| Pipeline.FilteredWithoutFilters | src/pages/Pipeline.tsx:142-172 | an empty search, no priority and no order show the whole list unchanged |
| Pipeline.TogglePriority | src/pages/Pipeline.tsx:327-334 | the priority becomes selected exactly when it was not, and every other priority keeps its selection |
| Pipeline.TogglePriorityTwice | src/pages/Pipeline.tsx:327-334 | toggling twice selects the same priorities, and restores the very list when the priority was not selected |
| Pipeline.CountRows | src/pages/Pipeline.tsx:113-122 | the counter loop ends with an entry exactly for each lead id seen, holding the number of rows with that id |
| Pipeline.OccurrencesAbsent | src/pages/Pipeline.tsx:113-122 | `Occurrences`: a lead id counts zero exactly when no row carries it |
| Pipeline.FetchLeadCounts | src/pages/Pipeline.tsx:98-140 | one entry per lead with an activity or a tag row; each side counts that lead's rows, zero when it has none |
| Pipeline.WithStatus | src/pages/Pipeline.tsx:200-204 | only the leads with that id take the new status; the length and every other lead are kept |
| Pipeline.MoveBackRestores | src/pages/Pipeline.tsx:181-208 | of two moves only the last counts, and moving a lead back to its stage restores the list |
| Pipeline.WithoutLead | src/pages/Pipeline.tsx:256-257 | every lead with that id leaves the list and every other lead stays |
| Pipeline.DeleteShortensByOne | src/pages/Pipeline.tsx:246-262 | with distinct ids, deleting a listed lead shortens the list by exactly one, matching the counter's decrement |
| Pipeline.OwnerFallback | src/pages/Pipeline.tsx:266-272 | `ToSave` with `OwnerOf`: a new lead without an owner is owned by its creator; an owner already set is kept; an existing lead never gains one |
| Pipeline.Replaced | src/pages/Pipeline.tsx:294-317 | the saved lead replaces the one with its id, in place; every other lead stays |
| Pipeline.AfterSave | src/pages/Pipeline.tsx:264-325 | a failed write is rethrown; an insert puts the stored row first and raises the count; an update replaces in place and keeps the count |
| Pipeline.SaveKeepsCountInSync | src/pages/Pipeline.tsx:264-325 | after a successful save the counter still equals the list length |
| Pipeline.SaveExistingInPlace | src/pages/Pipeline.tsx:294-317 | saving an existing lead changes only the entries with its id |
| Pipeline.AddLeadOutcome | src/pages/Pipeline.tsx:221-240 | the limit dialog opens exactly on a free plan with ten leads or more; otherwise a medium-priority draft in the clicked column, stamped now, owned by the user, naming the user as responsible, with empty company, contact and email and no other field set |
| Pipeline.PipelinePage.LoadLeads | src/pages/Pipeline.tsx:80-96 | loaded rows replace the list and set the count, and nothing else changes; a failed load changes nothing at all |
| Pipeline.PipelinePage.Shown | src/pages/Pipeline.tsx:142-179 | the rendered list is `FilteredLeads` of the page state |
| Pipeline.PipelinePage.RefreshCounts | src/pages/Pipeline.tsx:98-140 | the counters become those of `FetchLeadCounts`: an entry exactly for each lead id with an activity or tag row, holding both counts; every other field is unchanged |
| Pipeline.PipelinePage.MoveLead | src/pages/Pipeline.tsx:181-208 | when the backend accepts the move only the list changes, by `WithStatus`; on failure nothing changes |
| Pipeline.PipelinePage.DeleteLead | src/pages/Pipeline.tsx:246-262 | on success only the list and the count change: the lead leaves the list and the count drops by one; on failure nothing changes |
| Pipeline.PipelinePage.SaveLead | src/pages/Pipeline.tsx:264-325 | the page takes the list and count of `AfterSave`, every other field unchanged; on a failed write it returns the error and keeps its whole state |
| Pipeline.PipelinePage.AddLead | src/pages/Pipeline.tsx:221-240 | only the limit dialog or the selected draft changes, as `AddLeadOutcome` decides |
| Pipeline.PipelinePage.PriorityFilter | src/pages/Pipeline.tsx:327-334 | only the priority selection changes, to `TogglePriority` of the old one |
| Pipeline.PipelinePage.DateOrderChange | src/pages/Pipeline.tsx:336-341 | only the date order changes |
| Pipeline.PipelinePage.ClearFilters | src/pages/Pipeline.tsx:343-348 | only the filters change, to no priority and no order |
| Kanban.ColumnTotalNonNegative | src/components/pipeline/KanbanColumn.tsx:41 | a column without negative values never has a `ColumnTotal` below zero |
| Kanban.ColumnTotalSplit | src/components/pipeline/KanbanColumn.tsx:41 | totals of two columns add up to the total of their union |
| Kanban.LeadLimit | src/components/pipeline/KanbanColumn.tsx:45 | the plan's limit when set and non-zero, otherwise ten; never zero |
| Kanban.FlagsMeaning | src/components/pipeline/KanbanColumn.tsx:44-47 | `Flags`: paid plans never warn; on a free plan "at limit" holds exactly when the count reaches the limit, and implies "near limit" |
| Kanban.FreeDefaultThresholds | src/components/pipeline/KanbanColumn.tsx:44-47 | with the default limit the warning starts at eight leads and the limit at ten |
| Kanban.DropLandsInColumn | src/components/pipeline/KanbanColumn.tsx:32-34 | a dropped card ends in the drop column and no other card moves |
| Dashboard.StageCountsTotal | src/pages/Dashboard.tsx:149-152 | the per-stage counts of `StageCounts` add up to the number of leads |
| Dashboard.StageCountIsCount | src/pages/Dashboard.tsx:149-152 | the count `StageCounts` gives a stage is the number of leads in that stage, zero when there is none |
| Dashboard.ComputeMetrics | src/pages/Dashboard.tsx:140-169 | total, leads created within the last week, summed values, the fixed response rate and the meeting count |
| Dashboard.AfterFetch | src/pages/Dashboard.tsx:128-176 | a failed leads query leaves the metrics as they were |
| Dashboard.MetricsStagesAddUp | src/pages/Dashboard.tsx:140-169 | the stage counts of the metrics add up to the total shown |
| Dashboard.Percentage | src/pages/Dashboard.tsx:314 | zero without leads; a share of at most all leads lies between 0 and 100 |
| Dashboard.BarWidth | src/pages/Dashboard.tsx:325 | never wider than 100, never negative for a real share |
| Dashboard.StageShareAtMostAll | src/pages/Dashboard.tsx:313-325 | for the dashboard's own counts the cap is never needed |
| Dashboard.CeilDiv | src/pages/Dashboard.tsx:228-235 | the least integer at or above the quotient |
| Dashboard.DaysUntilExpiry | src/pages/Dashboard.tsx:228-235 | present exactly when an expiry is set; the number of started days until it |
| Dashboard.TrialWarningMeaning | src/pages/Dashboard.tsx:237-241 | `IsTrialExpiringSoon`: the warning shows exactly for a free plan expiring within two days (or already expired) |
| Activities.ClassifyWindows | src/pages/Activities.tsx:102-130 | `Classify`: each column holds exactly its window of days; completed activities only the last column |
| Activities.ClassifyMonotone | src/pages/Activities.tsx:102-130 | a later open activity never lands in an earlier column |
| Activities.ClassifyAsDaysPass | src/pages/Activities.tsx:102-130 | as days pass an open activity moves only towards "overdue" |
| Activities.Column | src/pages/Activities.tsx:132-134 | a column holds exactly the activities of its status |
| Activities.ColumnsPartition | src/pages/Activities.tsx:132-134 | the five columns together hold as many cards as the list |
| Activities.Search | src/pages/Activities.tsx:278-281 | exactly the activities whose title or lead's company contains the query, ignoring case |
| Activities.EmptySearchKeepsAll | src/pages/Activities.tsx:278-281 | an empty query shows every activity in order |
| Activities.CompleteIn | src/pages/Activities.tsx:244-247 | only the activity with that id becomes completed, at that time |
| Activities.CompleteMovesOnlyThatCard | src/pages/Activities.tsx:213-253 | the completed card moves to "completed" and no other card changes column |
| Activities.WithoutLead | src/pages/Activities.tsx:273-276 | every activity of the deleted lead leaves, every other stays |
| Activities.ActivitiesPage.CompleteActivity | src/pages/Activities.tsx:213-253 | the list changes, by `CompleteIn`, only when the backend accepted it |
| Activities.ActivitiesPage.DeleteLead | src/pages/Activities.tsx:273-276 | the list becomes `WithoutLead` of the old one |
| Community.ToggleLike | src/pages/Community.tsx:155-165 | only the post with that id flips its like and moves its count by one |
| Community.FlipKeepsOthersLikes | src/pages/Community.tsx:155-165 | the count of other people's likes is unchanged by a like |
| Community.ToggleLikeTwice | src/pages/Community.tsx:155-165 | liking twice restores every post |
| Community.Without | src/pages/Community.tsx:180-181 | the voter list without that user, nothing else removed |
| Community.WithoutUnique | src/pages/Community.tsx:180-181 | on a duplicate-free list removal keeps it duplicate-free and shortens it by one exactly when the user was in it |
| Community.FirstWithId | src/pages/Community.tsx:201 | the first option with that id, or none exactly when no option has it |
| Community.VotePoll | src/pages/Community.tsx:167-238 | the option list keeps its ids and texts, and the total is the sum of the option counts |
| Community.SingleChoiceVote | src/pages/Community.tsx:176-198 | in a single-choice poll, after any vote the user is a voter of exactly the options with the chosen id, so clicking one's own option never withdraws the vote |
| Community.MultipleChoiceVote | src/pages/Community.tsx:200-234 | in a multiple-choice poll only the chosen option changes, and the user's vote on it flips |
| Community.MultipleChoiceVoteTwice | src/pages/Community.tsx:200-234 | voting for an option and then again restores the poll |
| Community.VoteKeepsConsistent | src/pages/Community.tsx:167-238 | each option's count stays the size of its duplicate-free voter list, and the total the sum |
| Community.VoteOnPosts | src/pages/Community.tsx:167-238 | only the poll of the post with that id changes |
| Community.NewPost | src/pages/Community.tsx:240-265 | refused exactly when text and title are both blank; the title falls back to the text cut at 50 with "..." |
| Community.OptionIdsDistinct | src/pages/Community.tsx:274-276 | option ids made at one instant differ by position |
| Community.NewOptions | src/pages/Community.tsx:274-279 | one option per kept entry, in order: its time-and-position id, the trimmed text, no votes |
| Community.NewPoll | src/pages/Community.tsx:267-319 | refused exactly for a blank question or fewer than two non-blank options; otherwise one option per non-blank entry and the chosen expiry |
| Community.NewPollConsistent | src/pages/Community.tsx:267-319 | a new poll is consistent, with trimmed non-blank options and no votes |
| Community.AddOption | src/pages/Community.tsx:321-325 | one blank option more, up to six |
| Community.RemoveOption | src/pages/Community.tsx:327-331 | the option at that position goes while more than two remain |
| Community.FilteredPosts | src/pages/Community.tsx:339-344 | exactly the posts of the category (or all) whose title or text contains the query |
| Community.FilteredPostsShowsAll | src/pages/Community.tsx:339-344 | "all" and an empty query show the whole feed in order |
| Community.CommunityPage.Like | src/pages/Community.tsx:155-165 | only the feed changes, to `ToggleLike` of the old one; the forms are untouched |
| Community.CommunityPage.Vote | src/pages/Community.tsx:167-238 | only the feed changes, to `VoteOnPosts` with the user's id or the shared placeholder |
| Community.CommunityPage.SubmitPost | src/pages/Community.tsx:240-265 | the page becomes `AfterPost` of the old page: a refused post changes nothing; otherwise the post goes first, the post form is cleared and closed, and the poll form is untouched |
| Community.CommunityPage.SubmitPoll | src/pages/Community.tsx:267-319 | the page becomes `AfterPoll` of the old page: a refused poll changes nothing; otherwise the poll goes first and both forms return to their initial state |
| Community.CommunityPage.AddPollOption | src/pages/Community.tsx:321-325 | only the poll form options change, to `AddOption` of the old ones, keeping two to six |
| Community.CommunityPage.RemovePollOption | src/pages/Community.tsx:327-331 | only the poll form options change, to `RemoveOption` of the old ones, keeping two to six |
| Community.CommunityPage.UpdatePollOption | src/pages/Community.tsx:333-337 | only that slot of the poll form options takes the new text; everything else is unchanged |
| ChatBridge.NormalizeChatId | whatsapp-server.cjs:100 | the result carries the personal suffix; it equals the input exactly when the input already did, and otherwise appends it |
| ChatBridge.NormalizeIdempotent | whatsapp-server.cjs:100 | normalising twice is normalising once |
| ChatBridge.FormatChat | whatsapp-server.cjs:124-130 | the id; the name, or the user part of the id when the name is empty; the last message's body or ""; its timestamp, or the current time when there is none or it is 0; the unread count or 0 |
| ChatBridge.FormatChats | whatsapp-server.cjs:124-130 | one summary per chat, in order |
| ChatBridge.FormatMessage | whatsapp-server.cjs:151-158 | the view keeps the message's serialized id, sender, body, timestamp, type and own-message flag |
| ChatBridge.FormatMessages | whatsapp-server.cjs:151-158 | one view per message, in order |
| ChatBridge.FormatIncoming | whatsapp-server.cjs:63-73 | the forwarded message keeps id, body and chat id, and names the chat by name or user |
| ChatBridge.Bridge.OnQr | whatsapp-server.cjs:37-41 | the code is stored and sent to everyone; nothing else changes |
| ChatBridge.Bridge.OnReady | whatsapp-server.cjs:44-49 | connected, the code dropped, everyone told |
| ChatBridge.Bridge.OnDisconnected | whatsapp-server.cjs:52-56 | not connected; client and code kept; everyone told |
| ChatBridge.Bridge.OnMessage | whatsapp-server.cjs:59-74 | the formatted message goes to everyone |
| ChatBridge.Bridge.SubscriberConnected | whatsapp-server.cjs:81-90 | the subscriber gets the status, then the code when there is a non-empty one |
| ChatBridge.Bridge.SendMessage | whatsapp-server.cjs:93-115 | refused when not ready; otherwise sent to the normalised id, answered with a confirmation or an error |
| ChatBridge.Bridge.GetChats | whatsapp-server.cjs:116-138 | refused when not ready; otherwise the formatted chats or an error |
| ChatBridge.Bridge.GetMessages | whatsapp-server.cjs:140-165 | refused when not ready; otherwise the last 50 messages of the normalised chat or an error |
| ChatBridge.Bridge.DisconnectWhatsApp | whatsapp-server.cjs:168-176 | the client, if any, is destroyed and dropped and everyone is told; at most one client stays alive |
| ChatBridge.Bridge.ReconnectWhatsApp | whatsapp-server.cjs:178-182 | a new client is created and initialised only when none is held |
| ChatBridge.Bridge.HttpStatus | whatsapp-server.cjs:190-192 | the connected flag and the pairing code |
| ChatBridge.Bridge.HttpSendMessage | whatsapp-server.cjs:194-212 | 400 when not ready; otherwise the normalised send, answering 200 with the id or 500 |
| ChatBridge.Bridge.HttpChats | whatsapp-server.cjs:214-234 | 400 when not ready; otherwise 200 with the formatted chats or 500 |
| ChatBridge.LostSessionIgnoresReconnect | whatsapp-server.cjs:178-182 | after a lost session the reconnect command does nothing, as the old client is still held |
| ChatBridge.DisconnectThenReconnect | whatsapp-server.cjs:168-182 | disconnect then reconnect destroys the old client and starts exactly one new one |
| ChatFacade.AsFetched | src/hooks/useWhatsApp.ts:94-97 | one list entry per fetched message, in order |
| ChatFacade.ChatHook.Connect | src/hooks/useWhatsApp.ts:50-114 | no effect while the held socket is connected; otherwise a new socket is opened and held, loading starts and the error clears |
| ChatFacade.ChatHook.ConnectReplacing | src/hooks/useWhatsApp.ts:50-56 | like `connect`, but closes a held socket that is not connected, so at most one socket stays open |
| ChatFacade.ChatHook.Disconnect | src/hooks/useWhatsApp.ts:116-127 | the server is asked to drop its client, the socket is closed and forgotten, and the snapshot is cleared |
| ChatFacade.ChatHook.Request | src/hooks/useWhatsApp.ts:129-151 | a command goes out only through a held socket while connected; otherwise the "not connected" error |
| ChatFacade.ChatHook.SendMessage | src/hooks/useWhatsApp.ts:129-135 | `send-message` through the held socket, or the "not connected" error; the sockets, the snapshot and the loading flag are unchanged |
| ChatFacade.ChatHook.GetChats | src/hooks/useWhatsApp.ts:137-143 | `get-chats` through the held socket, or the error; every field is unchanged |
| ChatFacade.ChatHook.GetMessages | src/hooks/useWhatsApp.ts:145-151 | `get-messages` through the held socket, or the error; every field is unchanged |
| ChatFacade.ChatHook.Reconnect | src/hooks/useWhatsApp.ts:153-157 | `reconnect-whatsapp` whenever a socket is held, whatever its state |
| ChatFacade.ChatHook.Unmount | src/hooks/useWhatsApp.ts:164-168 | the held socket closes; the server is not asked to drop its client |
| ChatFacade.ChatHook.OnTransportConnect | src/hooks/useWhatsApp.ts:58-61 | loading ends |
| ChatFacade.ChatHook.OnTransportDisconnect | src/hooks/useWhatsApp.ts:63-67 | not connected, loading ends |
| ChatFacade.ChatHook.OnServerEvent | src/hooks/useWhatsApp.ts:69-113 | each server event updates its part of the snapshot; pushed and sent messages are appended |
| ChatFacade.ConnectTwiceWhenLinked | src/hooks/useWhatsApp.ts:51 | a second `connect` on a connected socket changes nothing |
| ChatFacade.DuplicatedDelivery | src/hooks/useWhatsApp.ts:99-102 | with two open sockets one pushed message is appended twice |
| ChatFacade.ConnectBeforeHandshakeLeaksSocket | src/hooks/useWhatsApp.ts:50-56 | two `connect` calls before the first handshake leave two sockets open, so the single-socket property fails |
| Scraping.Remaining | src/pages/ScrappingMap.tsx:264-267 | the plan's `ExtractionLimit` minus the usage, floored at zero |
| Scraping.NoSubscriptionNothingLeft | src/pages/ScrappingMap.tsx:259-267 | without a subscription nothing is left |
| Scraping.FirstArrayValue | src/pages/ScrappingMap.tsx:363 | the first array among the object's values, none exactly when there is none |
| Scraping.DecodeFromReply | src/pages/ScrappingMap.tsx:342-371 | `DecodeReply`: a decoded list is the reply itself, or one of its fields, or the whole reply as one record |
| Scraping.EnvelopeRoundTrip | src/pages/ScrappingMap.tsx:345-353 | a list sent bare, under "results" or under "data" decodes to itself |
| Scraping.ErrorReportPrecedence | src/pages/ScrappingMap.tsx:345-357 | a reply with an error field fails exactly when it carries no result list |
| Scraping.ValidResults | src/pages/ScrappingMap.tsx:377-381 | exactly the records that are objects with a title, a phone or an email |
| Scraping.Extract | src/pages/ScrappingMap.tsx:342-387 | a successful extraction is non-empty and every record is valid |
| Scraping.SingleRecordAccepted | src/pages/ScrappingMap.tsx:359-361 | one valid record without an envelope or error is accepted as a list of one |
| Scraping.GuardsStopEarly | src/pages/ScrappingMap.tsx:279-290 | `Submit`: without an active plan, or asking for more than is left, nothing is requested and the usage stays |
| Scraping.SuccessAccounting | src/pages/ScrappingMap.tsx:389-405 | a completed session records its own count, at least one, and the usage rises by it |
| Scraping.FailureMarksSession | src/pages/ScrappingMap.tsx:413-425 | once the session row exists any failure marks it failed and the usage stays |
| Scraping.QuotaRespected | src/pages/ScrappingMap.tsx:279-290 | a webhook that returns no more than was asked for keeps the usage within the plan limit |
| Scraping.PipelineLeadsAsWritten | src/pages/ScrappingMap.tsx:444-456 | one lead per result, stamped with the time in seconds as written |
| Scraping.SecondsStampNeverNew | src/pages/ScrappingMap.tsx:452 | such a lead is never counted as new this week by the dashboard |
| Scraping.PipelineLeads | src/pages/ScrappingMap.tsx:444-456 | one lead per result, stamped in milliseconds like every other lead |
| Scraping.PipelineLeadsShape | src/pages/ScrappingMap.tsx:444-456 | each exported lead sits in the first column at medium priority, owned by the user, "" for missing fields, and counts as new for a week |
| Scraping.ImportedNotice | src/pages/ScrappingMap.tsx:465 | the notice is the number of leads exported, in decimal, followed by the fixed success text |
| Scraping.ImportedNoticeDeterminesCount | src/pages/ScrappingMap.tsx:465 | exports of different sizes show different notices |
| Scraping.ScrapePage.HandleSubmit | src/pages/ScrappingMap.tsx:273-439 | the page takes error, results, usage and session outcome of `Submit` |
| Scraping.ScrapePage.SaveToPipeline | src/pages/ScrappingMap.tsx:441-476 | a failed insert shows the error; otherwise the leads written are `PipelineLeads` of the results, with the millisecond stamp the Findings table gives as intended, and the notice counts them |
| ResultsTable.ToggleFlipsOnlyThatRow | src/components/ScrappingResultsTable.tsx:6-16 | `Toggled`: only that row changes its expanded state |
| ResultsTable.ToggleTwice | src/components/ScrappingResultsTable.tsx:6-16 | toggling twice restores the expanded rows |
| ResultsTable.Table.ToggleRow | src/components/ScrappingResultsTable.tsx:6-16 | the expanded rows become the old ones with that row toggled |
| ResultsTable.Either | src/components/ScrappingResultsTable.tsx:34-36 | the first truthy of two reads, else the fallback |
| ResultsTable.ColumnsAlwaysShowSomething | src/components/ScrappingResultsTable.tsx:34-36 | `Instagram` and `Facebook` show a link or nothing; `Rating` always shows a value |
| ResultsTable.TopLevelWins | src/components/ScrappingResultsTable.tsx:34 | a top-level Instagram field beats the nested profile list |
| ResultsTable.NestedFirstProfile | src/components/ScrappingResultsTable.tsx:34 | without it the first nested profile is shown |
| CsvImport.Cells | src/pages/ImportSettings.tsx:45-47 | one trimmed cell per comma-separated piece |
| CsvImport.ParseCsv | src/pages/ImportSettings.tsx:42-48 | at least one header cell, fewer rows than lines, and every row has a non-empty cell |
| CsvImport.ApplyChange | src/pages/ImportSettings.tsx:70-76 | the settings change in at most one field: responsible or stage to the value, or the header flag to the checked state |
| CsvImport.ImportRow | src/pages/ImportSettings.tsx:91-102 | cell i is present exactly when the row has more than i cells, the first five cells in order otherwise; the chosen stage and responsible, medium priority, stamped now, owned by the user |
| CsvImport.FirstLineIsHeader | src/pages/ImportSettings.tsx:42-48 | the first line is the header and the rows come from the lines after it |
| CsvImport.ParsedRowsFromLines | src/pages/ImportSettings.tsx:46-48 | every row shown is a non-empty line after the header, and every such line is shown |
| CsvImport.RowsInFileOrder | src/pages/ImportSettings.tsx:46-48 | rows keep file order |
| CsvImport.TrailingNewlineAddsNoRow | src/pages/ImportSettings.tsx:46-48 | a trailing newline adds no row |
| CsvImport.PreviewRows | src/pages/ImportSettings.tsx:163 | the first five rows, all of them when there are fewer |
| CsvImport.PreviewNote | src/pages/ImportSettings.tsx:176-180 | the note shows exactly when rows are hidden |
| CsvImport.ChangeOnlyNamedField | src/pages/ImportSettings.tsx:70-76 | only the named setting changes, to the value or to the checked state |
| CsvImport.ChangeIdempotent | src/pages/ImportSettings.tsx:70-76 | the same change twice is the change once |
| CsvImport.CellAt | src/pages/ImportSettings.tsx:92-96 | a cell past the end of the row is missing |
| CsvImport.HandleImport | src/pages/ImportSettings.tsx:84-125 | nothing happens exactly without a preview or a user; otherwise the insert fails exactly when the backend refuses it, and a success notice is the number of leads imported followed by the fixed success text |
| CsvImport.ImportOneLeadPerRow | src/pages/ImportSettings.tsx:91-102 | one lead per row whose columns 0-4 are `CellAt` of that row (company, contact, email, phone, job title), a cell past the end missing; the chosen stage and responsible, medium priority, owned by the user |
| CsvImport.DefaultImportStage | src/pages/ImportSettings.tsx:23-27 | with the defaults every lead lands in "prospected" |
| LeadModal.FilteredTags | src/components/pipeline/LeadModal.tsx:288-291 | exactly the tags not yet on the lead whose name contains the query |
| LeadModal.ExactTagMatch | src/components/pipeline/LeadModal.tsx:294-296 | a tag with that name ignoring case, none exactly when there is none |
| LeadModal.ExactMatchIsSuggested | src/components/pipeline/LeadModal.tsx:288-296 | an exact match not yet on the lead is among the suggestions |
| LeadModal.CreateRefusal | src/components/pipeline/LeadModal.tsx:343-348 | creation is refused exactly for a blank query, an unsaved lead or an existing name |
| LeadModal.CreateAndSelect | src/components/pipeline/LeadModal.tsx:343-382 | a refusal changes nothing and requests no tag; otherwise the trimmed name is requested, a failed tag insert changes nothing, a failed link only adds the tag, and a full success adds and links it and clears the query |
| LeadModal.NewTagName | src/components/pipeline/LeadModal.tsx:350 | the new tag's name is non-empty and trimmed |
| LeadModal.WithoutLeadTag | src/components/pipeline/LeadModal.tsx:384-393 | only that tag relation leaves the lead |
| LeadModal.ObservationDescription | src/components/pipeline/LeadModal.tsx:263-271 | the history text holds the first 100 characters, with "..." only when something was cut |
| LeadModal.ReplaceActivity | src/components/pipeline/LeadModal.tsx:442 | the stored activity replaces the one with its id, in place |
| LeadModal.WithoutActivity | src/components/pipeline/LeadModal.tsx:469 | every activity with that id leaves, every other stays in order; an absent id leaves the list unchanged |
| LeadModal.DeletionEntries | src/components/pipeline/LeadModal.tsx:471-482 | at most one entry, an "activity_deleted", written exactly when the activity was listed on a saved lead |
| LeadModal.FindActivity | src/components/pipeline/LeadModal.tsx:462 | the first activity with that id, none exactly when there is none |
| LeadModal.AddThenDeleteRestores | src/components/pipeline/LeadModal.tsx:395-484 | adding an activity with a fresh id and deleting it gives back the list |
| LeadModal.EditKeepsIds | src/components/pipeline/LeadModal.tsx:426-459 | editing changes no id |
| LeadModal.StageLabelsAgree | src/components/pipeline/LeadModal.tsx:538-541 | the modal's `GetStageLabel` and the pipeline table label every status alike |
| LeadModal.TranslateEventType | src/components/pipeline/LeadModal.tsx:625-639 | a known event shows its non-empty label, anything else itself |
| LeadModal.ModalEventsTranslated | src/components/pipeline/LeadModal.tsx:625-639 | every event the modal writes has a label |
| LeadModal.Modal.TagInputChange | src/components/pipeline/LeadModal.tsx:298-302 | only the query and the suggestions flag change: the query is stored, and suggestions show exactly when it is not empty |
| LeadModal.Modal.SelectTag | src/components/pipeline/LeadModal.tsx:315-341 | on a saved lead with a stored relation only the relations and the query change: the relation is appended and the query cleared; otherwise nothing changes |
| LeadModal.Modal.CreateAndSelectTag | src/components/pipeline/LeadModal.tsx:343-382 | the modal becomes the state of `CreateAndSelect`: refused as `CreateRefusal` says, with nothing changed; otherwise the trimmed name is requested and the tag added and linked |
| LeadModal.Modal.RemoveTag | src/components/pipeline/LeadModal.tsx:384-393 | on success only the relations change, to `WithoutLeadTag` of the old ones; on failure nothing changes |
| LeadModal.ObservationEntries | src/components/pipeline/LeadModal.tsx:262-272 | saving a note writes at most one history entry, none exactly when the note is blank after trimming, and that entry is an "observation_added" whose text starts "Observação adicionada: " |
| LeadModal.Modal.SaveObservation | src/components/pipeline/LeadModal.tsx:247-285 | on a saved lead, with a user and a successful write, only the notes and the history change: the note is stored and `ObservationEntries` written; otherwise nothing changes |
| LeadModal.Modal.AddActivity | src/components/pipeline/LeadModal.tsx:395-424 | on a saved lead with a stored row, the activity goes first, the history records it and the form closes and resets; otherwise nothing changes |
| LeadModal.Modal.EditActivity | src/components/pipeline/LeadModal.tsx:426-459 | while editing, on a saved lead with a stored row, the activity is replaced in place by `ReplaceActivity`, the history records it and the form closes; otherwise nothing changes |
| LeadModal.Modal.DeleteActivity | src/components/pipeline/LeadModal.tsx:461-484 | on success only the list and the history change: the activity leaves and `DeletionEntries` is written; on failure nothing changes |
| LeadModal.Modal.CompleteActivity | src/components/pipeline/LeadModal.tsx:486-502 | the history gains exactly the completion entry, then the deletion's entry when the delete succeeds; only the list and the history change |
| LeadModal.Modal.StageChange | src/components/pipeline/LeadModal.tsx:504-536 | a draft only takes the stage; a saved lead takes it only on success, recording the move between labels; on failure nothing changes |
| UserRole.ActiveMemberships | src/hooks/useUserRole.ts:47-55 | exactly the active memberships |
| UserRole.Groups | src/hooks/useUserRole.ts:59-72 | administered groups first, then memberships, each in query order |
| UserRole.RoleFlags | src/hooks/useUserRole.ts:59-81 | `FetchRole`: admin exactly when some group is administered, collaborator exactly when some membership is active, every listed group active |
| UserRole.FailureResetsRole | src/hooks/useUserRole.ts:82-85 | no user or a failed query resets the role |
| UserRole.CanAccessFeature | src/hooks/useUserRole.ts:95-103 | user management for admins only, every other feature for everyone |
| UserRole.CollaboratorGate | src/hooks/useUserRole.ts:90-103 | a collaborator who administers nothing reaches everything but user management |
| Cadence.TotalsAdd | src/components/cadences/CadenceCard.tsx:26-27 | `TotalSent` of two cadences adds up |
| Cadence.Round | src/components/cadences/CadenceCard.tsx:28 | the nearest integer to the quotient, halves up |
| Cadence.ResponseRateBounds | src/components/cadences/CadenceCard.tsx:28 | `ResponseRate`: no more responses than sends gives a rate from 0 to 100, and an exact percentage is shown as is |
| Cadence.PreviewSteps | src/components/cadences/CadenceCard.tsx:54 | at most the first three steps, in order |
| Cadence.MoreSteps | src/components/cadences/CadenceCard.tsx:58-62 | the note shows exactly when steps are hidden |
| Cadence.PreviewAccountsForAll | src/components/cadences/CadenceCard.tsx:54-62 | listed and noted steps account for every step |
| Cadence.SortedSteps | src/components/cadences/CadenceSchedule.tsx:11 | a copy sorted by day, a permutation, keeping same-day steps in order |
| Cadence.StepIcon | src/components/cadences/CadenceSchedule.tsx:13-26 | each icon exactly for its lower-cased type, the clock otherwise |
| Cadence.StepIconIgnoresCase | src/components/cadences/CadenceSchedule.tsx:13-26 | the icon does not depend on case |
| Register.ValidatePassword | src/pages/Register.tsx:79-87 | mismatch first, then length; no error exactly for a matching password of six or more |
| Register.NewSubscription | src/pages/Register.tsx:57-73 | an active subscription to the plan, expiring its duration after today |
| Register.RegisterPage.PlanSelect | src/pages/Register.tsx:52-55 | the plan is chosen and the account step opens; loading and navigation are unchanged |
| Register.RegisterPage.ChangePlan | src/pages/Register.tsx:235 | back to the plan step, keeping the plan; loading and navigation are unchanged |
| Register.RegisterPage.Submit | src/pages/Register.tsx:75-108 | invalid input only shows its error; otherwise the account is registered and, when a user and plan exist and the insert succeeds, the subscription stored and the home page opened |
| StableSort.SortPermutes | src/pages/Pipeline.tsx:161-169 | sorting is a permutation |
| StableSort.SortSorted | src/pages/Pipeline.tsx:161-169 | sorting orders by the key |
| StableSort.SortStable | src/pages/Pipeline.tsx:161-169 | elements with the same key keep their relative order |
| StableSort.SortInPlace | src/pages/Pipeline.tsx:161-169 | the in-place insertion sort leaves the array as the specification `Sort` |
| Leads.StageLabel | src/pages/Pipeline.tsx:210-219 | a known stage shows its non-empty label, anything else itself |
| Leads.ResponsibleName | src/pages/Pipeline.tsx:236 | the user's name when set, otherwise "Unknown"; never empty |

## Left out

- Network, database, webhook, file reading and navigation are parameters: a query result is a `Result`, a failed write a boolean, the webhook reply a `WebhookReply`.
- Asynchronous interleaving is not modelled: each handler runs as one step with its awaited results given up front, and the browser's `setState` batching is not modelled.
- Floating point: `Math.round`, `Math.ceil`, the percentages and `count >= limit * 0.8` are exact integer or real arithmetic.
- Dates are integers (milliseconds, or whole days in `Activities` and `Register`); `toISOString`, `setDate` and time zones are not modelled.
- Strings are sequences of characters: UTF-16 code units, full Unicode case mapping and `toLocaleString` are not modelled; `Text.Lower` maps ASCII and Latin-1 letters only.
- `Json.ToText` approximates how the database stores a non-text value written into a text column.
- `Dashboard.StageCounts`: object keys are kept in insertion order; JavaScript lists integer-like keys first, which stage names never are.
- `CsvImport.ParseCsv`: the XLSX branch and `FileReader` are not modelled; `hasHeader` is a setting the parser never reads, as in the source; `handleNext` only opens the preview and is not modelled.
- `CsvImport.ImportRow`: every row uses one `now`, where the source calls `Date.now()` per row.
- `CsvImport.ApplyChange`: events the form cannot produce (a checkbox named like a select, an unknown name) leave the settings unchanged, where the source would write the odd field.
- `Scraping.Extract`: the "not in the expected format" branch cannot be reached once a reply is decoded and is not modelled as a separate outcome.
- The refreshes after a save or export (`fetchHistory`, `fetchLeadCounts`, `fetchScrapingHistory`, `fetchMonthlyUsage`) are not modelled; `Scraping.Submit` records the usage and session outcome they would read.
- `LeadModal`: documents, file uploads, group members and the delete-lead dialog are not modelled.
- `Register.ValidatePassword` models the registration page's messages only. The settings page makes the same two checks in the same order, but with other texts: "As senhas não coincidem." (with a period) and "A nova senha deve ter pelo menos 6 caracteres." (other wording, with a period). The settings page is not modelled.
- `Community`: the leaderboard, categories and the "time remaining" text are presentation and are not modelled.
- `ChatFacade.ChatHook.OnServerEvent`: console logging is dropped.
- `LeadModal.TranslateEventType` looks the event up in a map. The source indexes a plain object, so a key such as "constructor" or "toString" would yield an inherited member there, where the model returns the key itself. The modal never writes such event types.
- Numbers: a lead's `value` and a JSON number (`Json.JNum`) are integers. A fractional amount, such as a deal worth 99.90, or a rating such as 4.7, is not represented. So `Kanban.ColumnTotal` and `Dashboard.ComputeMetrics` sum integers.
- Pipeline.PipelinePage.MoveLead, Pipeline.PipelinePage.SaveLead and Activities.ActivitiesPage.CompleteActivity do not write the `lead_history` rows the source inserts after a move (`status_change`), a creation (`lead_created`) or an update (`lead_updated`), nor the `activity_completed` row of the activities board. Only the modal's history is modelled.
- Scraping.ScrapePage.SaveToPipeline writes `PipelineLeads`, the corrected stamp in milliseconds. The stamp in seconds that src/pages/ScrappingMap.tsx:452 writes is `Scraping.PipelineLeadsAsWritten`; the Findings table compares the two.
- Community.CommunityPage.SubmitPost and Community.CommunityPage.SubmitPoll take one `now` per call, where the source calls `Date.now()` separately for the post id, the poll id, each option id and the creation stamp.
- `Leads.Subscription`: a subscription always carries its plan. The source reads `userSubscription?.subscription_plans.type`, which throws when the plan join is null; that throw is not modelled.
- `Leads.Lead.contactname` is a plain string. A CSV row with fewer than two cells imports a lead without a contact name (`CsvImport.ImportedLead` keeps it missing). The pipeline search then throws on `contactname.toLowerCase()`; that throw is not modelled.
- `Scraping.FirstArrayValue` scans an object's fields in insertion order. `Object.values` lists integer-like keys first; the webhook's field names are not integer-like.
- Planning, courses, settings, user management and the create-user function are outside this model.

## Findings

| source | as written | input that shows it | evidently intended | confidence | as-written member | corrected member |
|---|---|---|---|---|---|---|
| src/hooks/useWhatsApp.ts:51-56 | `connect` returns early only when the held socket is already connected; otherwise it opens a new socket without closing the held one | two `connect` calls before the first socket's handshake completes: both sockets stay open and every pushed message is appended twice | at most one open socket per hook | medium, not executed | ChatFacade.ConnectBeforeHandshakeLeaksSocket | ChatFacade.ChatHook.ConnectReplacing |
| src/pages/ScrappingMap.tsx:452 | exported leads get `createddate: Math.floor(Date.now() / 1000)`, seconds, while every other writer uses milliseconds | any export after the first two weeks of 1970: the dashboard never counts the lead as new this week, and the pipeline sorts it as the oldest | `createddate: Date.now()` | medium, not executed | Scraping.SecondsStampNeverNew | Scraping.PipelineLeadsShape |

=== FILE: activities.dfy ===
/** The activities page: each activity's column on the board, the search, and
    the local updates after completing an activity or deleting a lead. Dates are
    whole day numbers in the browser's calendar. */
module Activities {
  import opened Wrappers
  import Text
  import Seqs

  /** The lead joined to an activity row; only its company name is read here. */
  datatype LeadRef = LeadRef(id: string, companyname: string)

  datatype Activity = Activity(
    id: string,
    leadId: string,
    title: string,
    scheduledDay: int,
    completed: bool,
    completedAt: Option<int>,
    lead: Option<LeadRef>)

  datatype Status = Overdue | Today | ThisWeek | Future | Completed

  /** `getActivityStatus`: a completed activity is done whatever its date; otherwise
      its day is compared with today and with the day a week from today. */
  function Classify(a: Activity, today: int): Status {
    if a.completed then Completed
    else if a.scheduledDay < today then Overdue
    else if a.scheduledDay == today then Today
    else if a.scheduledDay <= today + 7 then ThisWeek
    else Future
  }

  /** The column a status stands in, left to right. */
  function Rank(s: Status): nat {
    match s
    case Overdue => 0
    case Today => 1
    case ThisWeek => 2
    case Future => 3
    case Completed => 4
  }

  /** Each status names its window of days exactly. */
  lemma ClassifyWindows(a: Activity, today: int)
    ensures Classify(a, today) == Completed <==> a.completed
    ensures Classify(a, today) == Overdue <==> !a.completed && a.scheduledDay < today
    ensures Classify(a, today) == Today <==> !a.completed && a.scheduledDay == today
    ensures Classify(a, today) == ThisWeek <==> !a.completed && today < a.scheduledDay <= today + 7
    ensures Classify(a, today) == Future <==> !a.completed && a.scheduledDay > today + 7
  {
  }

  /** A later open activity never lands in an earlier column. */
  lemma ClassifyMonotone(a: Activity, b: Activity, today: int)
    requires !a.completed && !b.completed && a.scheduledDay <= b.scheduledDay
    ensures Rank(Classify(a, today)) <= Rank(Classify(b, today))
  {
  }

  /** As a day passes, an open activity moves only towards "overdue". */
  lemma ClassifyAsDaysPass(a: Activity, today: int)
    requires !a.completed
    ensures Rank(Classify(a, today + 1)) <= Rank(Classify(a, today))
  {
  }

  /** The test "belongs to column `s`". */
  function InColumn(s: Status, today: int): Activity -> bool {
    a => Classify(a, today) == s
  }

  /** `getActivitiesByStatus`. */
  function Column(acts: seq<Activity>, s: Status, today: int): (r: seq<Activity>)
    ensures forall i | 0 <= i < |r| :: r[i] in acts && Classify(r[i], today) == s
    ensures forall i | 0 <= i < |acts| :: Classify(acts[i], today) == s ==> acts[i] in r
  {
    Seqs.Filter(acts, InColumn(s, today))
  }

  function BoardSize(acts: seq<Activity>, today: int): nat {
    |Column(acts, Overdue, today)| + |Column(acts, Today, today)| + |Column(acts, ThisWeek, today)|
    + |Column(acts, Future, today)| + |Column(acts, Completed, today)|
  }

  /** The five columns partition the list: every activity shows in its own column
      and nowhere else, so the columns hold as many cards as the list. */
  lemma {:induction false} ColumnsPartition(acts: seq<Activity>, today: int)
    ensures BoardSize(acts, today) == |acts|
    decreases |acts|
  {
    if |acts| > 0 {
      ColumnsPartition(acts[..|acts| - 1], today);
    }
  }

  // ---------------------------------------------------------------------
  // Search

  predicate SearchHit(a: Activity, query: string) {
    Text.IncludesIgnoringCase(a.title, query)
    || (a.lead.Some? && Text.IncludesIgnoringCase(a.lead.value.companyname, query))
  }

  /** `filteredActivities`: the title or the lead's company name contains the query,
      ignoring case. */
  function Search(acts: seq<Activity>, query: string): (r: seq<Activity>)
    ensures forall i | 0 <= i < |r| :: r[i] in acts && SearchHit(r[i], query)
    ensures forall i | 0 <= i < |acts| :: SearchHit(acts[i], query) ==> acts[i] in r
  {
    Seqs.Filter(acts, (a: Activity) => SearchHit(a, query))
  }

  /** An empty search shows every activity, in order. */
  lemma EmptySearchKeepsAll(acts: seq<Activity>)
    ensures Search(acts, "") == acts
  {
    forall i | 0 <= i < |acts| ensures SearchHit(acts[i], "") {
      Text.ContainsEmpty(Text.LowerStr(acts[i].title));
    }
    Seqs.FilterAll(acts, (a: Activity) => SearchHit(a, ""));
  }

  // ---------------------------------------------------------------------
  // Local updates

  /** `handleCompleteActivity`'s update: that activity is completed at `now`. */
  function CompleteIn(acts: seq<Activity>, id: string, now: int): (r: seq<Activity>)
    ensures |r| == |acts|
    ensures forall i | 0 <= i < |acts| ::
              r[i] == if acts[i].id == id then acts[i].(completed := true, completedAt := Some(now)) else acts[i]
  {
    seq(|acts|, i requires 0 <= i < |acts| =>
      if acts[i].id == id then acts[i].(completed := true, completedAt := Some(now)) else acts[i])
  }

  /** The completed activity moves to the "completed" column and no other card changes column. */
  lemma CompleteMovesOnlyThatCard(acts: seq<Activity>, id: string, now: int, today: int)
    ensures var r := CompleteIn(acts, id, now);
            forall i | 0 <= i < |acts| ::
              Classify(r[i], today) == if acts[i].id == id then Completed else Classify(acts[i], today)
  {
  }

  /** `handleDeleteLead`: the activities of the deleted lead leave the page. */
  function WithoutLead(acts: seq<Activity>, leadId: string): (r: seq<Activity>)
    ensures forall i | 0 <= i < |r| :: r[i].leadId != leadId && r[i] in acts
    ensures forall i | 0 <= i < |acts| :: acts[i].leadId != leadId ==> acts[i] in r
  {
    Seqs.Filter(acts, (a: Activity) => a.leadId != leadId)
  }

  // ---------------------------------------------------------------------
  // The page

  class ActivitiesPage {
    var activities: seq<Activity>
    var searchQuery: string

    constructor ()
      ensures activities == [] && searchQuery == ""
    {
      activities := [];
      searchQuery := "";
    }

    /** The cards of one board column. */
    function Shown(s: Status, today: int): seq<Activity>
      reads this
    {
      Column(Search(activities, searchQuery), s, today)
    }

    /** The list changes only when the backend accepted the completion. */
    method CompleteActivity(id: string, updateFailed: bool, now: int)
      modifies this
      ensures updateFailed ==> activities == old(activities)
      ensures !updateFailed ==> activities == CompleteIn(old(activities), id, now)
      ensures searchQuery == old(searchQuery)
    {
      if !updateFailed {
        activities := CompleteIn(activities, id, now);
      }
    }

    method DeleteLead(leadId: string)
      modifies this
      ensures activities == WithoutLead(old(activities), leadId) && searchQuery == old(searchQuery)
    {
      activities := WithoutLead(activities, leadId);
    }
  }
}

=== FILE: cadence.dfy ===
/** The cadence card (totals of sent emails and responses, the response rate, the
    first three steps) and the cadence schedule (steps by day, the icon of a step). */
module Cadence {
  import opened Wrappers
  import Text
  import Seqs
  import StableSort

  /** `sentCount` and `responseCount` are read with `|| 0`; a missing count is None. */
  datatype Step = Step(day: int, kind: string, subject: string, completed: bool,
                       sentCount: Option<int>, responseCount: Option<int>)

  function SentOf(s: Step): int {
    s.sentCount.GetOr(0)
  }

  function ResponsesOf(s: Step): int {
    s.responseCount.GetOr(0)
  }

  function TotalSent(steps: seq<Step>): int {
    Seqs.Sum(steps, SentOf)
  }

  function TotalResponses(steps: seq<Step>): int {
    Seqs.Sum(steps, ResponsesOf)
  }

  /** Two cadences side by side add up their totals. */
  lemma TotalsAdd(a: seq<Step>, b: seq<Step>)
    ensures TotalSent(a + b) == TotalSent(a) + TotalSent(b)
    ensures TotalResponses(a + b) == TotalResponses(a) + TotalResponses(b)
  {
    Seqs.SumAppend(a, b, SentOf);
    Seqs.SumAppend(a, b, ResponsesOf);
  }

  /** `Math.round(num / den)` in exact arithmetic: the nearest integer, halves
      rounded up. */
  function Round(num: int, den: int): (r: int)
    requires den != 0
    ensures den > 0 ==> 2 * den * r - den <= 2 * num < 2 * den * r + den
    ensures den < 0 ==> 2 * den * r - den >= 2 * num > 2 * den * r + den
  {
    if den > 0 then (2 * num + den) / (2 * den) else (-2 * num - den) / (-2 * den)
  }

  /** `totalSent ? Math.round((totalResponses / totalSent) * 100) : 0`. */
  function ResponseRate(steps: seq<Step>): int {
    var sent := TotalSent(steps);
    if sent == 0 then 0 else Round(100 * TotalResponses(steps), sent)
  }

  lemma MulMonotone(a: int, b: int, c: int)
    requires a > 0 && b <= c
    ensures a * b <= a * c
  {
  }

  /** A share of at most the whole rounds to at most 100 percent, and never below 0. */
  lemma RoundPercentBounds(num: int, den: int)
    requires den > 0 && 0 <= num <= 100 * den
    ensures 0 <= Round(num, den) <= 100
  {
    var r := Round(num, den);
    if r < 0 {
      MulMonotone(2 * den, r, -1);
    }
    if r > 100 {
      MulMonotone(2 * den, 101, r);
    }
  }

  /** An exact quotient is its own rounding. */
  lemma RoundExact(num: int, den: int, q: int)
    requires den > 0 && num == den * q
    ensures Round(num, den) == q
  {
    var r := Round(num, den);
    if r < q {
      MulMonotone(2 * den, r + 1, q);
    }
    if r > q {
      MulMonotone(2 * den, q + 1, r);
    }
  }

  /** No more responses than sent emails gives a rate between 0 and 100, and an
      exact percentage is shown as it is. */
  lemma ResponseRateBounds(steps: seq<Step>)
    requires 0 <= TotalResponses(steps) <= TotalSent(steps)
    ensures 0 <= ResponseRate(steps) <= 100
    ensures TotalSent(steps) > 0 && (100 * TotalResponses(steps)) % TotalSent(steps) == 0 ==>
              ResponseRate(steps) == 100 * TotalResponses(steps) / TotalSent(steps)
  {
    var sent := TotalSent(steps);
    var resp := TotalResponses(steps);
    if sent > 0 {
      RoundPercentBounds(100 * resp, sent);
      if (100 * resp) % sent == 0 {
        RoundExact(100 * resp, sent, 100 * resp / sent);
      }
    }
  }

  const PreviewCount := 3

  /** `steps.slice(0, 3)`. */
  function PreviewSteps(steps: seq<Step>): (r: seq<Step>)
    ensures |r| <= PreviewCount && |r| <= |steps| && r == steps[..|r|]
    ensures |steps| <= PreviewCount ==> r == steps
  {
    if |steps| <= PreviewCount then steps else steps[..PreviewCount]
  }

  /** The "+N more steps" note: present exactly when steps are hidden. */
  function MoreSteps(steps: seq<Step>): (r: Option<nat>)
    ensures r.None? <==> |steps| <= PreviewCount
  {
    if |steps| > PreviewCount then Some(|steps| - PreviewCount) else None
  }

  /** The listed steps and the note account for every step exactly once. */
  lemma PreviewAccountsForAll(steps: seq<Step>)
    ensures |PreviewSteps(steps)| + MoreSteps(steps).GetOr(0) == |steps|
  {
  }

  // ---------------------------------------------------------------------
  // The schedule

  function DayOf(s: Step): int {
    s.day
  }

  /** `[...steps].sort((a, b) => a.day - b.day)`: a sorted copy, by day, that keeps
      steps of one day in their given order; the given list is left as it is. */
  method SortedSteps(steps: seq<Step>) returns (r: seq<Step>)
    ensures StableSort.SortedBy(r, DayOf)
    ensures multiset(r) == multiset(steps)
    ensures forall d :: Seqs.Filter(r, StableSort.HasKey(DayOf, d)) == Seqs.Filter(steps, StableSort.HasKey(DayOf, d))
  {
    r := StableSort.SortedCopy(steps, DayOf);
    StableSort.SortSorted(steps, DayOf);
    StableSort.SortPermutes(steps, DayOf);
    forall d
      ensures Seqs.Filter(r, StableSort.HasKey(DayOf, d)) == Seqs.Filter(steps, StableSort.HasKey(DayOf, d))
    {
      StableSort.SortStable(steps, DayOf, d);
    }
  }

  datatype Icon = MailIcon | PhoneIcon | LinkedinIcon | CalendarIcon | ClockIcon

  /** `getStepIcon`: chosen on the lower-cased type, the clock for any other type. */
  function StepIcon(kind: string): (r: Icon)
    ensures r == MailIcon <==> Text.LowerStr(kind) == "email"
    ensures r == PhoneIcon <==> Text.LowerStr(kind) == "call"
    ensures r == LinkedinIcon <==> Text.LowerStr(kind) == "linkedin"
    ensures r == CalendarIcon <==> Text.LowerStr(kind) == "meeting"
  {
    match Text.LowerStr(kind)
    case "email" => MailIcon
    case "call" => PhoneIcon
    case "linkedin" => LinkedinIcon
    case "meeting" => CalendarIcon
    case _ => ClockIcon
  }

  /** The icon does not depend on the case of the type. */
  lemma StepIconIgnoresCase(kind: string)
    ensures StepIcon(Text.LowerStr(kind)) == StepIcon(kind)
  {
    Text.LowerStrIdempotent(kind);
  }
}

=== FILE: chat_bridge.dfy ===
/** The chat bridge server: one process-wide chat-network client, the latest
    pairing QR code and a connected flag, driven by events from the client and
    by commands from subscribers (socket connections) and HTTP routes.

    Everything the server sends is appended to `log`: to every subscriber
    (`io.emit`) or to the one that asked (`socket.emit`). Every request made of
    the chat-network client is appended to `calls`. Results of the client's
    asynchronous calls and the clock are parameters. Each handler runs as one
    atomic step. */
module ChatBridge {
  import opened Wrappers
  import Text

  type SocketId = nat
  type ClientId = nat

  const NotConnected: string := "WhatsApp não está conectado"
  const SendFailed: string := "Erro ao enviar mensagem"
  const ChatsFailed: string := "Erro ao obter conversas"
  const MessagesFailed: string := "Erro ao obter mensagens"
  const PersonalSuffix: string := "@c.us"
  const MessagePageSize: nat := 50

  // ---------------------------------------------------------------------
  // Values received from the chat-network client

  datatype RawLastMessage = RawLastMessage(body: string, timestamp: int)

  datatype RawChat = RawChat(
    serializedId: string, user: string, name: string,
    lastMessage: Option<RawLastMessage>, unreadCount: Option<int>)

  datatype RawMessage = RawMessage(
    serializedId: string, from: string, body: string, timestamp: int, kind: string, fromMe: bool)

  datatype RawIncoming = RawIncoming(
    serializedId: string, from: string, body: string, timestamp: int, kind: string,
    chatSerializedId: string, chatUser: string, chatName: string)

  // ---------------------------------------------------------------------
  // Values the server sends

  datatype ChatSummary = ChatSummary(id: string, name: string, lastMessage: string, timestamp: int, unreadCount: int)

  datatype MessageView = MessageView(id: string, from: string, body: string, timestamp: int, kind: string, isFromMe: bool)

  datatype IncomingView = IncomingView(
    id: string, from: string, body: string, timestamp: int, kind: string, chatId: string, chatName: string)

  datatype Event =
    | QrCode(dataUrl: string)
    | Connected(on: bool)
    | NewMessage(incoming: IncomingView)
    | Status(isConnected: bool, qrCodeData: Option<string>)
    | MessageSent(id: string, chatId: string, message: string, timestamp: int)
    | Chats(chats: seq<ChatSummary>)
    | Messages(messages: seq<MessageView>)
    | Error(text: string)

  datatype Audience = Everyone | Only(socket: SocketId)

  datatype Emission = Emission(to: Audience, event: Event)

  datatype ClientCall =
    | Initialize(client: ClientId)
    | SendTo(client: ClientId, chatId: string, body: string)
    | ListChats(client: ClientId)
    | FetchMessages(client: ClientId, chatId: string, limit: nat)
    | Destroy(client: ClientId)

  datatype HttpBody =
    | StatusBody(isConnected: bool, qrCodeData: Option<string>)
    | SentBody(success: bool, messageId: string)
    | ChatsBody(chats: seq<ChatSummary>)
    | ErrorBody(error: string)

  datatype HttpReply = HttpReply(status: nat, body: HttpBody)

  // ---------------------------------------------------------------------
  // Pure parts

  /** A chat id without the personal-chat suffix gets it appended; one that
      already mentions the suffix anywhere is kept. */
  function NormalizeChatId(id: string): (r: string)
    ensures Text.Contains(r, PersonalSuffix)
    ensures r == id <==> Text.Contains(id, PersonalSuffix)
    ensures r != id ==> r == id + PersonalSuffix
  {
    if Text.Contains(id, PersonalSuffix) then id
    else
      Text.ContainsSuffix(id, PersonalSuffix);
      id + PersonalSuffix
  }

  /** Normalising twice is normalising once. */
  lemma NormalizeIdempotent(id: string)
    ensures NormalizeChatId(NormalizeChatId(id)) == NormalizeChatId(id)
  {
  }

  /** The chat record sent to subscribers: a missing or empty name falls back to
      the phone user, a missing last message to "" and the current time, a missing
      unread count to 0. */
  function FormatChat(c: RawChat, now: int): (r: ChatSummary)
    ensures r.id == c.serializedId
    ensures c.name != "" ==> r.name == c.name
    ensures c.name == "" ==> r.name == c.user
    ensures r.name != "" <==> c.name != "" || c.user != ""
    ensures r.lastMessage == (if c.lastMessage.Some? then c.lastMessage.value.body else "")
    ensures c.lastMessage.Some? && c.lastMessage.value.timestamp != 0 ==> r.timestamp == c.lastMessage.value.timestamp
    ensures c.lastMessage.None? || c.lastMessage.value.timestamp == 0 ==> r.timestamp == now
    ensures r.timestamp != 0 || now == 0
    ensures r.unreadCount == (if c.unreadCount.Some? then c.unreadCount.value else 0)
  {
    ChatSummary(
      c.serializedId,
      if c.name != "" then c.name else c.user,
      if c.lastMessage.Some? && c.lastMessage.value.body != "" then c.lastMessage.value.body else "",
      if c.lastMessage.Some? && c.lastMessage.value.timestamp != 0 then c.lastMessage.value.timestamp else now,
      if c.unreadCount.Some? && c.unreadCount.value != 0 then c.unreadCount.value else 0)
  }

  function FormatChats(cs: seq<RawChat>, now: int): (r: seq<ChatSummary>)
    ensures |r| == |cs|
    ensures forall i | 0 <= i < |cs| :: r[i] == FormatChat(cs[i], now)
  {
    seq(|cs|, i requires 0 <= i < |cs| => FormatChat(cs[i], now))
  }

  function FormatMessage(m: RawMessage): (r: MessageView)
    ensures r.id == m.serializedId && r.body == m.body && r.isFromMe == m.fromMe
    ensures r.from == m.from && r.timestamp == m.timestamp && r.kind == m.kind
  {
    MessageView(m.serializedId, m.from, m.body, m.timestamp, m.kind, m.fromMe)
  }

  function FormatMessages(ms: seq<RawMessage>): (r: seq<MessageView>)
    ensures |r| == |ms|
    ensures forall i | 0 <= i < |ms| :: r[i] == FormatMessage(ms[i])
  {
    seq(|ms|, i requires 0 <= i < |ms| => FormatMessage(ms[i]))
  }

  function FormatIncoming(m: RawIncoming): (r: IncomingView)
    ensures r.id == m.serializedId && r.body == m.body && r.chatId == m.chatSerializedId
    ensures r.chatName == (if m.chatName != "" then m.chatName else m.chatUser)
  {
    IncomingView(m.serializedId, m.from, m.body, m.timestamp, m.kind, m.chatSerializedId,
                 if m.chatName != "" then m.chatName else m.chatUser)
  }

  // ---------------------------------------------------------------------
  // The server

  class Bridge {
    var client: Option<ClientId>
    var qrCodeData: Option<string>
    var isConnected: bool
    /** Client instances created so far are 0 .. nextClient - 1. */
    var nextClient: nat
    var destroyed: set<ClientId>
    var calls: seq<ClientCall>
    var log: seq<Emission>

    /** At most one client instance is alive, and it is the one held in `client`. */
    ghost predicate Valid()
      reads this
    {
      (client.Some? ==> client.value < nextClient)
      && (forall c | c in destroyed :: c < nextClient)
      && forall c: ClientId | c < nextClient :: c !in destroyed <==> client == Some(c)
    }

    /** A command may reach the client only when connected and a client is held. */
    predicate Ready()
      reads this
    {
      isConnected && client.Some?
    }

    /** Server start-up: the globals start empty, then the first client is created
        and initialised. */
    constructor ()
      ensures Valid()
      ensures client == Some(0) && qrCodeData.None? && !isConnected
      ensures calls == [Initialize(0)] && log == []
    {
      client := Some(0);
      qrCodeData := None;
      isConnected := false;
      nextClient := 1;
      destroyed := {};
      calls := [Initialize(0)];
      log := [];
    }

    // --- events raised by the chat-network client ---

    /** A new pairing code: stored (as its image data URL) and sent to everyone. */
    method OnQr(dataUrl: string)
      requires Valid()
      modifies this
      ensures Valid()
      ensures qrCodeData == Some(dataUrl)
      ensures isConnected == old(isConnected) && client == old(client)
      ensures log == old(log) + [Emission(Everyone, QrCode(dataUrl))]
      ensures calls == old(calls) && nextClient == old(nextClient) && destroyed == old(destroyed)
    {
      qrCodeData := Some(dataUrl);
      log := log + [Emission(Everyone, QrCode(dataUrl))];
    }

    /** The session is open: connected, the pairing code is dropped, everyone is told. */
    method OnReady()
      requires Valid()
      modifies this
      ensures Valid()
      ensures isConnected && qrCodeData.None? && client == old(client)
      ensures log == old(log) + [Emission(Everyone, Connected(true))]
      ensures calls == old(calls) && nextClient == old(nextClient) && destroyed == old(destroyed)
    {
      isConnected := true;
      qrCodeData := None;
      log := log + [Emission(Everyone, Connected(true))];
    }

    /** The session was lost: not connected any more, but the client object and
        the last pairing code are kept. */
    method OnDisconnected()
      requires Valid()
      modifies this
      ensures Valid()
      ensures !isConnected && client == old(client) && qrCodeData == old(qrCodeData)
      ensures log == old(log) + [Emission(Everyone, Connected(false))]
      ensures calls == old(calls) && nextClient == old(nextClient) && destroyed == old(destroyed)
    {
      isConnected := false;
      log := log + [Emission(Everyone, Connected(false))];
    }

    /** An incoming chat message is forwarded to everyone. */
    method OnMessage(m: RawIncoming)
      requires Valid()
      modifies this
      ensures Valid()
      ensures isConnected == old(isConnected) && client == old(client) && qrCodeData == old(qrCodeData)
      ensures log == old(log) + [Emission(Everyone, NewMessage(FormatIncoming(m)))]
      ensures calls == old(calls) && nextClient == old(nextClient) && destroyed == old(destroyed)
    {
      log := log + [Emission(Everyone, NewMessage(FormatIncoming(m)))];
    }

    // --- subscriber commands ---

    /** A new subscriber first gets the status snapshot, then the pairing code if there is
        a non-empty one (the source tests the code for truthiness). */
    method SubscriberConnected(s: SocketId)
      requires Valid()
      modifies this
      ensures Valid()
      ensures isConnected == old(isConnected) && client == old(client) && qrCodeData == old(qrCodeData)
      ensures log == old(log) + [Emission(Only(s), Status(isConnected, qrCodeData))]
                     + (if qrCodeData.Some? && qrCodeData.value != "" then [Emission(Only(s), QrCode(qrCodeData.value))] else [])
      ensures calls == old(calls) && nextClient == old(nextClient) && destroyed == old(destroyed)
    {
      log := log + [Emission(Only(s), Status(isConnected, qrCodeData))];
      if qrCodeData.Some? && qrCodeData.value != "" {
        log := log + [Emission(Only(s), QrCode(qrCodeData.value))];
      }
    }

    /** `send-message`: refused with one error when not ready; otherwise the text is
        sent to the normalised chat id and the confirmation echoes the id as given.
        A missing chat id fails inside the handler before the client is called. */
    method SendMessage(s: SocketId, chatId: Option<string>, body: string, outcome: Result<string, ()>, now: int)
      requires Valid()
      modifies this
      ensures Valid()
      ensures isConnected == old(isConnected) && client == old(client) && qrCodeData == old(qrCodeData)
      ensures nextClient == old(nextClient) && destroyed == old(destroyed)
      ensures !old(Ready()) ==> calls == old(calls) && log == old(log) + [Emission(Only(s), Error(NotConnected))]
      ensures old(Ready()) && chatId.None? ==>
                calls == old(calls) && log == old(log) + [Emission(Only(s), Error(SendFailed))]
      ensures old(Ready()) && chatId.Some? ==>
                calls == old(calls) + [SendTo(client.value, NormalizeChatId(chatId.value), body)]
                && log == old(log) + [Emission(Only(s),
                            if outcome.Success? then MessageSent(outcome.value, chatId.value, body, now)
                            else Error(SendFailed))]
    {
      if !isConnected || client.None? {
        log := log + [Emission(Only(s), Error(NotConnected))];
        return;
      }
      if chatId.None? {
        log := log + [Emission(Only(s), Error(SendFailed))];
        return;
      }
      calls := calls + [SendTo(client.value, NormalizeChatId(chatId.value), body)];
      match outcome
      case Success(id) =>
        log := log + [Emission(Only(s), MessageSent(id, chatId.value, body, now))];
      case Failure(_) =>
        log := log + [Emission(Only(s), Error(SendFailed))];
    }

    /** `get-chats`: refused when not ready; otherwise the formatted chat list or an error. */
    method GetChats(s: SocketId, outcome: Result<seq<RawChat>, ()>, now: int)
      requires Valid()
      modifies this
      ensures Valid()
      ensures isConnected == old(isConnected) && client == old(client) && qrCodeData == old(qrCodeData)
      ensures nextClient == old(nextClient) && destroyed == old(destroyed)
      ensures !old(Ready()) ==> calls == old(calls) && log == old(log) + [Emission(Only(s), Error(NotConnected))]
      ensures old(Ready()) ==>
                calls == old(calls) + [ListChats(client.value)]
                && log == old(log) + [Emission(Only(s),
                            if outcome.Success? then Chats(FormatChats(outcome.value, now)) else Error(ChatsFailed))]
    {
      if !isConnected || client.None? {
        log := log + [Emission(Only(s), Error(NotConnected))];
        return;
      }
      calls := calls + [ListChats(client.value)];
      match outcome
      case Success(cs) =>
        log := log + [Emission(Only(s), Chats(FormatChats(cs, now)))];
      case Failure(_) =>
        log := log + [Emission(Only(s), Error(ChatsFailed))];
    }

    /** `get-messages`: refused when not ready; otherwise the last 50 messages of the
        normalised chat, or an error. */
    method GetMessages(s: SocketId, chatId: Option<string>, outcome: Result<seq<RawMessage>, ()>)
      requires Valid()
      modifies this
      ensures Valid()
      ensures isConnected == old(isConnected) && client == old(client) && qrCodeData == old(qrCodeData)
      ensures nextClient == old(nextClient) && destroyed == old(destroyed)
      ensures !old(Ready()) ==> calls == old(calls) && log == old(log) + [Emission(Only(s), Error(NotConnected))]
      ensures old(Ready()) && chatId.None? ==>
                calls == old(calls) && log == old(log) + [Emission(Only(s), Error(MessagesFailed))]
      ensures old(Ready()) && chatId.Some? ==>
                calls == old(calls) + [FetchMessages(client.value, NormalizeChatId(chatId.value), MessagePageSize)]
                && log == old(log) + [Emission(Only(s),
                            if outcome.Success? then Messages(FormatMessages(outcome.value)) else Error(MessagesFailed))]
    {
      if !isConnected || client.None? {
        log := log + [Emission(Only(s), Error(NotConnected))];
        return;
      }
      if chatId.None? {
        log := log + [Emission(Only(s), Error(MessagesFailed))];
        return;
      }
      calls := calls + [FetchMessages(client.value, NormalizeChatId(chatId.value), MessagePageSize)];
      match outcome
      case Success(ms) =>
        log := log + [Emission(Only(s), Messages(FormatMessages(ms)))];
      case Failure(_) =>
        log := log + [Emission(Only(s), Error(MessagesFailed))];
    }

    /** `disconnect-whatsapp`: destroys and drops the client, if any, and tells everyone.
        The last pairing code is kept. Without a client nothing happens. */
    method DisconnectWhatsApp()
      requires Valid()
      modifies this
      ensures Valid()
      ensures qrCodeData == old(qrCodeData) && nextClient == old(nextClient)
      ensures old(client).Some? ==>
                client.None? && !isConnected
                && destroyed == old(destroyed) + {old(client).value}
                && calls == old(calls) + [Destroy(old(client).value)]
                && log == old(log) + [Emission(Everyone, Connected(false))]
      ensures old(client).None? ==>
                client.None? && isConnected == old(isConnected) && destroyed == old(destroyed)
                && calls == old(calls) && log == old(log)
    {
      if client.Some? {
        calls := calls + [Destroy(client.value)];
        destroyed := destroyed + {client.value};
        client := None;
        isConnected := false;
        log := log + [Emission(Everyone, Connected(false))];
      }
    }

    /** `reconnect-whatsapp`: creates and initialises a new client only when none is held. */
    method ReconnectWhatsApp()
      requires Valid()
      modifies this
      ensures Valid()
      ensures isConnected == old(isConnected) && qrCodeData == old(qrCodeData)
      ensures destroyed == old(destroyed) && log == old(log)
      ensures client.Some?
      ensures old(client).Some? ==> client == old(client) && nextClient == old(nextClient) && calls == old(calls)
      ensures old(client).None? ==>
                client == Some(old(nextClient)) && nextClient == old(nextClient) + 1
                && calls == old(calls) + [Initialize(old(nextClient))]
    {
      if client.None? {
        var c := nextClient;
        nextClient := nextClient + 1;
        client := Some(c);
        calls := calls + [Initialize(c)];
      }
    }

    // --- HTTP routes ---

    /** `GET /api/status`: the connected flag and the pairing code. */
    method HttpStatus() returns (reply: HttpReply)
      ensures reply == HttpReply(200, StatusBody(isConnected, qrCodeData))
    {
      reply := HttpReply(200, StatusBody(isConnected, qrCodeData));
    }

    /** `POST /api/send-message`: 400 when not ready; otherwise the client is asked to
        send to the normalised id, answering with the new message id or 500. */
    method HttpSendMessage(chatId: Option<string>, body: string, outcome: Result<string, ()>)
      returns (reply: HttpReply)
      requires Valid()
      modifies this
      ensures Valid()
      ensures isConnected == old(isConnected) && client == old(client) && qrCodeData == old(qrCodeData)
      ensures nextClient == old(nextClient) && destroyed == old(destroyed) && log == old(log)
      ensures !old(Ready()) ==> calls == old(calls) && reply == HttpReply(400, ErrorBody(NotConnected))
      ensures old(Ready()) && chatId.None? ==> calls == old(calls) && reply == HttpReply(500, ErrorBody(SendFailed))
      ensures old(Ready()) && chatId.Some? ==>
                calls == old(calls) + [SendTo(client.value, NormalizeChatId(chatId.value), body)]
                && reply == (if outcome.Success? then HttpReply(200, SentBody(true, outcome.value))
                             else HttpReply(500, ErrorBody(SendFailed)))
    {
      if !isConnected || client.None? {
        return HttpReply(400, ErrorBody(NotConnected));
      }
      if chatId.None? {
        return HttpReply(500, ErrorBody(SendFailed));
      }
      calls := calls + [SendTo(client.value, NormalizeChatId(chatId.value), body)];
      match outcome
      case Success(id) =>
        reply := HttpReply(200, SentBody(true, id));
      case Failure(_) =>
        reply := HttpReply(500, ErrorBody(SendFailed));
    }

    /** `GET /api/chats`: 400 when not ready; otherwise the formatted chat list or 500. */
    method HttpChats(outcome: Result<seq<RawChat>, ()>, now: int) returns (reply: HttpReply)
      requires Valid()
      modifies this
      ensures Valid()
      ensures isConnected == old(isConnected) && client == old(client) && qrCodeData == old(qrCodeData)
      ensures nextClient == old(nextClient) && destroyed == old(destroyed) && log == old(log)
      ensures !old(Ready()) ==> calls == old(calls) && reply == HttpReply(400, ErrorBody(NotConnected))
      ensures old(Ready()) ==>
                calls == old(calls) + [ListChats(client.value)]
                && reply == (if outcome.Success? then HttpReply(200, ChatsBody(FormatChats(outcome.value, now)))
                             else HttpReply(500, ErrorBody(ChatsFailed)))
    {
      if !isConnected || client.None? {
        return HttpReply(400, ErrorBody(NotConnected));
      }
      calls := calls + [ListChats(client.value)];
      match outcome
      case Success(cs) =>
        reply := HttpReply(200, ChatsBody(FormatChats(cs, now)));
      case Failure(_) =>
        reply := HttpReply(500, ErrorBody(ChatsFailed));
    }
  }

  // ---------------------------------------------------------------------
  // Sequences of steps

  /** After the session is lost, `reconnect-whatsapp` does nothing: the old client
      is still held, so only the client itself can bring the session back. */
  method LostSessionIgnoresReconnect(b: Bridge)
    requires b.Valid() && b.client.Some?
    modifies b
    ensures b.Valid()
    ensures !b.isConnected && b.client == old(b.client)
    ensures b.calls == old(b.calls)
  {
    b.OnDisconnected();
    b.ReconnectWhatsApp();
  }

  /** Disconnecting and reconnecting replaces the client by a fresh one; the old one
      is destroyed, so still only one is alive. */
  method DisconnectThenReconnect(b: Bridge)
    requires b.Valid() && b.client.Some?
    modifies b
    ensures b.Valid()
    ensures b.client == Some(old(b.nextClient)) && old(b.client).value in b.destroyed
    ensures !b.isConnected && b.qrCodeData == old(b.qrCodeData)
    ensures b.calls == old(b.calls) + [Destroy(old(b.client).value), Initialize(old(b.nextClient))]
  {
    b.DisconnectWhatsApp();
    b.ReconnectWhatsApp();
  }
}

=== FILE: chat_facade.dfy ===
/** The client side of the chat bridge: the per-screen snapshot
    `{isConnected, qrCode, chats, messages, loading, error}` kept by the chat hook,
    the socket reference it holds, and the commands it sends to the server.

    Sockets are numbered as they are created. A socket that has not been closed
    still has its event handlers attached, and all of them write the same
    snapshot. Server events and transport events are inputs; each handler runs
    as one atomic step. */
module ChatFacade {
  import opened Wrappers
  import ChatBridge

  type SocketId = nat

  /** What the message list holds: pushed messages, send confirmations and fetched pages. */
  datatype ChatMessage =
    | Incoming(incoming: ChatBridge.IncomingView)
    | Confirmed(id: string, chatId: string, text: string, timestamp: int)
    | Fetched(fetched: ChatBridge.MessageView)

  datatype Command =
    | SendMessageCmd(chatId: string, text: string)
    | GetChatsCmd
    | GetMessagesCmd(chatId: string)
    | DisconnectWhatsAppCmd
    | ReconnectWhatsAppCmd

  datatype Sent = Sent(socket: SocketId, command: Command)

  function AsFetched(ms: seq<ChatBridge.MessageView>): (r: seq<ChatMessage>)
    ensures |r| == |ms|
    ensures forall i | 0 <= i < |ms| :: r[i] == Fetched(ms[i])
  {
    seq(|ms|, i requires 0 <= i < |ms| => Fetched(ms[i]))
  }

  class ChatHook {
    var isConnected: bool
    var qrCode: Option<string>
    var chats: seq<ChatBridge.ChatSummary>
    var messages: seq<ChatMessage>
    var loading: bool
    var error: Option<string>
    /** `socketRef.current`. */
    var socket: Option<SocketId>
    /** Sockets created and not closed: their handlers still receive events. */
    var open: set<SocketId>
    /** Open sockets whose transport handshake has completed (`socket.connected`). */
    var linked: set<SocketId>
    var nextSocket: nat
    var sent: seq<Sent>

    ghost predicate Valid()
      reads this
    {
      linked <= open
      && (forall s | s in open :: s < nextSocket)
      && (socket.Some? ==> socket.value < nextSocket)
    }

    /** At most one socket is open, and it is the one the hook holds. */
    predicate SingleSocket()
      reads this
    {
      forall s | s in open :: socket == Some(s)
    }

    /** The initial snapshot, before the mount effect connects. */
    constructor ()
      ensures Valid() && SingleSocket()
      ensures !isConnected && qrCode.None? && chats == [] && messages == [] && !loading && error.None?
      ensures socket.None? && open == {} && linked == {} && nextSocket == 0 && sent == []
    {
      isConnected := false;
      qrCode := None;
      chats := [];
      messages := [];
      loading := false;
      error := None;
      socket := None;
      open := {};
      linked := {};
      nextSocket := 0;
      sent := [];
    }

    // --- local commands ---

    /** `connect`: does nothing while the held socket is connected; otherwise opens a new
        socket and shows the loading state. A held socket that is still handshaking (or
        has dropped) is left open. */
    method Connect()
      requires Valid()
      modifies this
      ensures Valid()
      ensures old(socket).Some? && old(socket).value in old(linked) ==>
                socket == old(socket) && open == old(open) && loading == old(loading) && error == old(error)
                && nextSocket == old(nextSocket)
      ensures !(old(socket).Some? && old(socket).value in old(linked)) ==>
                socket == Some(old(nextSocket)) && nextSocket == old(nextSocket) + 1
                && open == old(open) + {old(nextSocket)} && loading && error.None?
      ensures linked == old(linked) && sent == old(sent)
      ensures isConnected == old(isConnected) && qrCode == old(qrCode)
      ensures chats == old(chats) && messages == old(messages)
    {
      if socket.Some? && socket.value in linked {
        return;
      }
      loading := true;
      error := None;
      var s := nextSocket;
      nextSocket := nextSocket + 1;
      socket := Some(s);
      open := open + {s};
    }

    /** `connect` as evidently intended: a held socket that is not connected is
        closed before the new one is opened, so at most one socket is ever open. */
    method ConnectReplacing()
      requires Valid()
      modifies this
      ensures Valid()
      ensures old(SingleSocket()) ==> SingleSocket()
      ensures linked == old(linked)
      ensures old(socket).Some? && old(socket).value in old(linked) ==>
                socket == old(socket) && open == old(open) && loading == old(loading) && error == old(error)
                && nextSocket == old(nextSocket)
      ensures !(old(socket).Some? && old(socket).value in old(linked)) ==>
                socket == Some(old(nextSocket)) && nextSocket == old(nextSocket) + 1 && loading && error.None?
                && open == (if old(socket).Some? then old(open) - {old(socket).value} else old(open)) + {old(nextSocket)}
      ensures sent == old(sent)
      ensures isConnected == old(isConnected) && qrCode == old(qrCode)
      ensures chats == old(chats) && messages == old(messages)
    {
      if socket.Some? && socket.value in linked {
        return;
      }
      if socket.Some? {
        open := open - {socket.value};
        linked := linked - {socket.value};
      }
      loading := true;
      error := None;
      var s := nextSocket;
      nextSocket := nextSocket + 1;
      socket := Some(s);
      open := open + {s};
    }

    /** `disconnect`: asks the server to drop its chat-network client, closes and forgets
        the socket, and resets the snapshot (the loading flag excepted). */
    method Disconnect()
      requires Valid()
      modifies this
      ensures Valid()
      ensures old(SingleSocket()) ==> SingleSocket() && open == {}
      ensures socket.None? && !isConnected && qrCode.None? && chats == [] && messages == [] && error.None?
      ensures loading == old(loading)
      ensures old(socket).Some? ==>
                sent == old(sent) + [Sent(old(socket).value, DisconnectWhatsAppCmd)]
                && open == old(open) - {old(socket).value} && linked == old(linked) - {old(socket).value}
      ensures old(socket).None? ==> sent == old(sent) && open == old(open) && linked == old(linked)
      ensures nextSocket == old(nextSocket)
    {
      if socket.Some? {
        sent := sent + [Sent(socket.value, DisconnectWhatsAppCmd)];
        open := open - {socket.value};
        linked := linked - {socket.value};
        socket := None;
      }
      isConnected := false;
      qrCode := None;
      chats := [];
      messages := [];
      error := None;
    }

    /** The guard shared by the three requests: a held socket and the last known
        connected flag. */
    predicate CanRequest()
      reads this
    {
      socket.Some? && isConnected
    }

    method Request(c: Command)
      requires Valid()
      modifies this
      ensures Valid() && (old(SingleSocket()) ==> SingleSocket())
      ensures old(CanRequest()) ==> sent == old(sent) + [Sent(old(socket).value, c)] && error == old(error)
      ensures !old(CanRequest()) ==> sent == old(sent) && error == Some(ChatBridge.NotConnected)
      ensures isConnected == old(isConnected) && qrCode == old(qrCode) && loading == old(loading)
      ensures chats == old(chats) && messages == old(messages)
      ensures socket == old(socket) && open == old(open) && linked == old(linked) && nextSocket == old(nextSocket)
    {
      if socket.Some? && isConnected {
        sent := sent + [Sent(socket.value, c)];
      } else {
        error := Some(ChatBridge.NotConnected);
      }
    }

    /** `sendMessage`: sent only through a held socket while connected; otherwise an error. */
    method SendMessage(chatId: string, text: string)
      requires Valid()
      modifies this
      ensures Valid() && (old(SingleSocket()) ==> SingleSocket())
      ensures old(CanRequest()) ==> sent == old(sent) + [Sent(old(socket).value, SendMessageCmd(chatId, text))] && error == old(error)
      ensures !old(CanRequest()) ==> sent == old(sent) && error == Some(ChatBridge.NotConnected)
      ensures isConnected == old(isConnected) && qrCode == old(qrCode) && loading == old(loading)
      ensures chats == old(chats) && messages == old(messages)
      ensures socket == old(socket) && open == old(open) && linked == old(linked) && nextSocket == old(nextSocket)
    {
      Request(SendMessageCmd(chatId, text));
    }

    /** `getChats`: requested only through a held socket while connected; otherwise an error. */
    method GetChats()
      requires Valid()
      modifies this
      ensures Valid() && (old(SingleSocket()) ==> SingleSocket())
      ensures old(CanRequest()) ==> sent == old(sent) + [Sent(old(socket).value, GetChatsCmd)] && error == old(error)
      ensures !old(CanRequest()) ==> sent == old(sent) && error == Some(ChatBridge.NotConnected)
      ensures isConnected == old(isConnected) && qrCode == old(qrCode) && loading == old(loading)
      ensures chats == old(chats) && messages == old(messages)
      ensures socket == old(socket) && open == old(open) && linked == old(linked) && nextSocket == old(nextSocket)
    {
      Request(GetChatsCmd);
    }

    /** `getMessages`: requested only through a held socket while connected; otherwise an error. */
    method GetMessages(chatId: string)
      requires Valid()
      modifies this
      ensures Valid() && (old(SingleSocket()) ==> SingleSocket())
      ensures old(CanRequest()) ==> sent == old(sent) + [Sent(old(socket).value, GetMessagesCmd(chatId))] && error == old(error)
      ensures !old(CanRequest()) ==> sent == old(sent) && error == Some(ChatBridge.NotConnected)
      ensures isConnected == old(isConnected) && qrCode == old(qrCode) && loading == old(loading)
      ensures chats == old(chats) && messages == old(messages)
      ensures socket == old(socket) && open == old(open) && linked == old(linked) && nextSocket == old(nextSocket)
    {
      Request(GetMessagesCmd(chatId));
    }

    /** `reconnect`: asks the server to re-create its client whenever a socket is held,
        whatever the connected flag says. */
    method Reconnect()
      requires Valid()
      modifies this
      ensures Valid() && (old(SingleSocket()) ==> SingleSocket())
      ensures old(socket).Some? ==> sent == old(sent) + [Sent(old(socket).value, ReconnectWhatsAppCmd)]
      ensures old(socket).None? ==> sent == old(sent)
      ensures isConnected == old(isConnected) && qrCode == old(qrCode) && error == old(error) && loading == old(loading)
      ensures chats == old(chats) && messages == old(messages)
      ensures socket == old(socket) && open == old(open) && linked == old(linked) && nextSocket == old(nextSocket)
    {
      if socket.Some? {
        sent := sent + [Sent(socket.value, ReconnectWhatsAppCmd)];
      }
    }

    /** Unmount clean-up: closes the held socket without asking the server to
        disconnect, and keeps the reference and the snapshot. */
    method Unmount()
      requires Valid()
      modifies this
      ensures Valid() && (old(SingleSocket()) ==> SingleSocket())
      ensures sent == old(sent) && socket == old(socket)
      ensures open == (if old(socket).Some? then old(open) - {old(socket).value} else old(open))
      ensures linked == (if old(socket).Some? then old(linked) - {old(socket).value} else old(linked))
      ensures nextSocket == old(nextSocket)
      ensures old(SingleSocket()) ==> open == {}
      ensures isConnected == old(isConnected) && qrCode == old(qrCode) && error == old(error)
      ensures chats == old(chats) && messages == old(messages) && loading == old(loading)
    {
      if socket.Some? {
        open := open - {socket.value};
        linked := linked - {socket.value};
      }
    }

    // --- transport events on one of the open sockets ---

    /** The handshake completed: loading ends. */
    method OnTransportConnect(s: SocketId)
      requires Valid() && s in open
      modifies this
      ensures Valid() && (old(SingleSocket()) ==> SingleSocket())
      ensures !loading && linked == old(linked) + {s}
      ensures isConnected == old(isConnected) && qrCode == old(qrCode) && error == old(error)
      ensures chats == old(chats) && messages == old(messages)
      ensures socket == old(socket) && open == old(open) && sent == old(sent) && nextSocket == old(nextSocket)
    {
      loading := false;
      linked := linked + {s};
    }

    /** The transport dropped: no longer connected, loading ends. */
    method OnTransportDisconnect(s: SocketId)
      requires Valid() && s in open
      modifies this
      ensures Valid() && (old(SingleSocket()) ==> SingleSocket())
      ensures !isConnected && !loading && linked == old(linked) - {s}
      ensures qrCode == old(qrCode) && error == old(error)
      ensures chats == old(chats) && messages == old(messages)
      ensures socket == old(socket) && open == old(open) && sent == old(sent) && nextSocket == old(nextSocket)
    {
      isConnected := false;
      loading := false;
      linked := linked - {s};
    }

    // --- server events on one of the open sockets ---

    /** Applies one server event to the snapshot. */
    method OnServerEvent(s: SocketId, e: ChatBridge.Event)
      requires Valid() && s in open
      modifies this
      ensures Valid() && (old(SingleSocket()) ==> SingleSocket())
      ensures socket == old(socket) && open == old(open) && linked == old(linked) && sent == old(sent)
      ensures nextSocket == old(nextSocket)
      ensures e.Status? ==>
                isConnected == e.isConnected && qrCode == e.qrCodeData
                && error == old(error) && loading == old(loading) && chats == old(chats) && messages == old(messages)
      ensures e.QrCode? ==>
                !isConnected && qrCode == Some(e.dataUrl)
                && error == old(error) && loading == old(loading) && chats == old(chats) && messages == old(messages)
      ensures e.Connected? && e.on ==>
                isConnected && qrCode.None? && error.None?
                && loading == old(loading) && chats == old(chats) && messages == old(messages)
      ensures e.Connected? && !e.on ==>
                !isConnected && qrCode == old(qrCode) && error == old(error)
                && loading == old(loading) && chats == old(chats) && messages == old(messages)
      ensures e.Chats? ==>
                chats == e.chats
                && isConnected == old(isConnected) && qrCode == old(qrCode) && error == old(error)
                && loading == old(loading) && messages == old(messages)
      ensures e.Messages? ==>
                messages == AsFetched(e.messages)
                && isConnected == old(isConnected) && qrCode == old(qrCode) && error == old(error)
                && loading == old(loading) && chats == old(chats)
      ensures e.NewMessage? ==>
                messages == old(messages) + [Incoming(e.incoming)]
                && isConnected == old(isConnected) && qrCode == old(qrCode) && error == old(error)
                && loading == old(loading) && chats == old(chats)
      ensures e.MessageSent? ==>
                messages == old(messages) + [Confirmed(e.id, e.chatId, e.message, e.timestamp)]
                && isConnected == old(isConnected) && qrCode == old(qrCode) && error == old(error)
                && loading == old(loading) && chats == old(chats)
      ensures e.Error? ==>
                error == Some(e.text) && !loading
                && isConnected == old(isConnected) && qrCode == old(qrCode)
                && chats == old(chats) && messages == old(messages)
    {
      match e
      case Status(connected, qr) =>
        isConnected := connected;
        qrCode := qr;
      case QrCode(qr) =>
        qrCode := Some(qr);
        isConnected := false;
      case Connected(on) =>
        isConnected := on;
        if on {
          qrCode := None;
          error := None;
        }
      case Chats(cs) =>
        chats := cs;
      case Messages(ms) =>
        messages := AsFetched(ms);
      case NewMessage(m) =>
        messages := messages + [Incoming(m)];
      case MessageSent(id, chatId, text, timestamp) =>
        messages := messages + [Confirmed(id, chatId, text, timestamp)];
      case Error(text) =>
        error := Some(text);
        loading := false;
    }
  }

  // ---------------------------------------------------------------------
  // Consequences

  /** `connect` is idempotent once the socket is connected. */
  method ConnectTwiceWhenLinked(h: ChatHook)
    requires h.Valid() && h.socket.Some? && h.socket.value in h.linked
    modifies h
    ensures h.socket == old(h.socket) && h.open == old(h.open)
    ensures h.loading == old(h.loading) && h.error == old(h.error)
  {
    h.Connect();
    h.Connect();
  }

  /** The as-written guard in action: two `connect` calls before the first socket's
      handshake completes leave two sockets open, each with its own handlers, so
      every broadcast that follows is applied twice. */
  method ConnectBeforeHandshakeLeaksSocket() returns (h: ChatHook)
    ensures fresh(h) && h.Valid()
    ensures h.open == {0, 1} && h.socket == Some(1) && h.messages == []
    ensures !h.SingleSocket()
  {
    h := new ChatHook();
    h.Connect();
    h.Connect();
  }

  /** With the two sockets open, one pushed message ends up in the list twice. */
  method DuplicatedDelivery(m: ChatBridge.IncomingView) returns (h: ChatHook)
    ensures h.messages == [Incoming(m), Incoming(m)]
  {
    h := ConnectBeforeHandshakeLeaksSocket();
    h.OnServerEvent(0, ChatBridge.NewMessage(m));
    h.OnServerEvent(1, ChatBridge.NewMessage(m));
  }

  /** The corrected `connect` keeps a single open socket in the same scenario. */
  method ConnectReplacingKeepsOneSocket() returns (h: ChatHook)
    ensures fresh(h) && h.Valid()
    ensures h.open == {1} && h.socket == Some(1)
    ensures h.SingleSocket()
  {
    h := new ChatHook();
    h.ConnectReplacing();
    h.ConnectReplacing();
  }
}

=== FILE: community.dfy ===
/** The community feed: posts with likes, polls with single- or multiple-choice
    voting, the new-post and new-poll forms, and the category/search filter. The
    list transforms are functions; the page, whose handlers replace its state,
    is a class. The clock and the signed-in user are parameters ("" when absent). */
module Community {
  import opened Wrappers
  import Text
  import Seqs

  const AnonymousVoter: string := "current-user"
  const AnonymousAuthor: string := "Usuário"
  const DefaultPollContent: string := "Enquete criada pela comunidade"
  const DayMs: int := 86400000
  const MinOptions: nat := 2
  const MaxOptions: nat := 6
  const TitleCut: nat := 50

  datatype PollOption = PollOption(id: string, text: string, votes: int, voters: seq<string>)

  datatype Poll = Poll(
    id: string, question: string, options: seq<PollOption>, totalVotes: int,
    expiresAt: Option<int>, allowMultiple: bool, createdBy: string)

  datatype Author = Author(name: string, role: string)

  datatype Post = Post(
    id: string, author: Author, title: string, content: string, category: string,
    isPinned: bool, likes: int, comments: int, createdAt: string, hasLiked: bool,
    poll: Option<Poll>)

  /** The poll duration picker: a number of days, or no expiry. */
  datatype Duration = Days(n: nat) | Never

  // ---------------------------------------------------------------------
  // Likes

  function Flip(p: Post): Post {
    p.(likes := if p.hasLiked then p.likes - 1 else p.likes + 1, hasLiked := !p.hasLiked)
  }

  /** `handleLike`: the post with that id flips its like and moves its count by one;
      every other post is returned as it was. */
  function ToggleLike(posts: seq<Post>, postId: string): (r: seq<Post>)
    ensures |r| == |posts|
    ensures forall i | 0 <= i < |posts| :: r[i] == if posts[i].id == postId then Flip(posts[i]) else posts[i]
  {
    seq(|posts|, i requires 0 <= i < |posts| => if posts[i].id == postId then Flip(posts[i]) else posts[i])
  }

  /** The count without the viewer's own like is what a like toggles around. */
  lemma FlipKeepsOthersLikes(p: Post)
    ensures Flip(p).hasLiked != p.hasLiked
    ensures Flip(p).likes - (if Flip(p).hasLiked then 1 else 0) == p.likes - (if p.hasLiked then 1 else 0)
  {
  }

  /** Liking twice restores every post. */
  lemma ToggleLikeTwice(posts: seq<Post>, postId: string)
    ensures ToggleLike(ToggleLike(posts, postId), postId) == posts
  {
    var once := ToggleLike(posts, postId);
    var twice := ToggleLike(once, postId);
    forall i | 0 <= i < |posts| ensures twice[i] == posts[i] {
      if posts[i].id == postId {
        assert once[i] == Flip(posts[i]);
      }
    }
  }

  // ---------------------------------------------------------------------
  // Voting

  /** `voters.filter(v => v !== u)`. */
  function Without(s: seq<string>, u: string): (r: seq<string>)
    ensures |r| <= |s|
    ensures forall x :: x in r <==> x in s && x != u
    decreases |s|
  {
    if |s| == 0 then []
    else (if s[0] == u then [] else [s[0]]) + Without(s[1..], u)
  }

  predicate NoDuplicates(s: seq<string>) {
    forall i, j | 0 <= i < j < |s| :: s[i] != s[j]
  }

  lemma {:induction false} WithoutAbsent(s: seq<string>, u: string)
    requires u !in s
    ensures Without(s, u) == s
    decreases |s|
  {
    if |s| > 0 {
      WithoutAbsent(s[1..], u);
      assert [s[0]] + s[1..] == s;
    }
  }

  lemma {:induction false} WithoutUnique(s: seq<string>, u: string)
    requires NoDuplicates(s)
    ensures NoDuplicates(Without(s, u))
    ensures |Without(s, u)| == if u in s then |s| - 1 else |s|
    decreases |s|
  {
    if |s| > 0 {
      assert NoDuplicates(s[1..]);
      WithoutUnique(s[1..], u);
      if s[0] == u {
        assert u !in s[1..];
        WithoutAbsent(s[1..], u);
      } else {
        var rest := Without(s[1..], u);
        assert u in s <==> u in s[1..];
        forall i, j | 0 <= i < j < |[s[0]] + rest| ensures ([s[0]] + rest)[i] != ([s[0]] + rest)[j] {
          if i == 0 {
            assert ([s[0]] + rest)[j] in s[1..];
          }
        }
      }
    }
  }

  function TotalOf(opts: seq<PollOption>): int {
    Seqs.Sum(opts, (o: PollOption) => o.votes)
  }

  predicate HasVoted(opts: seq<PollOption>, u: string) {
    exists i | 0 <= i < |opts| :: u in opts[i].voters
  }

  /** `options.find(o => o.id === optionId)`. */
  function FirstWithId(opts: seq<PollOption>, optionId: string): (r: Option<PollOption>)
    ensures r.Some? ==> r.value in opts && r.value.id == optionId
    ensures r.None? ==> forall i | 0 <= i < |opts| :: opts[i].id != optionId
    decreases |opts|
  {
    if |opts| == 0 then None
    else if opts[0].id == optionId then Some(opts[0])
    else FirstWithId(opts[1..], optionId)
  }

  function Withdrawn(o: PollOption, u: string): PollOption {
    o.(votes := if u in o.voters then o.votes - 1 else o.votes, voters := Without(o.voters, u))
  }

  function Unvoted(o: PollOption, u: string): PollOption {
    o.(votes := o.votes - 1, voters := Without(o.voters, u))
  }

  function WithVote(o: PollOption, u: string): PollOption {
    o.(votes := o.votes + 1, voters := o.voters + [u])
  }

  /** The voter's name: the signed-in user's id, or a shared placeholder. */
  function VoterId(userId: string): string {
    if userId != "" then userId else AnonymousVoter
  }

  /** `handleVote` on one poll. In a single-choice poll where the user has voted, the
      earlier vote is withdrawn everywhere and the new one added; otherwise clicking an
      option the user is on withdraws, and clicking another adds. The total is recounted. */
  function VotePoll(p: Poll, optionId: string, u: string): (r: Poll)
    ensures |r.options| == |p.options|
    ensures r.totalVotes == TotalOf(r.options)
    ensures r.id == p.id && r.question == p.question && r.allowMultiple == p.allowMultiple
    ensures forall i | 0 <= i < |p.options| :: r.options[i].id == p.options[i].id && r.options[i].text == p.options[i].text
  {
    var opts := p.options;
    var updated :=
      if !p.allowMultiple && HasVoted(opts, u) then
        seq(|opts|, i requires 0 <= i < |opts| =>
          var w := Withdrawn(opts[i], u);
          if w.id == optionId then WithVote(w, u) else w)
      else
        var target := FirstWithId(opts, optionId);
        if target.Some? && u in target.value.voters then
          seq(|opts|, i requires 0 <= i < |opts| => if opts[i].id == optionId then Unvoted(opts[i], u) else opts[i])
        else
          seq(|opts|, i requires 0 <= i < |opts| => if opts[i].id == optionId then WithVote(opts[i], u) else opts[i]);
    p.(options := updated, totalVotes := TotalOf(updated))
  }

  /** Single choice: after any vote the user is a voter of exactly the options carrying
      the chosen id, so clicking one's own option again never withdraws the vote. */
  lemma SingleChoiceVote(p: Poll, optionId: string, u: string)
    requires !p.allowMultiple
    ensures var r := VotePoll(p, optionId, u);
            forall i | 0 <= i < |r.options| :: u in r.options[i].voters <==> r.options[i].id == optionId
  {
    if !HasVoted(p.options, u) {
      var target := FirstWithId(p.options, optionId);
      if target.Some? {
        assert u !in target.value.voters;
      }
    }
  }

  /** Multiple choice: options with another id are untouched, and on the chosen one
      (ids being distinct) the user's vote flips. */
  lemma MultipleChoiceVote(p: Poll, optionId: string, u: string)
    requires p.allowMultiple
    requires forall i, j | 0 <= i < j < |p.options| :: p.options[i].id != p.options[j].id
    ensures var r := VotePoll(p, optionId, u);
            forall i | 0 <= i < |p.options| ::
              if p.options[i].id == optionId
              then (u in r.options[i].voters <==> u !in p.options[i].voters)
              else r.options[i] == p.options[i]
  {
    var r := VotePoll(p, optionId, u);
    var target := FirstWithId(p.options, optionId);
    forall i | 0 <= i < |p.options| && p.options[i].id == optionId
      ensures u in r.options[i].voters <==> u !in p.options[i].voters
    {
      assert target.Some?;
      assert target.value == p.options[i];
    }
  }

  /** Multiple choice: voting for an option and then voting for it again leaves the
      poll as it was, provided the stored total was the sum of the votes. */
  lemma MultipleChoiceVoteTwice(p: Poll, optionId: string, u: string)
    requires p.allowMultiple
    requires p.totalVotes == TotalOf(p.options)
    requires forall i | 0 <= i < |p.options| :: p.options[i].id == optionId ==> u !in p.options[i].voters
    ensures VotePoll(VotePoll(p, optionId, u), optionId, u) == p
  {
    var once := VotePoll(p, optionId, u);
    var target := FirstWithId(p.options, optionId);
    assert target.Some? ==> u !in target.value.voters;
    assert forall i | 0 <= i < |p.options| ::
      once.options[i] == if p.options[i].id == optionId then WithVote(p.options[i], u) else p.options[i];
    var twice := VotePoll(once, optionId, u);
    var target2 := FirstWithId(once.options, optionId);
    if target2.Some? {
      assert u in target2.value.voters;
    }
    forall i | 0 <= i < |p.options| ensures twice.options[i] == p.options[i] {
      if p.options[i].id == optionId {
        WithoutAbsent(p.options[i].voters, u);
        assert Without(p.options[i].voters + [u], u) == Without(p.options[i].voters, u) + Without([u], u) by {
          WithoutAppend(p.options[i].voters, [u], u);
        }
      }
    }
    assert twice.options == p.options;
  }

  lemma {:induction false} WithoutAppend(a: seq<string>, b: seq<string>, u: string)
    ensures Without(a + b, u) == Without(a, u) + Without(b, u)
    decreases |a|
  {
    if |a| > 0 {
      WithoutAppend(a[1..], b, u);
      assert (a + b)[1..] == a[1..] + b;
    } else {
      assert a + b == b;
    }
  }

  /** A poll whose counts are trustworthy: distinct option ids, each option's count is
      its number of distinct voters, and the total is their sum. */
  predicate Consistent(p: Poll) {
    (forall i, j | 0 <= i < j < |p.options| :: p.options[i].id != p.options[j].id)
    && (forall i | 0 <= i < |p.options| ::
          p.options[i].votes == |p.options[i].voters| && NoDuplicates(p.options[i].voters))
    && p.totalVotes == TotalOf(p.options)
  }

  lemma WithVoteConsistent(o: PollOption, u: string)
    requires o.votes == |o.voters| && NoDuplicates(o.voters) && u !in o.voters
    ensures WithVote(o, u).votes == |WithVote(o, u).voters| && NoDuplicates(WithVote(o, u).voters)
  {
  }

  /** Every vote keeps a consistent poll consistent. */
  lemma VoteKeepsConsistent(p: Poll, optionId: string, u: string)
    requires Consistent(p)
    ensures Consistent(VotePoll(p, optionId, u))
  {
    var r := VotePoll(p, optionId, u);
    var opts := p.options;
    forall i | 0 <= i < |opts|
      ensures r.options[i].votes == |r.options[i].voters| && NoDuplicates(r.options[i].voters)
    {
      WithoutUnique(opts[i].voters, u);
      if !p.allowMultiple && HasVoted(opts, u) {
        var w := Withdrawn(opts[i], u);
        if w.id == optionId {
          WithVoteConsistent(w, u);
        }
      } else {
        var target := FirstWithId(opts, optionId);
        if opts[i].id == optionId {
          assert target.Some? && target.value == opts[i];
          if u !in opts[i].voters {
            WithVoteConsistent(opts[i], u);
          }
        }
      }
    }
  }

  /** `handleVote` over the feed: only the post with that id and a poll changes. */
  function VoteOnPosts(posts: seq<Post>, postId: string, optionId: string, u: string): (r: seq<Post>)
    ensures |r| == |posts|
    ensures forall i | 0 <= i < |posts| ::
              r[i] == if posts[i].id == postId && posts[i].poll.Some?
                      then posts[i].(poll := Some(VotePoll(posts[i].poll.value, optionId, u)))
                      else posts[i]
  {
    seq(|posts|, i requires 0 <= i < |posts| =>
      if posts[i].id == postId && posts[i].poll.Some?
      then posts[i].(poll := Some(VotePoll(posts[i].poll.value, optionId, u)))
      else posts[i])
  }

  // ---------------------------------------------------------------------
  // Creating posts and polls

  function AuthorName(userName: string): string {
    if userName != "" then userName else AnonymousAuthor
  }

  /** `handleNewPost`: refused when both the text and the title are blank; an empty
      title defaults to the text, cut to 50 characters plus "..." when longer. */
  function NewPost(content: string, title: string, category: string, userName: string, now: nat): (r: Option<Post>)
    ensures r.None? <==> Text.IsBlank(content) && Text.IsBlank(title)
    ensures r.Some? ==> r.value.title != "" && r.value.content == content && r.value.category == category
    ensures r.Some? && title != "" ==> r.value.title == title
    ensures r.Some? && title == "" && |content| > TitleCut ==> r.value.title == content[..TitleCut] + "..."
    ensures r.Some? && title == "" && |content| <= TitleCut ==> r.value.title == content
    ensures r.Some? ==> r.value.likes == 0 && !r.value.hasLiked && r.value.poll.None? && !r.value.isPinned
  {
    if Text.IsBlank(content) && Text.IsBlank(title) then None
    else
      assert content == "" ==> Text.IsBlank(content);
      Some(Post(Text.NatToString(now), Author(AuthorName(userName), "Membro"),
                if title != "" then title else Text.Truncate(content, TitleCut),
                content, category, false, 0, 0, "Agora", false, None))
  }

  function OptionId(now: nat, index: nat): string {
    "opt-" + Text.NatToString(now) + "-" + Text.NatToString(index)
  }

  lemma OptionIdsDistinct(now: nat, i: nat, j: nat)
    requires i != j
    ensures OptionId(now, i) != OptionId(now, j)
  {
    var prefix := "opt-" + Text.NatToString(now) + "-";
    if OptionId(now, i) == OptionId(now, j) {
      assert OptionId(now, i)[|prefix|..] == Text.NatToString(i);
      assert OptionId(now, j)[|prefix|..] == Text.NatToString(j);
      Text.NatToStringInjective(i, j);
    }
  }

  predicate NonBlank(s: string) {
    !Text.IsBlank(s)
  }

  function NewOptions(kept: seq<string>, now: nat): (r: seq<PollOption>)
    ensures |r| == |kept|
    ensures forall i | 0 <= i < |kept| :: r[i] == PollOption(OptionId(now, i), Text.Trim(kept[i]), 0, [])
  {
    seq(|kept|, i requires 0 <= i < |kept| => PollOption(OptionId(now, i), Text.Trim(kept[i]), 0, []))
  }

  /** `handleCreatePoll`: refused for a blank question or fewer than two non-blank
      options; otherwise a post titled with the question whose poll lists the
      non-blank options, trimmed, with no votes. */
  function NewPoll(question: string, options: seq<string>, duration: Duration, allowMultiple: bool,
                   content: string, category: string, userId: string, userName: string, now: nat): (r: Option<Post>)
    ensures r.None? <==> Text.IsBlank(question) || |Seqs.Filter(options, NonBlank)| < MinOptions
    ensures r.Some? ==> r.value.poll.Some? && r.value.title == question
    ensures r.Some? ==> |r.value.poll.value.options| == |Seqs.Filter(options, NonBlank)| >= MinOptions
    ensures r.Some? ==> r.value.content == (if content != "" then content else DefaultPollContent)
    ensures r.Some? ==> r.value.poll.value.expiresAt == (if duration.Never? then None else Some(now + duration.n * DayMs))
  {
    var kept := Seqs.Filter(options, NonBlank);
    if Text.IsBlank(question) || |kept| < MinOptions then None
    else
      var poll := Poll("poll-" + Text.NatToString(now), question, NewOptions(kept, now), 0,
                       if duration.Never? then None else Some(now + duration.n * DayMs),
                       allowMultiple, VoterId(userId));
      Some(Post(Text.NatToString(now), Author(AuthorName(userName), "Membro"), question,
                if content != "" then content else DefaultPollContent,
                category, false, 0, 0, "Agora", false, Some(poll)))
  }

  /** The options built for a poll have distinct ids. */
  lemma NewOptionIdsDistinct(kept: seq<string>, now: nat)
    ensures var opts := NewOptions(kept, now);
            forall i, j | 0 <= i < j < |opts| :: opts[i].id != opts[j].id
  {
    var opts := NewOptions(kept, now);
    forall i, j | 0 <= i < j < |opts| ensures opts[i].id != opts[j].id {
      assert opts[i].id == OptionId(now, i) && opts[j].id == OptionId(now, j);
      OptionIdsDistinct(now, i, j);
    }
  }

  /** The options built from non-blank texts have trimmed, non-blank texts. */
  lemma NewOptionTextsTrimmed(kept: seq<string>, now: nat)
    requires forall i | 0 <= i < |kept| :: NonBlank(kept[i])
    ensures var opts := NewOptions(kept, now);
            forall i | 0 <= i < |opts| :: opts[i].text == Text.Trim(opts[i].text) != ""
  {
    var opts := NewOptions(kept, now);
    forall i | 0 <= i < |opts| ensures opts[i].text == Text.Trim(opts[i].text) != "" {
      var t := Text.Trim(kept[i]);
      assert opts[i].text == t;
      assert NonBlank(kept[i]);
      TrimIdempotent(kept[i]);
    }
  }

  /** A new poll is consistent, every option text is trimmed and non-blank, so the
      voting lemmas apply to it from the start. */
  lemma NewPollConsistent(question: string, options: seq<string>, duration: Duration, allowMultiple: bool,
                          content: string, category: string, userId: string, userName: string, now: nat)
    requires NewPoll(question, options, duration, allowMultiple, content, category, userId, userName, now).Some?
    ensures var p := NewPoll(question, options, duration, allowMultiple, content, category, userId, userName, now).value.poll.value;
            Consistent(p)
            && forall i | 0 <= i < |p.options| :: p.options[i].text == Text.Trim(p.options[i].text) != ""
  {
    var p := NewPoll(question, options, duration, allowMultiple, content, category, userId, userName, now).value.poll.value;
    var kept := Seqs.Filter(options, NonBlank);
    NewPollOptions(question, options, duration, allowMultiple, content, category, userId, userName, now);
    var opts := NewOptions(kept, now);
    NewOptionIdsDistinct(kept, now);
    NewOptionTextsTrimmed(kept, now);
    forall i | 0 <= i < |opts| ensures opts[i].votes == |opts[i].voters| == 0 && NoDuplicates(opts[i].voters) {
      assert opts[i].voters == [];
    }
    ZeroVotesTotal(opts);
  }

  lemma NewPollOptions(question: string, options: seq<string>, duration: Duration, allowMultiple: bool,
                       content: string, category: string, userId: string, userName: string, now: nat)
    requires NewPoll(question, options, duration, allowMultiple, content, category, userId, userName, now).Some?
    ensures var p := NewPoll(question, options, duration, allowMultiple, content, category, userId, userName, now).value.poll.value;
            p.options == NewOptions(Seqs.Filter(options, NonBlank), now) && p.totalVotes == 0
  {
  }

  lemma {:induction false} ZeroVotesTotal(opts: seq<PollOption>)
    requires forall i | 0 <= i < |opts| :: opts[i].votes == 0
    ensures TotalOf(opts) == 0
    decreases |opts|
  {
    if |opts| > 0 {
      ZeroVotesTotal(opts[..|opts| - 1]);
    }
  }

  lemma TrimIdempotent(s: string)
    ensures Text.Trim(Text.Trim(s)) == Text.Trim(s)
  {
    var t := Text.Trim(s);
    var ts := Text.TrimStart(t);
    assert ts == t by {
      if |t| > 0 { assert !Text.IsSpace(t[0]); }
    }
    var te := Text.TrimEnd(ts);
    assert te == ts by {
      if |ts| > 0 { assert !Text.IsSpace(ts[|ts| - 1]); }
    }
  }

  // ---------------------------------------------------------------------
  // The option editor

  /** `addPollOption`: one more blank option, up to six. */
  function AddOption(opts: seq<string>): (r: seq<string>)
    ensures |opts| < MaxOptions ==> r == opts + [""]
    ensures |opts| >= MaxOptions ==> r == opts
  {
    if |opts| < MaxOptions then opts + [""] else opts
  }

  /** `removePollOption`: drops the option at that position while more than two remain;
      a position past the end removes nothing. */
  function RemoveOption(opts: seq<string>, index: nat): (r: seq<string>)
    ensures |opts| > MinOptions && index < |opts| ==> r == opts[..index] + opts[index + 1..]
    ensures |opts| <= MinOptions || index >= |opts| ==> r == opts
  {
    if |opts| > MinOptions && index < |opts| then opts[..index] + opts[index + 1..] else opts
  }

  // ---------------------------------------------------------------------
  // The feed filter

  predicate Shown(p: Post, category: string, query: string) {
    (category == "all" || p.category == category)
    && (Text.IncludesIgnoringCase(p.title, query) || Text.IncludesIgnoringCase(p.content, query))
  }

  /** `filteredPosts`: the posts of the chosen category (or all) whose title or text
      contains the query, ignoring case, in feed order. */
  function FilteredPosts(posts: seq<Post>, category: string, query: string): (r: seq<Post>)
    ensures forall i | 0 <= i < |r| :: r[i] in posts && Shown(r[i], category, query)
    ensures forall i | 0 <= i < |posts| :: Shown(posts[i], category, query) ==> posts[i] in r
  {
    Seqs.Filter(posts, (p: Post) => Shown(p, category, query))
  }

  /** With the "all" category and an empty query the whole feed is shown, in order. */
  lemma FilteredPostsShowsAll(posts: seq<Post>)
    ensures FilteredPosts(posts, "all", "") == posts
  {
    forall i | 0 <= i < |posts| ensures Shown(posts[i], "all", "") {
      Text.ContainsEmpty(Text.LowerStr(posts[i].title));
    }
    Seqs.FilterAll(posts, (p: Post) => Shown(p, "all", ""));
  }

  // ---------------------------------------------------------------------
  // The page

  /** Everything the page holds, so that a handler can state its whole new state. */
  datatype PageState = PageState(posts: seq<Post>, pollQuestion: string, pollOptions: seq<string>,
                                 pollDuration: Duration, allowMultipleVotes: bool, newPost: string,
                                 newPostTitle: string, newPostCategory: string, showNewPost: bool,
                                 showPollModal: bool)

  /** The post the new-post form of `st` would publish. */
  function PostFromForm(st: PageState, userName: string, now: nat): Option<Post> {
    NewPost(st.newPost, st.newPostTitle, st.newPostCategory, userName, now)
  }

  /** The post the poll form of `st` would publish. */
  function PollFromForm(st: PageState, userId: string, userName: string, now: nat): Option<Post> {
    NewPoll(st.pollQuestion, st.pollOptions, st.pollDuration, st.allowMultipleVotes, st.newPost,
            st.newPostCategory, userId, userName, now)
  }

  /** The page after `handleNewPost`: the post on top of the feed and the form
      cleared and closed, or the same page for a blank form. */
  function AfterPost(st: PageState, userName: string, now: nat): (r: PageState)
    ensures PostFromForm(st, userName, now).None? ==> r == st
    ensures PostFromForm(st, userName, now).Some? ==>
              r == st.(posts := [PostFromForm(st, userName, now).value] + st.posts,
                       newPost := "", newPostTitle := "", newPostCategory := "general", showNewPost := false)
  {
    var made := PostFromForm(st, userName, now);
    if made.None? then st
    else st.(posts := [made.value] + st.posts, newPost := "", newPostTitle := "", newPostCategory := "general",
             showNewPost := false)
  }

  /** The page after `handleCreatePoll`: the poll on top of the feed and both forms
      back to their initial state, or the same page for a refused poll. */
  function AfterPoll(st: PageState, userId: string, userName: string, now: nat): (r: PageState)
    ensures PollFromForm(st, userId, userName, now).None? ==> r == st
    ensures PollFromForm(st, userId, userName, now).Some? ==>
              r == PageState([PollFromForm(st, userId, userName, now).value] + st.posts,
                             "", ["", ""], Days(7), false, "", "", "general", false, false)
  {
    var made := PollFromForm(st, userId, userName, now);
    if made.None? then st
    else PageState([made.value] + st.posts, "", ["", ""], Days(7), false, "", "", "general", false, false)
  }

  class CommunityPage {
    var posts: seq<Post>
    var pollQuestion: string
    var pollOptions: seq<string>
    var pollDuration: Duration
    var allowMultipleVotes: bool
    var newPost: string
    var newPostTitle: string
    var newPostCategory: string
    var showNewPost: bool
    var showPollModal: bool

    /** The poll form always offers between two and six options. */
    predicate Valid()
      reads this
    {
      MinOptions <= |pollOptions| <= MaxOptions
    }

    function State(): PageState
      reads this
    {
      PageState(posts, pollQuestion, pollOptions, pollDuration, allowMultipleVotes, newPost, newPostTitle,
                newPostCategory, showNewPost, showPollModal)
    }

    constructor ()
      ensures Valid()
      ensures State() == PageState([], "", ["", ""], Days(7), false, "", "", "general", false, false)
    {
      posts := [];
      pollQuestion := "";
      pollOptions := ["", ""];
      pollDuration := Days(7);
      allowMultipleVotes := false;
      newPost := "";
      newPostTitle := "";
      newPostCategory := "general";
      showNewPost := false;
      showPollModal := false;
    }

    /** `handleLike`: only the feed changes. */
    method Like(postId: string)
      requires Valid()
      modifies this
      ensures Valid()
      ensures State() == old(State()).(posts := ToggleLike(old(posts), postId))
    {
      posts := ToggleLike(posts, postId);
    }

    /** `handleVote`: only the feed changes. */
    method Vote(userId: string, postId: string, optionId: string)
      requires Valid()
      modifies this
      ensures Valid()
      ensures State() == old(State()).(posts := VoteOnPosts(old(posts), postId, optionId, VoterId(userId)))
    {
      posts := VoteOnPosts(posts, postId, optionId, VoterId(userId));
    }

    /** `handleNewPost`. */
    method SubmitPost(userName: string, now: nat)
      requires Valid()
      modifies this
      ensures Valid()
      ensures State() == AfterPost(old(State()), userName, now)
    {
      var made := PostFromForm(State(), userName, now);
      if made.Some? {
        posts := [made.value] + posts;
        ClearPostForm();
      }
    }

    /** The new-post form back to its initial state, closed. */
    method ClearPostForm()
      modifies this
      ensures State() == old(State()).(newPost := "", newPostTitle := "", newPostCategory := "general",
                                       showNewPost := false)
    {
      newPost, newPostTitle, newPostCategory, showNewPost := "", "", "general", false;
    }

    /** `handleCreatePoll`. */
    method SubmitPoll(userId: string, userName: string, now: nat)
      requires Valid()
      modifies this
      ensures Valid()
      ensures State() == AfterPoll(old(State()), userId, userName, now)
    {
      var made := PollFromForm(State(), userId, userName, now);
      if made.Some? {
        posts := [made.value] + posts;
        ResetForms();
      }
    }

    /** Both forms back to their initial state, closed. */
    method ResetForms()
      modifies this
      ensures Valid()
      ensures State() == PageState(old(posts), "", ["", ""], Days(7), false, "", "", "general", false, false)
    {
      pollQuestion, pollOptions, pollDuration, allowMultipleVotes := "", ["", ""], Days(7), false;
      newPost, newPostTitle, newPostCategory := "", "", "general";
      showPollModal, showNewPost := false, false;
    }

    /** `addPollOption`: only the option list changes. */
    method AddPollOption()
      requires Valid()
      modifies this
      ensures Valid()
      ensures State() == old(State()).(pollOptions := AddOption(old(pollOptions)))
    {
      pollOptions := AddOption(pollOptions);
    }

    /** `removePollOption`: only the option list changes. */
    method RemovePollOption(index: nat)
      requires Valid()
      modifies this
      ensures Valid()
      ensures State() == old(State()).(pollOptions := RemoveOption(old(pollOptions), index))
    {
      pollOptions := RemoveOption(pollOptions, index);
    }

    /** `updatePollOption`: copies the options into a fresh array, overwrites one slot
        and stores the copy; only that slot changes. */
    method UpdatePollOption(index: nat, value: string)
      requires Valid() && index < |pollOptions|
      modifies this
      ensures Valid()
      ensures State() == old(State()).(pollOptions := old(pollOptions)[index := value])
    {
      var updated := new string[|pollOptions|](i requires 0 <= i < |pollOptions| reads this => pollOptions[i]);
      updated[index] := value;
      pollOptions := updated[..];
    }
  }
}

=== FILE: csv_import.dfy ===
/** The CSV import page: the line-and-comma splitter that builds the preview,
    the preview's first five rows, the import settings form and the mapping of
    each row to a new lead. */
module CsvImport {
  import opened Wrappers
  import Text
  import Seqs
  import opened Leads

  // ---------------------------------------------------------------------
  // Parsing

  /** `line.split(',').map(cell => cell.trim())`. */
  function Cells(line: string): (r: seq<string>)
    ensures |r| == |Text.Split(line, ',')| >= 1
    ensures forall k | 0 <= k < |r| :: r[k] == Text.Trim(Text.Split(line, ',')[k])
  {
    var pieces := Text.Split(line, ',');
    seq(|pieces|, k requires 0 <= k < |pieces| => Text.Trim(pieces[k]))
  }

  /** `row.some(cell => cell)`: some cell is not empty. */
  predicate HasValue(row: seq<string>) {
    exists k | 0 <= k < |row| :: row[k] != ""
  }

  function RowsOf(lines: seq<string>): (r: seq<seq<string>>)
    ensures |r| == |lines|
    ensures forall i | 0 <= i < |r| :: r[i] == Cells(lines[i])
  {
    seq(|lines|, i requires 0 <= i < |lines| => Cells(lines[i]))
  }

  datatype PreviewData = PreviewData(headers: seq<string>, rows: seq<seq<string>>)

  /** The CSV branch of `handleFileChange`: the first line is the header, the other
      lines are rows, and a row whose cells are all empty after trimming is dropped. */
  function ParseCsv(text: string): (r: PreviewData)
    ensures |r.headers| >= 1
    ensures |r.rows| < |Text.Split(text, '\n')|
    ensures forall i | 0 <= i < |r.rows| :: HasValue(r.rows[i])
  {
    var lines := Text.Split(text, '\n');
    PreviewData(Cells(lines[0]), Seqs.Filter(RowsOf(lines[1..]), HasValue))
  }

  /** The rows of a body of lines, as the parser keeps them. */
  function BodyRows(body: string): seq<seq<string>> {
    Seqs.Filter(RowsOf(Text.Split(body, '\n')), HasValue)
  }

  /** The first line is the header, whatever the "first line is a header" box says
      (the parser is never given it), and the rows come from the lines after it. */
  lemma {:induction false} FirstLineIsHeader(header: string, body: string)
    requires '\n' !in header
    ensures ParseCsv(header + "\n" + body) == PreviewData(Cells(header), BodyRows(body))
  {
    Text.SplitConcat(header, body, '\n');
    SplitWithoutSeparator(header, '\n');
    assert Text.Split(header + "\n" + body, '\n')[1..] == Text.Split(body, '\n');
  }

  lemma {:induction false} SplitWithoutSeparator(s: string, sep: char)
    requires sep !in s
    ensures Text.Split(s, sep) == [s]
    decreases |s|
  {
    if |s| > 0 {
      assert sep !in s[1..] by {
        forall i | 0 <= i < |s[1..]| ensures s[1..][i] != sep {
          assert s[1..][i] == s[i + 1];
        }
      }
      SplitWithoutSeparator(s[1..], sep);
      assert [s[0]] + s[1..] == s;
    }
  }

  /** Every row shown has a non-empty cell and is the trimmed cells of some line after
      the header; every line after the header with a non-empty cell is shown. */
  lemma ParsedRowsFromLines(text: string)
    ensures var lines := Text.Split(text, '\n');
            var rows := ParseCsv(text).rows;
            (forall i | 0 <= i < |rows| :: HasValue(rows[i]) && rows[i] in RowsOf(lines[1..]))
            && (forall j | 1 <= j < |lines| :: HasValue(Cells(lines[j])) ==> Cells(lines[j]) in rows)
  {
    var lines := Text.Split(text, '\n');
    var all := RowsOf(lines[1..]);
    assert ParseCsv(text).rows == Seqs.Filter(all, HasValue);
    forall j | 1 <= j < |lines|
      ensures Cells(lines[j]) == all[j - 1]
    {
      assert lines[1..][j - 1] == lines[j];
    }
  }

  lemma RowsOfAppend(x: seq<string>, y: seq<string>)
    ensures RowsOf(x + y) == RowsOf(x) + RowsOf(y)
  {
    var l := RowsOf(x + y);
    var rr := RowsOf(x) + RowsOf(y);
    assert |l| == |rr|;
    forall i | 0 <= i < |l| ensures l[i] == rr[i] {
      if i < |x| {
        assert (x + y)[i] == x[i];
      } else {
        assert (x + y)[i] == y[i - |x|];
      }
    }
  }

  /** Rows keep file order: the rows of two blocks of lines are the rows of the first
      followed by the rows of the second. */
  lemma RowsInFileOrder(a: string, b: string)
    ensures BodyRows(a + "\n" + b) == BodyRows(a) + BodyRows(b)
  {
    Text.SplitConcat(a, b, '\n');
    var la := Text.Split(a, '\n');
    var lb := Text.Split(b, '\n');
    RowsOfAppend(la, lb);
    Seqs.FilterAppend(RowsOf(la), RowsOf(lb), HasValue);
  }

  lemma SplitTrailing(text: string)
    ensures Text.Split(text + "\n", '\n') == Text.Split(text, '\n') + [""]
  {
    Text.SplitConcat(text, "", '\n');
    assert text + "\n" == text + "\n" + "";
  }

  /** The empty line gives no row. */
  lemma EmptyLineDropped()
    ensures Seqs.Filter([Cells("")], HasValue) == []
  {
    var c := Cells("");
    assert Text.Split("", ',') == [""];
    assert |c| == 1 && c[0] == Text.Trim("");
    assert Text.Trim("") == [];
    assert !HasValue(c);
    var one := [c];
    assert one[..0] == [];
    assert !HasValue(one[0]);
  }

  /** A file ending in a newline has no extra row for its last, empty line. */
  lemma TrailingNewlineAddsNoRow(text: string)
    ensures ParseCsv(text + "\n").rows == ParseCsv(text).rows
  {
    var lines := Text.Split(text, '\n');
    SplitTrailing(text);
    var body := lines[1..];
    assert (lines + [""])[1..] == body + [""];
    RowsOfAppend(body, [""]);
    Seqs.FilterAppend(RowsOf(body), RowsOf([""]), HasValue);
    assert RowsOf([""]) == [Cells("")];
    EmptyLineDropped();
  }

  // ---------------------------------------------------------------------
  // Preview

  const PreviewSize := 5

  /** `previewData.rows.slice(0, 5)`. */
  function PreviewRows(rows: seq<seq<string>>): (r: seq<seq<string>>)
    ensures |r| <= PreviewSize
    ensures |r| <= |rows| && r == rows[..|r|]
    ensures |rows| <= PreviewSize ==> r == rows
    ensures |rows| > PreviewSize ==> |r| == PreviewSize
  {
    if |rows| <= PreviewSize then rows else rows[..PreviewSize]
  }

  /** The note under the preview table, only when rows are hidden. */
  function PreviewNote(rows: seq<seq<string>>): (r: Option<string>)
    ensures r.Some? <==> |rows| > |PreviewRows(rows)|
  {
    if |rows| > PreviewSize then Some("Mostrando 5 de " + Text.IntToString(|rows|) + " registros") else None
  }

  // ---------------------------------------------------------------------
  // Settings

  datatype Settings = Settings(responsible: string, pipelineStage: string, hasHeader: bool)

  const DefaultSettings := Settings("Victor Peixoto", "prospected", true)

  /** A change event from the form: the input's name, whether it is a checkbox,
      and its `value` and `checked`. */
  datatype ChangeEvent = ChangeEvent(name: string, isCheckbox: bool, value: string, checked: bool)

  /** `handleSettingChange`: the named field takes `checked` from a checkbox and
      `value` from any other input. The form's two selects are text settings and its
      one checkbox is `hasHeader`; an event naming anything else changes no setting
      the page reads. */
  function ApplyChange(s: Settings, e: ChangeEvent): (r: Settings)
    ensures r == s || r == s.(responsible := e.value) || r == s.(pipelineStage := e.value)
            || r == s.(hasHeader := e.checked)
  {
    if e.name == "responsible" && !e.isCheckbox then s.(responsible := e.value)
    else if e.name == "pipelineStage" && !e.isCheckbox then s.(pipelineStage := e.value)
    else if e.name == "hasHeader" && e.isCheckbox then s.(hasHeader := e.checked)
    else s
  }

  /** Only the named setting changes, to the input's value or to its checked state. */
  lemma ChangeOnlyNamedField(s: Settings, e: ChangeEvent)
    ensures var t := ApplyChange(s, e);
            (t.responsible != s.responsible ==> e.name == "responsible" && t.responsible == e.value)
            && (t.pipelineStage != s.pipelineStage ==> e.name == "pipelineStage" && t.pipelineStage == e.value)
            && (t.hasHeader != s.hasHeader ==> e.name == "hasHeader" && e.isCheckbox && t.hasHeader == e.checked)
            && (e.name == "hasHeader" && e.isCheckbox ==> t.hasHeader == e.checked)
            && (e.name == "pipelineStage" && !e.isCheckbox ==> t.pipelineStage == e.value)
            && (e.name == "responsible" && !e.isCheckbox ==> t.responsible == e.value)
  {
  }

  /** The same change twice is the change once. */
  lemma ChangeIdempotent(s: Settings, e: ChangeEvent)
    ensures ApplyChange(ApplyChange(s, e), e) == ApplyChange(s, e)
  {
  }

  // ---------------------------------------------------------------------
  // Import

  /** A lead as the import writes it: a cell beyond the end of its row is `undefined`. */
  datatype ImportedLead = ImportedLead(
    companyname: Option<string>,
    contactname: Option<string>,
    email: Option<string>,
    phone: Option<string>,
    jobtitle: Option<string>,
    status: string,
    priority: string,
    createddate: int,
    responsible: string,
    userId: string)

  /** `row[k]`. */
  function CellAt(row: seq<string>, k: nat): (r: Option<string>)
    ensures r.Some? <==> k < |row|
    ensures r.Some? ==> r.value == row[k]
  {
    if k < |row| then Some(row[k]) else None
  }

  /** One row as a lead: the first five cells, in order, as company, contact, email,
      phone and job title, each missing past the end of the row. */
  function ImportRow(row: seq<string>, settings: Settings, userId: string, now: int): (r: ImportedLead)
    ensures (r.companyname.Some? <==> |row| >= 1) && (r.contactname.Some? <==> |row| >= 2)
            && (r.email.Some? <==> |row| >= 3) && (r.phone.Some? <==> |row| >= 4) && (r.jobtitle.Some? <==> |row| >= 5)
    ensures |row| >= 5 ==>
              [r.companyname.value, r.contactname.value, r.email.value, r.phone.value, r.jobtitle.value] == row[..5]
    ensures r.status == settings.pipelineStage && r.priority == "medium" && r.createddate == now
    ensures r.responsible == settings.responsible && r.userId == userId
  {
    ImportedLead(CellAt(row, 0), CellAt(row, 1), CellAt(row, 2), CellAt(row, 3), CellAt(row, 4),
                 settings.pipelineStage, "medium", now, settings.responsible, userId)
  }

  datatype ImportOutcome = NotStarted | ImportFailed(leads: seq<ImportedLead>) | Imported(leads: seq<ImportedLead>, notice: string)

  /** `handleImport`: nothing without a preview or a user; otherwise one lead per row,
      inserted together, and on success the pipeline page opens with a notice. */
  function HandleImport(preview: Option<PreviewData>, user: Option<SessionUser>, settings: Settings,
                        now: int, insertFailed: bool): (r: ImportOutcome)
    ensures r.NotStarted? <==> preview.None? || user.None?
    ensures r.ImportFailed? <==> preview.Some? && user.Some? && insertFailed
    ensures r.Imported? ==> Text.StartsWith(r.notice, Text.IntToString(|r.leads|))
                            && r.notice[|Text.IntToString(|r.leads|)|..] == ImportedSuffix
  {
    if preview.None? || user.None? then NotStarted
    else
      var rows := preview.value.rows;
      var leads := seq(|rows|, i requires 0 <= i < |rows| => ImportRow(rows[i], settings, user.value.id, now));
      if insertFailed then ImportFailed(leads)
      else Imported(leads, Text.IntToString(|leads|) + ImportedSuffix)
  }

  const ImportedSuffix := " leads importados com sucesso!"

  /** One lead per row, columns 0 to 4 as company, contact, email, phone and job title,
      the chosen stage and responsible, medium priority, owned by the user. */
  lemma ImportOneLeadPerRow(preview: PreviewData, user: SessionUser, settings: Settings, now: int, insertFailed: bool)
    ensures var r := HandleImport(Some(preview), Some(user), settings, now, insertFailed);
            var rows := preview.rows;
            (insertFailed <==> r.ImportFailed?)
            && |r.leads| == |rows|
            && forall i | 0 <= i < |rows| ::
                 r.leads[i].status == settings.pipelineStage && r.leads[i].priority == "medium"
                 && r.leads[i].responsible == settings.responsible && r.leads[i].userId == user.id
                 && r.leads[i].createddate == now
                 && r.leads[i].companyname == CellAt(rows[i], 0) && r.leads[i].contactname == CellAt(rows[i], 1)
                 && r.leads[i].email == CellAt(rows[i], 2) && r.leads[i].phone == CellAt(rows[i], 3)
                 && r.leads[i].jobtitle == CellAt(rows[i], 4)
                 && (|rows[i]| >= 5 ==>
                       r.leads[i].companyname == Some(rows[i][0]) && r.leads[i].contactname == Some(rows[i][1])
                       && r.leads[i].email == Some(rows[i][2]) && r.leads[i].phone == Some(rows[i][3])
                       && r.leads[i].jobtitle == Some(rows[i][4]))
  {
  }

  /** With the default settings every imported lead lands in "prospected". */
  lemma DefaultImportStage(preview: PreviewData, user: SessionUser, now: int)
    ensures var r := HandleImport(Some(preview), Some(user), DefaultSettings, now, false);
            r.Imported? && forall i | 0 <= i < |r.leads| :: r.leads[i].status == "prospected" && StageLabel(r.leads[i].status) == "Prospectado"
  {
  }
}

=== FILE: dashboard.dfy ===
/** The dashboard's metrics over the user's leads, the pipeline-health bars and
    the trial-expiry warning. Times are milliseconds. */
module Dashboard {
  import opened Wrappers
  import Seqs
  import opened Leads

  const DayMs := 24 * 60 * 60 * 1000
  const WeekMs := 7 * DayMs

  /** The response rate the source shows is a fixed placeholder. */
  const PlaceholderResponseRate := 35

  // ---------------------------------------------------------------------
  // leadsByStage: a reduce into an object, kept here as its entries in
  // insertion order, the order a JavaScript object lists string keys in.

  function Lookup(entries: seq<(string, nat)>, key: string): nat
    decreases |entries|
  {
    if |entries| == 0 then 0
    else if entries[0].0 == key then entries[0].1
    else Lookup(entries[1..], key)
  }

  /** `acc[key] = (acc[key] || 0) + 1`. */
  function Bump(entries: seq<(string, nat)>, key: string): (r: seq<(string, nat)>)
    decreases |entries|
  {
    if |entries| == 0 then [(key, 1)]
    else if entries[0].0 == key then [(key, entries[0].1 + 1)] + entries[1..]
    else [entries[0]] + Bump(entries[1..], key)
  }

  function EntryCount(e: (string, nat)): int {
    e.1
  }

  function StageCounts(leads: seq<Lead>): seq<(string, nat)>
    decreases |leads|
  {
    if |leads| == 0 then [] else Bump(StageCounts(leads[..|leads| - 1]), leads[|leads| - 1].status)
  }

  lemma {:induction false} BumpTotal(entries: seq<(string, nat)>, key: string)
    ensures Seqs.Sum(Bump(entries, key), EntryCount) == Seqs.Sum(entries, EntryCount) + 1
    decreases |entries|
  {
    if |entries| == 0 {
      assert Bump(entries, key) == [] + [(key, 1)];
    } else if entries[0].0 == key {
      Seqs.SumAppend([entries[0]], entries[1..], EntryCount);
      Seqs.SumAppend([(key, entries[0].1 + 1)], entries[1..], EntryCount);
      assert [entries[0]] + entries[1..] == entries;
      assert Seqs.Sum([entries[0]], EntryCount) == Seqs.Sum([], EntryCount) + EntryCount(entries[0]);
      assert Seqs.Sum([(key, entries[0].1 + 1)], EntryCount) == Seqs.Sum([], EntryCount) + entries[0].1 + 1;
    } else {
      BumpTotal(entries[1..], key);
      Seqs.SumAppend([entries[0]], entries[1..], EntryCount);
      Seqs.SumAppend([entries[0]], Bump(entries[1..], key), EntryCount);
      assert [entries[0]] + entries[1..] == entries;
    }
  }

  lemma {:induction false} BumpLookup(entries: seq<(string, nat)>, key: string, k: string)
    ensures Lookup(Bump(entries, key), k) == Lookup(entries, k) + (if k == key then 1 else 0)
    decreases |entries|
  {
    if |entries| > 0 && entries[0].0 != key {
      BumpLookup(entries[1..], key, k);
      assert Bump(entries, key)[1..] == Bump(entries[1..], key);
    }
  }

  /** Every lead is counted under exactly one stage: the counts add up to the number of leads. */
  lemma {:induction false} StageCountsTotal(leads: seq<Lead>)
    ensures Seqs.Sum(StageCounts(leads), EntryCount) == |leads|
    decreases |leads|
  {
    if |leads| > 0 {
      StageCountsTotal(leads[..|leads| - 1]);
      BumpTotal(StageCounts(leads[..|leads| - 1]), leads[|leads| - 1].status);
    }
  }

  /** The count shown for a stage is the number of leads in it; a stage without leads shows 0. */
  lemma {:induction false} StageCountIsCount(leads: seq<Lead>, stage: string)
    ensures Lookup(StageCounts(leads), stage) == Seqs.Count(leads, (l: Lead) => l.status == stage)
    decreases |leads|
  {
    if |leads| > 0 {
      StageCountIsCount(leads[..|leads| - 1], stage);
      BumpLookup(StageCounts(leads[..|leads| - 1]), leads[|leads| - 1].status, stage);
    }
  }

  // ---------------------------------------------------------------------
  // fetchMetrics

  datatype Metrics = Metrics(totalLeads: nat, newLeadsThisWeek: nat, totalValue: int,
                             leadsByStage: seq<(string, nat)>, responseRate: int, meetings: nat)

  predicate CreatedWithinWeek(l: Lead, now: int) {
    l.createddate > now - WeekMs
  }

  /** The metrics of the loaded leads; `meetings` is the number of meeting rows the
      second query returned. */
  function ComputeMetrics(leads: seq<Lead>, meetings: nat, now: int): (m: Metrics)
    ensures m.totalLeads == |leads| && m.newLeadsThisWeek <= m.totalLeads
    ensures m.newLeadsThisWeek == |Seqs.Filter(leads, (l: Lead) => CreatedWithinWeek(l, now))|
    ensures m.totalValue == Seqs.Sum(leads, ValueOf)
    ensures m.responseRate == PlaceholderResponseRate && m.meetings == meetings
  {
    Seqs.CountIsFilterLength(leads, (l: Lead) => CreatedWithinWeek(l, now));
    Metrics(|leads|, Seqs.Count(leads, (l: Lead) => CreatedWithinWeek(l, now)), Seqs.Sum(leads, ValueOf),
            StageCounts(leads), PlaceholderResponseRate, meetings)
  }

  /** A failed leads query leaves the metrics as they were. */
  function AfterFetch(current: Metrics, leads: Result<seq<Lead>, string>, meetings: nat, now: int): (m: Metrics)
    ensures leads.Failure? ==> m == current
    ensures leads.Success? ==> m == ComputeMetrics(leads.value, meetings, now)
  {
    if leads.Failure? then current else ComputeMetrics(leads.value, meetings, now)
  }

  /** The stage counts of the metrics add up to `totalLeads`. */
  lemma MetricsStagesAddUp(leads: seq<Lead>, meetings: nat, now: int)
    ensures var m := ComputeMetrics(leads, meetings, now);
            Seqs.Sum(m.leadsByStage, EntryCount) == m.totalLeads
  {
    StageCountsTotal(leads);
  }

  // ---------------------------------------------------------------------
  // Pipeline health bars

  /** `totalLeads > 0 ? (count / totalLeads) * 100 : 0`, in exact arithmetic. */
  function Percentage(count: int, total: int): (r: real)
    ensures total <= 0 ==> r == 0.0
    ensures total > 0 && 0 <= count <= total ==> 0.0 <= r <= 100.0
  {
    if total > 0 then (count as real / total as real) * 100.0 else 0.0
  }

  /** `Math.min(100, percentage)`. */
  function BarWidth(count: int, total: int): (r: real)
    ensures r <= 100.0
    ensures 0 <= count && total > 0 ==> r >= 0.0
  {
    var p := Percentage(count, total);
    if p < 100.0 then p else 100.0
  }

  /** For the metrics' own counts the bar never needs its cap: each stage's share is at most 100%. */
  lemma StageShareAtMostAll(leads: seq<Lead>, stage: string)
    ensures var count := Lookup(StageCounts(leads), stage);
            0.0 <= Percentage(count, |leads|) <= 100.0
            && BarWidth(count, |leads|) == Percentage(count, |leads|)
  {
    StageCountIsCount(leads, stage);
  }

  // ---------------------------------------------------------------------
  // Trial expiry

  /** `Math.ceil(a / d)` for a positive divisor, through Euclidean division. */
  function CeilDiv(a: int, d: int): (r: int)
    requires d > 0
    ensures d * (r - 1) < a <= d * r
  {
    -((-a) / d)
  }

  /** `getDaysUntilExpiry`: whole days until the expiry, rounded up; none without one. */
  function DaysUntilExpiry(sub: Option<Subscription>, now: int): (r: Option<int>)
    ensures r.Some? <==> sub.Some? && sub.value.expiresAt.Some?
    ensures r.Some? ==> DayMs * (r.value - 1) < sub.value.expiresAt.value - now <= DayMs * r.value
  {
    if sub.Some? && sub.value.expiresAt.Some? then Some(CeilDiv(sub.value.expiresAt.value - now, DayMs)) else None
  }

  function IsTrialExpiringSoon(sub: Option<Subscription>, now: int): bool {
    if sub.None? || sub.value.plan.planType != "free" then false
    else
      var daysLeft := DaysUntilExpiry(sub, now);
      daysLeft.Some? && daysLeft.value <= 2
  }

  /** The warning shows exactly for a free plan that expires within two days from now
      (or has already expired). */
  lemma TrialWarningMeaning(sub: Option<Subscription>, now: int)
    ensures IsTrialExpiringSoon(sub, now) <==>
              IsFree(sub) && sub.value.expiresAt.Some? && sub.value.expiresAt.value - now <= 2 * DayMs
  {
    if IsFree(sub) && sub.value.expiresAt.Some? {
      var d := DaysUntilExpiry(sub, now).value;
      var diff := sub.value.expiresAt.value - now;
      if d <= 2 {
        assert diff <= DayMs * d <= DayMs * 2;
      } else {
        assert DayMs * 2 <= DayMs * (d - 1) < diff;
      }
    }
  }
}

=== FILE: json.dfy ===
/** Parsed JSON values as the pages receive them from the extraction webhook,
    with JavaScript's truthiness, property access and template-literal text. */
module Json {
  import opened Wrappers
  import Text

  datatype Json =
    | JNull
    | JBool(b: bool)
    | JNum(n: int)
    | JStr(s: string)
    | JArr(items: seq<Json>)
    /** An object's fields in insertion order. The keys are taken to be distinct, as
        `JSON.parse` leaves them, so `Lookup` taking the first match is the only match. */
    | JObj(fields: seq<(string, Json)>)

  /** JavaScript truthiness of a value (`null`, `false`, `0` and `""` are falsy). */
  predicate Truthy(j: Json) {
    match j
    case JNull => false
    case JBool(b) => b
    case JNum(n) => n != 0
    case JStr(s) => s != ""
    case JArr(_) => true
    case JObj(_) => true
  }

  /** Truthiness of a property read, where a missing property is `undefined`. */
  predicate TruthyOpt(v: Option<Json>) {
    v.Some? && Truthy(v.value)
  }

  function Lookup(fields: seq<(string, Json)>, key: string): (v: Option<Json>)
    ensures v.Some? ==> exists i | 0 <= i < |fields| :: fields[i] == (key, v.value)
    ensures v.None? <==> forall i | 0 <= i < |fields| :: fields[i].0 != key
    decreases |fields|
  {
    if |fields| == 0 then None
    else if fields[0].0 == key then Some(fields[0].1)
    else
      var v := Lookup(fields[1..], key);
      assert forall i | 1 <= i < |fields| :: fields[i] == fields[1..][i - 1];
      v
  }

  /** `j.key`: the property of an object, `undefined` (None) otherwise. */
  function Prop(j: Json, key: string): Option<Json> {
    if j.JObj? then Lookup(j.fields, key) else None
  }

  predicate IsArray(v: Option<Json>) {
    v.Some? && v.value.JArr?
  }

  /** `` `${v}` `` of a value: arrays print their elements joined by ",",
      with `null` elements printed empty; objects print "[object Object]". */
  function ToText(j: Json): string
    decreases j, 1
  {
    match j
    case JNull => "null"
    case JBool(b) => if b then "true" else "false"
    case JNum(n) => Text.IntToString(n)
    case JStr(s) => s
    case JArr(items) => ElementsText(items)
    case JObj(_) => "[object Object]"
  }

  function ElementsText(items: seq<Json>): string
    decreases items, 0
  {
    if |items| == 0 then ""
    else
      var first := if items[0].JNull? then "" else ToText(items[0]);
      if |items| == 1 then first else first + "," + ElementsText(items[1..])
  }
}

=== FILE: kanban.dfy ===
/** A kanban column of the pipeline board: its value total, the free-plan limit
    warnings and the drop of a card into it. */
module Kanban {
  import opened Wrappers
  import Seqs
  import Pipeline
  import opened Leads

  /** The lead limit when the plan states none. */
  const DefaultLeadLimit := 10

  /** `leads.reduce((sum, lead) => sum + (lead.value || 0), 0)`. */
  function ColumnTotal(leads: seq<Lead>): int {
    Seqs.Sum(leads, ValueOf)
  }

  /** Columns without negative values never show a negative total. */
  lemma ColumnTotalNonNegative(leads: seq<Lead>)
    requires forall i | 0 <= i < |leads| :: leads[i].value.None? || leads[i].value.value >= 0
    ensures ColumnTotal(leads) >= 0
  {
    Seqs.SumNonNegative(leads, ValueOf);
  }

  /** Cards split between two columns add up to the total of both. */
  lemma ColumnTotalSplit(a: seq<Lead>, b: seq<Lead>)
    ensures ColumnTotal(a + b) == ColumnTotal(a) + ColumnTotal(b)
  {
    Seqs.SumAppend(a, b, ValueOf);
  }

  /** `subscription_plans?.extraction_limit || 10`: a missing or zero limit means ten. */
  function LeadLimit(sub: Option<Subscription>): (r: int)
    ensures r != 0
    ensures sub.Some? && LimitSet(sub.value.plan.extractionLimit) ==> r == sub.value.plan.extractionLimit.value
    ensures !(sub.Some? && LimitSet(sub.value.plan.extractionLimit)) ==> r == DefaultLeadLimit
  {
    if sub.Some? && sub.value.plan.extractionLimit.Some? && sub.value.plan.extractionLimit.value != 0
    then sub.value.plan.extractionLimit.value
    else DefaultLeadLimit
  }

  /** A non-zero limit, the only falsy number a plan row can hold here. */
  predicate LimitSet(limit: Option<int>) {
    limit.Some? && limit.value != 0
  }

  datatype LimitFlags = LimitFlags(nearLimit: bool, atLimit: bool)

  /** `isNearLimit` (`count >= limit * 0.8`, written exactly as `5 * count >= 4 * limit`)
      and `isAtLimit` (`count >= limit`), both only on a free plan. */
  function Flags(sub: Option<Subscription>, currentLeadCount: int): LimitFlags {
    var limit := LeadLimit(sub);
    LimitFlags(IsFree(sub) && 5 * currentLeadCount >= 4 * limit,
               IsFree(sub) && currentLeadCount >= limit)
  }

  /** Paid plans never warn; on a free plan the column is at the limit exactly
      when the count reaches it, and a column at the limit is also near it. */
  lemma FlagsMeaning(sub: Option<Subscription>, currentLeadCount: int)
    ensures !IsFree(sub) ==> !Flags(sub, currentLeadCount).nearLimit && !Flags(sub, currentLeadCount).atLimit
    ensures Flags(sub, currentLeadCount).atLimit <==> IsFree(sub) && currentLeadCount >= LeadLimit(sub)
    ensures currentLeadCount >= 0 && Flags(sub, currentLeadCount).atLimit ==> Flags(sub, currentLeadCount).nearLimit
  {
  }

  /** The free plan's default: warnings from eight leads, the limit at ten. */
  lemma FreeDefaultThresholds(sub: Option<Subscription>, currentLeadCount: int)
    requires IsFree(sub) && sub.value.plan.extractionLimit.None?
    ensures Flags(sub, currentLeadCount).nearLimit <==> currentLeadCount >= 8
    ensures Flags(sub, currentLeadCount).atLimit <==> currentLeadCount >= 10
  {
  }

  /** What a drop asks the page to do: move that card into this column. */
  datatype MoveRequest = MoveRequest(leadId: string, newStatus: string)

  function Drop(itemId: string, columnStatus: string): MoveRequest {
    MoveRequest(itemId, columnStatus)
  }

  /** Once the page applies the move, the dropped card sits in this column and
      every other card stays where it was. */
  lemma DropLandsInColumn(leads: seq<Lead>, itemId: string, columnStatus: string)
    ensures var req := Drop(itemId, columnStatus);
            var moved := Pipeline.WithStatus(leads, req.leadId, req.newStatus);
            |moved| == |leads|
            && (forall i | 0 <= i < |leads| && leads[i].id == itemId :: moved[i].status == columnStatus)
            && (forall i | 0 <= i < |leads| && leads[i].id != itemId :: moved[i] == leads[i])
  {
  }
}

=== FILE: lead_modal.dfy ===
/** The lead modal: tag search and linking, the observation note, the activity
    list, the stage selector with its optimistic update, and the labels of the
    history view. Every change the modal writes to the lead's history is kept
    as an entry of an append-only log. */
module LeadModal {
  import opened Wrappers
  import Text
  import Seqs
  import Leads

  datatype Tag = Tag(id: string, name: string)

  /** A row linking the lead to a tag. */
  datatype LeadTag = LeadTag(id: string, leadId: string, tagId: string, tag: Tag)

  datatype Activity = Activity(id: string, kind: string, title: string, description: string, scheduledFor: string)

  /** The activity form (`newActivity`). */
  datatype ActivityDraft = ActivityDraft(kind: string, title: string, description: string, scheduledFor: string)

  const EmptyDraft := ActivityDraft("", "", "", "")

  /** A row written to the lead's history. */
  datatype HistoryEntry = HistoryEntry(eventType: string, description: string)

  // ---------------------------------------------------------------------
  // Tags

  /** The lead already carries the tag. */
  predicate Linked(leadTags: seq<LeadTag>, t: Tag) {
    exists k | 0 <= k < |leadTags| :: leadTags[k].tagId == t.id
  }

  predicate Suggested(t: Tag, leadTags: seq<LeadTag>, query: string) {
    Text.IncludesIgnoringCase(t.name, query) && !Linked(leadTags, t)
  }

  /** `filteredTags`: the tags whose name contains the query, ignoring case, and that
      the lead does not carry yet, in the order of the tag list. */
  function FilteredTags(tags: seq<Tag>, leadTags: seq<LeadTag>, query: string): (r: seq<Tag>)
    ensures forall i | 0 <= i < |r| :: r[i] in tags && Suggested(r[i], leadTags, query)
    ensures forall i | 0 <= i < |tags| :: Suggested(tags[i], leadTags, query) ==> tags[i] in r
  {
    Seqs.Filter(tags, (t: Tag) => Suggested(t, leadTags, query))
  }

  predicate SameName(t: Tag, query: string) {
    Text.LowerStr(t.name) == Text.LowerStr(query)
  }

  /** `exactTagMatch`: the first tag whose name equals the query, ignoring case. */
  function ExactTagMatch(tags: seq<Tag>, query: string): (r: Option<Tag>)
    ensures r.Some? ==> r.value in tags && SameName(r.value, query)
    ensures r.None? <==> forall i | 0 <= i < |tags| :: !SameName(tags[i], query)
    decreases |tags|
  {
    if |tags| == 0 then None
    else if SameName(tags[0], query) then Some(tags[0])
    else
      var r := ExactTagMatch(tags[1..], query);
      assert forall i | 1 <= i < |tags| :: tags[i] == tags[1..][i - 1];
      r
  }

  /** The exact match is always among the suggestions, unless the lead already carries it. */
  lemma ExactMatchIsSuggested(tags: seq<Tag>, leadTags: seq<LeadTag>, query: string)
    requires ExactTagMatch(tags, query).Some?
    requires !Linked(leadTags, ExactTagMatch(tags, query).value)
    ensures ExactTagMatch(tags, query).value in FilteredTags(tags, leadTags, query)
  {
    var t := ExactTagMatch(tags, query).value;
    var s := Text.LowerStr(t.name);
    assert s[0..|s|] == s;
    Text.ContainsAt(s, Text.LowerStr(query), 0);
  }

  /** Why `handleCreateAndSelectTag` does nothing: a blank query, an unsaved lead
      (`id` is ""), or a tag of that name already exists. None otherwise. */
  function CreateRefusal(tags: seq<Tag>, query: string, leadId: string): (r: bool)
    ensures r <==> Text.IsBlank(query) || leadId == "" || exists i | 0 <= i < |tags| :: SameName(tags[i], query)
  {
    Text.IsBlank(query) || leadId == "" || ExactTagMatch(tags, query).Some?
  }

  /** The name of a created tag: the query, trimmed. It is never blank. */
  function NewTagName(query: string): (r: string)
    requires !Text.IsBlank(query)
    ensures r != [] && !Text.IsSpace(r[0]) && !Text.IsSpace(r[|r| - 1])
  {
    Text.Trim(query)
  }

  /** `handleRemoveTag`: the link with that id is dropped, every other stays in order. */
  function WithoutLeadTag(leadTags: seq<LeadTag>, leadTagId: string): (r: seq<LeadTag>)
    ensures forall i | 0 <= i < |r| :: r[i].id != leadTagId && r[i] in leadTags
    ensures forall i | 0 <= i < |leadTags| :: leadTags[i].id != leadTagId ==> leadTags[i] in r
  {
    Seqs.Filter(leadTags, (lt: LeadTag) => lt.id != leadTagId)
  }

  // ---------------------------------------------------------------------
  // Observation note

  const ObservationCut := 100

  /** The history text of a saved observation: its first 100 characters, with "..."
      only when something was cut. */
  function ObservationDescription(observations: string): (r: string)
    ensures var head := "Observação adicionada: ";
            Text.StartsWith(r, head)
            && (|observations| <= ObservationCut ==> r == head + observations)
            && (|observations| > ObservationCut ==>
                  r == head + observations[..ObservationCut] + "..." && |r| == |head| + ObservationCut + 3)
  {
    "Observação adicionada: " + Text.Truncate(observations, ObservationCut)
  }

  /** The history written when a note is saved: one entry, unless the note is blank. */
  function ObservationEntries(observations: string): (r: seq<HistoryEntry>)
    ensures |r| <= 1 && (r == [] <==> Text.IsBlank(observations))
    ensures forall e | e in r :: e.eventType == "observation_added" && Text.StartsWith(e.description, "Observação adicionada: ")
  {
    if Text.IsBlank(observations) then []
    else [HistoryEntry("observation_added", ObservationDescription(observations))]
  }

  // ---------------------------------------------------------------------
  // Activities

  /** `handleEditActivity`'s update: the activity with that id becomes the stored one. */
  function ReplaceActivity(acts: seq<Activity>, id: string, stored: Activity): (r: seq<Activity>)
    ensures |r| == |acts|
    ensures forall i | 0 <= i < |acts| :: r[i] == if acts[i].id == id then stored else acts[i]
  {
    seq(|acts|, i requires 0 <= i < |acts| => if acts[i].id == id then stored else acts[i])
  }

  /** `handleDeleteActivity`'s update: every activity with that id leaves the list. */
  function WithoutActivity(acts: seq<Activity>, id: string): (r: seq<Activity>)
    ensures forall i | 0 <= i < |r| :: r[i].id != id && r[i] in acts
    ensures forall i | 0 <= i < |acts| :: acts[i].id != id ==> acts[i] in r
    ensures FindActivity(acts, id).None? ==> r == acts
  {
    var keep := (a: Activity) => a.id != id;
    if FindActivity(acts, id).Some? then Seqs.Filter(acts, keep)
    else Seqs.FilterAll(acts, keep); Seqs.Filter(acts, keep)
  }

  /** The history entry `handleDeleteActivity` writes: one naming the activity, when
      it was in the list of a saved lead. */
  function DeletionEntries(acts: seq<Activity>, id: string, leadId: string): (r: seq<HistoryEntry>)
    ensures |r| <= 1
    ensures r != [] <==> FindActivity(acts, id).Some? && leadId != ""
    ensures forall e | e in r :: e.eventType == "activity_deleted"
  {
    var found := FindActivity(acts, id);
    if found.Some? && leadId != "" then [HistoryEntry("activity_deleted", "Atividade removida: " + found.value.title)]
    else []
  }

  /** `activities.find(act => act.id === id)`. */
  function FindActivity(acts: seq<Activity>, id: string): (r: Option<Activity>)
    ensures r.Some? ==> r.value in acts && r.value.id == id
    ensures r.None? <==> forall i | 0 <= i < |acts| :: acts[i].id != id
    decreases |acts|
  {
    if |acts| == 0 then None
    else if acts[0].id == id then Some(acts[0])
    else
      var r := FindActivity(acts[1..], id);
      assert forall i | 1 <= i < |acts| :: acts[i] == acts[1..][i - 1];
      r
  }

  /** Adding an activity with a fresh id and deleting it again gives back the list. */
  lemma AddThenDeleteRestores(acts: seq<Activity>, a: Activity)
    requires forall i | 0 <= i < |acts| :: acts[i].id != a.id
    ensures WithoutActivity([a] + acts, a.id) == acts
  {
    Seqs.FilterAppend([a], acts, (x: Activity) => x.id != a.id);
    assert [a][..0] == [];
    Seqs.FilterAll(acts, (x: Activity) => x.id != a.id);
  }

  /** Editing changes no id, so an edited activity can still be found and deleted by its id. */
  lemma EditKeepsIds(acts: seq<Activity>, id: string, stored: Activity)
    requires stored.id == id
    ensures var r := ReplaceActivity(acts, id, stored);
            forall i | 0 <= i < |acts| :: r[i].id == acts[i].id
  {
  }

  // ---------------------------------------------------------------------
  // Labels

  /** `PIPELINE_STAGES`, in the order of the stage selector. */
  const PipelineStages: seq<(string, string)> :=
    [("leads", "Leads"), ("prospected", "Prospectado"), ("contacted", "Em Conversa"),
     ("proposal", "Proposta"), ("closed", "Fechado")]

  function FindLabel(stages: seq<(string, string)>, stage: string): Option<string>
    decreases |stages|
  {
    if |stages| == 0 then None
    else if stages[0].0 == stage then Some(stages[0].1)
    else FindLabel(stages[1..], stage)
  }

  /** `getStageLabel`: the label of the first stage with that id, or the id itself. */
  function GetStageLabel(stage: string): string {
    var found := FindLabel(PipelineStages, stage);
    if found.Some? then found.value else stage
  }

  /** The modal's stage list names the same stages with the same labels as the
      pipeline page's table, so both show the same text for every status. */
  lemma StageLabelsAgree(stage: string)
    ensures GetStageLabel(stage) == Leads.StageLabel(stage)
  {
  }

  const EventLabels: map<string, string> :=
    map["status_change" := "Mudança de status", "lead_updated" := "Lead atualizado",
        "lead_created" := "Lead criado", "activity_added" := "Atividade adicionada",
        "activity_updated" := "Atividade atualizada", "activity_deleted" := "Atividade removida",
        "activity_completed" := "Atividade concluída", "document_uploaded" := "Documento enviado",
        "comment_added" := "Comentário adicionado", "observation_added" := "Observação adicionada"]

  /** `translations[eventType] || eventType`: every label is non-empty, so a known
      event shows its label and anything else shows itself. */
  function TranslateEventType(eventType: string): (r: string)
    ensures eventType in EventLabels ==> r == EventLabels[eventType] && r != ""
    ensures eventType !in EventLabels ==> r == eventType
  {
    if eventType in EventLabels && EventLabels[eventType] != "" then EventLabels[eventType] else eventType
  }

  /** Every event the modal itself writes has a label. */
  lemma ModalEventsTranslated()
    ensures forall e | e in ["status_change", "activity_added", "activity_updated", "activity_deleted",
                             "activity_completed", "observation_added"] :: TranslateEventType(e) != e
  {
  }

  function StageChangeDescription(oldStage: string, newStage: string): string {
    "Lead movido de " + GetStageLabel(oldStage) + " para " + GetStageLabel(newStage)
  }

  // ---------------------------------------------------------------------
  // The modal

  /** Everything the modal holds, so that a handler can state its whole new state. */
  datatype ModalState = ModalState(leadId: string, status: string, notes: string, tags: seq<Tag>,
                                   leadTags: seq<LeadTag>, tagSearchQuery: string, showTagSuggestions: bool,
                                   activities: seq<Activity>, newActivity: ActivityDraft,
                                   editingActivity: Option<Activity>, showActivityModal: bool,
                                   observations: string, written: seq<HistoryEntry>)

  /** `handleCreateAndSelectTag` on the modal's state: the name the tag was created
      with (none when the guard refused) and the state afterwards. `newTag` is the tag
      row the first insert returned, `relation` the link row of the second. */
  function CreateAndSelect(st: ModalState, newTag: Option<Tag>, relation: Option<LeadTag>): (r: (Option<string>, ModalState))
    ensures CreateRefusal(st.tags, st.tagSearchQuery, st.leadId) ==> r == (None, st)
    ensures !CreateRefusal(st.tags, st.tagSearchQuery, st.leadId) ==> r.0 == Some(NewTagName(st.tagSearchQuery))
    ensures !CreateRefusal(st.tags, st.tagSearchQuery, st.leadId) && newTag.None? ==> r.1 == st
    ensures !CreateRefusal(st.tags, st.tagSearchQuery, st.leadId) && newTag.Some? && relation.None? ==>
              r.1 == st.(tags := st.tags + [newTag.value])
    ensures !CreateRefusal(st.tags, st.tagSearchQuery, st.leadId) && newTag.Some? && relation.Some? ==>
              r.1 == st.(tags := st.tags + [newTag.value], leadTags := st.leadTags + [relation.value],
                         tagSearchQuery := "", showTagSuggestions := false)
  {
    if CreateRefusal(st.tags, st.tagSearchQuery, st.leadId) then (None, st)
    else if newTag.None? then (Some(NewTagName(st.tagSearchQuery)), st)
    else if relation.None? then (Some(NewTagName(st.tagSearchQuery)), st.(tags := st.tags + [newTag.value]))
    else (Some(NewTagName(st.tagSearchQuery)),
          st.(tags := st.tags + [newTag.value], leadTags := st.leadTags + [relation.value],
              tagSearchQuery := "", showTagSuggestions := false))
  }

  class Modal {
    /** `lead.id` of the lead the modal was opened on; "" for an unsaved draft. */
    var leadId: string
    /** `formData.status` and `formData.notes`. */
    var status: string
    var notes: string
    var tags: seq<Tag>
    var leadTags: seq<LeadTag>
    var tagSearchQuery: string
    var showTagSuggestions: bool
    var activities: seq<Activity>
    var newActivity: ActivityDraft
    var editingActivity: Option<Activity>
    var showActivityModal: bool
    var observations: string
    /** Entries written to the lead's history, oldest first. */
    var written: seq<HistoryEntry>

    function State(): ModalState
      reads this
    {
      ModalState(leadId, status, notes, tags, leadTags, tagSearchQuery, showTagSuggestions,
                 activities, newActivity, editingActivity, showActivityModal, observations, written)
    }

    /** React's `setState`: the modal takes the given state as a whole. */
    method SetState(st: ModalState)
      modifies this
      ensures State() == st
    {
      SetLeadPart(st);
      SetActivityPart(st);
    }

    /** The lead, its notes and its tags take their values from `st`. */
    method SetLeadPart(st: ModalState)
      modifies this
      ensures State() == old(State()).(leadId := st.leadId, status := st.status, notes := st.notes,
                                       tags := st.tags, leadTags := st.leadTags,
                                       tagSearchQuery := st.tagSearchQuery,
                                       showTagSuggestions := st.showTagSuggestions)
    {
      leadId, status, notes := st.leadId, st.status, st.notes;
      tags, leadTags := st.tags, st.leadTags;
      tagSearchQuery, showTagSuggestions := st.tagSearchQuery, st.showTagSuggestions;
    }

    /** The activities, the observation text and the history log take their values from `st`. */
    method SetActivityPart(st: ModalState)
      modifies this
      ensures State() == old(State()).(activities := st.activities, newActivity := st.newActivity,
                                       editingActivity := st.editingActivity,
                                       showActivityModal := st.showActivityModal,
                                       observations := st.observations, written := st.written)
    {
      activities, newActivity, editingActivity := st.activities, st.newActivity, st.editingActivity;
      showActivityModal, observations, written := st.showActivityModal, st.observations, st.written;
    }

    constructor (lead: Leads.Lead, leadNotes: string)
      ensures State() == ModalState(lead.id, lead.status, leadNotes, [], [], "", false, [], EmptyDraft, None, false,
                                    if lead.id != "" then leadNotes else "", [])
    {
      leadId := lead.id;
      status := lead.status;
      notes := leadNotes;
      tags := [];
      leadTags := [];
      tagSearchQuery := "";
      showTagSuggestions := false;
      activities := [];
      newActivity := EmptyDraft;
      editingActivity := None;
      showActivityModal := false;
      observations := if lead.id != "" then leadNotes else "";
      written := [];
    }

    /** `handleTagInputChange`: only the query and the suggestion list change. */
    method TagInputChange(value: string)
      modifies this
      ensures State() == old(State()).(tagSearchQuery := value, showTagSuggestions := |value| > 0)
    {
      tagSearchQuery := value;
      showTagSuggestions := |value| > 0;
    }

    /** `handleSelectTag`: `relation` is the link row the insert returned, if any. */
    method SelectTag(relation: Option<LeadTag>)
      modifies this
      ensures old(leadId) != "" && relation.Some? ==>
                State() == old(State()).(leadTags := old(leadTags) + [relation.value],
                                         tagSearchQuery := "", showTagSuggestions := false)
      ensures !(old(leadId) != "" && relation.Some?) ==> State() == old(State())
    {
      if leadId != "" && relation.Some? {
        leadTags := leadTags + [relation.value];
        tagSearchQuery := "";
        showTagSuggestions := false;
      }
    }

    /** `handleCreateAndSelectTag`. Returns the name the tag was created with, or
        none when the guard refused. */
    method CreateAndSelectTag(newTag: Option<Tag>, relation: Option<LeadTag>) returns (requested: Option<string>)
      modifies this
      ensures (requested, State()) == CreateAndSelect(old(State()), newTag, relation)
    {
      var r := CreateAndSelect(State(), newTag, relation);
      requested := r.0;
      SetState(r.1);
    }

    /** `handleRemoveTag`: the relation leaves the lead's tags when the delete succeeds. */
    method RemoveTag(leadTagId: string, deleteFailed: bool)
      modifies this
      ensures deleteFailed ==> State() == old(State())
      ensures !deleteFailed ==> State() == old(State()).(leadTags := WithoutLeadTag(old(leadTags), leadTagId))
    {
      if !deleteFailed {
        leadTags := WithoutLeadTag(leadTags, leadTagId);
      }
    }

    /** `handleSaveObservation` for the signed-in user (`signedIn`): the note is stored
        and, when it is not blank, an entry is written to the history. */
    method SaveObservation(signedIn: bool, updateFailed: bool)
      modifies this
      ensures old(leadId) == "" || !signedIn || updateFailed ==> State() == old(State())
      ensures old(leadId) != "" && signedIn && !updateFailed ==>
                State() == old(State()).(notes := old(observations),
                                         written := old(written) + ObservationEntries(old(observations)))
    {
      if leadId == "" || !signedIn || updateFailed {
        return;
      }
      SetState(State().(notes := observations, written := written + ObservationEntries(observations)));
    }

    /** `handleAddActivity`: `stored` is the row the insert returned, if any. */
    method AddActivity(stored: Option<Activity>)
      modifies this
      ensures old(leadId) != "" && stored.Some? ==>
                State() == old(State()).(activities := [stored.value] + old(activities),
                                         written := old(written) + [HistoryEntry("activity_added", "Atividade adicionada: " + old(newActivity).title)],
                                         newActivity := EmptyDraft, showActivityModal := false)
      ensures !(old(leadId) != "" && stored.Some?) ==> State() == old(State())
    {
      if leadId != "" && stored.Some? {
        SetState(State().(activities := [stored.value] + activities,
                          written := written + [HistoryEntry("activity_added", "Atividade adicionada: " + newActivity.title)],
                          newActivity := EmptyDraft, showActivityModal := false));
      }
    }

    /** `handleEditActivity`: `stored` is the row the update returned, if any. */
    method EditActivity(stored: Option<Activity>)
      modifies this
      ensures old(editingActivity).Some? && old(leadId) != "" && stored.Some? ==>
                State() == old(State()).(activities := ReplaceActivity(old(activities), old(editingActivity).value.id, stored.value),
                                         written := old(written) + [HistoryEntry("activity_updated", "Atividade atualizada: " + old(newActivity).title)],
                                         editingActivity := None, newActivity := EmptyDraft, showActivityModal := false)
      ensures !(old(editingActivity).Some? && old(leadId) != "" && stored.Some?) ==> State() == old(State())
    {
      if editingActivity.Some? && leadId != "" && stored.Some? {
        SetState(State().(activities := ReplaceActivity(activities, editingActivity.value.id, stored.value),
                          written := written + [HistoryEntry("activity_updated", "Atividade atualizada: " + newActivity.title)],
                          editingActivity := None, newActivity := EmptyDraft, showActivityModal := false));
      }
    }

    /** `handleDeleteActivity`: on success the activity leaves the list and, when it was
        in the list of a saved lead, a history entry names it. */
    method DeleteActivity(id: string, deleteFailed: bool)
      modifies this
      ensures deleteFailed ==> State() == old(State())
      ensures !deleteFailed ==>
                State() == old(State()).(activities := WithoutActivity(old(activities), id),
                                         written := old(written) + DeletionEntries(old(activities), id, old(leadId)))
    {
      if !deleteFailed {
        SetState(State().(activities := WithoutActivity(activities, id),
                          written := written + DeletionEntries(activities, id, leadId)));
      }
    }

    /** `handleCompleteActivity`: a completion is written to the history, then the
        activity is deleted like any other. */
    method CompleteActivity(a: Activity, deleteFailed: bool)
      modifies this
      ensures deleteFailed ==>
                State() == old(State()).(written := old(written) + [HistoryEntry("activity_completed", "Atividade concluída: " + a.title)])
      ensures !deleteFailed ==>
                State() == old(State()).(activities := WithoutActivity(old(activities), a.id),
                                         written := old(written) + [HistoryEntry("activity_completed", "Atividade concluída: " + a.title)]
                                                    + DeletionEntries(old(activities), a.id, old(leadId)))
    {
      written := written + [HistoryEntry("activity_completed", "Atividade concluída: " + a.title)];
      DeleteActivity(a.id, deleteFailed);
    }

    /** `handleStageChange`: the new stage shows at once; for a saved lead it is kept
        only if the backend update succeeded, and then the move is written to the history. */
    method StageChange(newStage: string, updateFailed: bool)
      modifies this
      ensures old(leadId) == "" ==> State() == old(State()).(status := newStage)
      ensures old(leadId) != "" && updateFailed ==> State() == old(State())
      ensures old(leadId) != "" && !updateFailed ==>
                State() == old(State()).(status := newStage,
                                         written := old(written) + [HistoryEntry("status_change", StageChangeDescription(old(status), newStage))])
    {
      var oldStage := status;
      status := newStage;
      if leadId != "" {
        if updateFailed {
          status := oldStage;
        } else {
          written := written + [HistoryEntry("status_change", StageChangeDescription(oldStage, newStage))];
        }
      }
    }
  }
}

=== FILE: leads.dfy ===
/** The lead record and the subscription record that the pipeline, the kanban
    columns, the dashboard and the scraping page all read. */
module Leads {
  import opened Wrappers

  /** A lead row. `id` is "" for a draft that has not been stored yet; `value`
      is `None` where the row has no value. Dates are milliseconds. */
  datatype Lead = Lead(
    id: string,
    companyname: string,
    contactname: string,
    email: string,
    phone: Option<string>,
    jobtitle: Option<string>,
    status: string,
    priority: string,
    value: Option<int>,
    createddate: int,
    responsible: string,
    userId: Option<string>,
    ownerId: Option<string>)

  /** The joined `subscription_plans` row. */
  datatype Plan = Plan(name: string, planType: string, extractionLimit: Option<int>, durationDays: int)

  /** An active `user_subscriptions` row with its plan; `expiresAt` in milliseconds. */
  datatype Subscription = Subscription(status: string, expiresAt: Option<int>, plan: Plan)

  /** The signed-in user: its id and the `name` from its metadata ("" when absent). */
  datatype SessionUser = SessionUser(id: string, name: string)

  /** `user?.id`. */
  function UserIdOf(user: Option<SessionUser>): Option<string> {
    if user.Some? then Some(user.value.id) else None
  }

  /** `user?.user_metadata?.name || 'Unknown'`. */
  function ResponsibleName(user: Option<SessionUser>): (r: string)
    ensures r != ""
    ensures user.Some? && user.value.name != "" ==> r == user.value.name
  {
    if user.Some? && user.value.name != "" then user.value.name else "Unknown"
  }

  /** A string field that JavaScript treats as truthy: present and non-empty. */
  predicate Present(s: Option<string>) {
    s.Some? && s.value != ""
  }

  /** `userSubscription?.subscription_plans.type === 'free'`. */
  predicate IsFree(sub: Option<Subscription>) {
    sub.Some? && sub.value.plan.planType == "free"
  }

  /** `lead.value || 0`. */
  function ValueOf(l: Lead): int {
    l.value.GetOr(0)
  }

  /** The five pipeline stages and their labels. */
  const StageLabels: map<string, string> :=
    map["leads" := "Leads", "prospected" := "Prospectado", "contacted" := "Em Conversa",
        "proposal" := "Proposta", "closed" := "Fechado"]

  /** `statusLabels[status] || status`: no stage label is empty, so a known stage
      always shows its label and anything else shows itself. */
  function StageLabel(status: string): (r: string)
    ensures status in StageLabels ==> r == StageLabels[status] && r != ""
    ensures status !in StageLabels ==> r == status
  {
    if status in StageLabels && StageLabels[status] != "" then StageLabels[status] else status
  }
}

=== FILE: pipeline.dfy ===
/** The pipeline page: the filtered and ordered lead list, the per-lead counters,
    and the local list updates that follow a move, a delete, a save or an add. */
module Pipeline {
  import opened Wrappers
  import Text
  import Seqs
  import StableSort
  import opened Leads

  /** A free plan may hold at most this many leads. */
  const FreeLeadLimit := 10

  datatype DateOrder = Unordered | Ascending | Descending

  datatype Filters = Filters(priority: seq<string>, dateOrder: DateOrder)

  // ---------------------------------------------------------------------
  // applyFilters

  predicate SearchHit(l: Lead, query: string) {
    Text.IncludesIgnoringCase(l.companyname, query) || Text.IncludesIgnoringCase(l.contactname, query)
  }

  /** The search step: skipped for an empty query. */
  function BySearch(leads: seq<Lead>, query: string): (r: seq<Lead>)
    ensures forall i | 0 <= i < |r| :: r[i] in leads && (query == "" || SearchHit(r[i], query))
    ensures forall i | 0 <= i < |leads| :: (query == "" || SearchHit(leads[i], query)) ==> leads[i] in r
  {
    if query == "" then leads else Seqs.Filter(leads, (l: Lead) => SearchHit(l, query))
  }

  /** The priority step: skipped when no priority is selected. */
  function ByPriority(leads: seq<Lead>, priorities: seq<string>): (r: seq<Lead>)
    ensures forall i | 0 <= i < |r| :: r[i] in leads && (|priorities| == 0 || r[i].priority in priorities)
    ensures forall i | 0 <= i < |leads| :: (|priorities| == 0 || leads[i].priority in priorities) ==> leads[i] in r
  {
    if |priorities| == 0 then leads else Seqs.Filter(leads, (l: Lead) => l.priority in priorities)
  }

  /** The comparator `a.createddate - b.createddate` as a sort key. */
  function OldestFirst(l: Lead): int {
    l.createddate
  }

  /** The comparator `b.createddate - a.createddate` as a sort key. */
  function NewestFirst(l: Lead): int {
    -l.createddate
  }

  predicate Matches(l: Lead, query: string, filters: Filters) {
    (query == "" || SearchHit(l, query)) && (|filters.priority| == 0 || l.priority in filters.priority)
  }

  /** The list the page shows: searched, then restricted by priority, then
      stably sorted by creation date when an order is chosen. */
  function FilteredLeads(leads: seq<Lead>, query: string, filters: Filters): seq<Lead> {
    var kept := ByPriority(BySearch(leads, query), filters.priority);
    match filters.dateOrder
    case Unordered => kept
    case Ascending => StableSort.Sort(kept, OldestFirst)
    case Descending => StableSort.Sort(kept, NewestFirst)
  }

  /** `applyFilters`: copies the list, filters it and sorts the copy in place. */
  method ApplyFilters(leads: seq<Lead>, query: string, filters: Filters) returns (r: seq<Lead>)
    ensures r == FilteredLeads(leads, query, filters)
  {
    var filtered := leads;
    if query != "" {
      filtered := BySearch(filtered, query);
    }
    if |filters.priority| > 0 {
      filtered := ByPriority(filtered, filters.priority);
    }
    if filters.dateOrder == Ascending {
      filtered := StableSort.SortedCopy(filtered, OldestFirst);
    } else if filters.dateOrder == Descending {
      filtered := StableSort.SortedCopy(filtered, NewestFirst);
    }
    r := filtered;
  }

  /** Every shown lead comes from the input and passes the search and the priority filter. */
  lemma FilteredSound(leads: seq<Lead>, query: string, filters: Filters)
    ensures var r := FilteredLeads(leads, query, filters);
            forall i | 0 <= i < |r| :: r[i] in leads && Matches(r[i], query, filters)
  {
    var kept := ByPriority(BySearch(leads, query), filters.priority);
    var r := FilteredLeads(leads, query, filters);
    if filters.dateOrder == Ascending {
      StableSort.SortPermutes(kept, OldestFirst);
    } else if filters.dateOrder == Descending {
      StableSort.SortPermutes(kept, NewestFirst);
    }
    assert multiset(r) == multiset(kept);
    forall i | 0 <= i < |r| ensures r[i] in leads && Matches(r[i], query, filters) {
      assert r[i] in multiset(r);
    }
  }

  /** Every input lead that passes both filters is shown. */
  lemma FilteredComplete(leads: seq<Lead>, query: string, filters: Filters)
    ensures var r := FilteredLeads(leads, query, filters);
            forall i | 0 <= i < |leads| :: Matches(leads[i], query, filters) ==> leads[i] in r
  {
    var searched := BySearch(leads, query);
    var kept := ByPriority(searched, filters.priority);
    var r := FilteredLeads(leads, query, filters);
    if filters.dateOrder == Ascending {
      StableSort.SortPermutes(kept, OldestFirst);
    } else if filters.dateOrder == Descending {
      StableSort.SortPermutes(kept, NewestFirst);
    }
    assert multiset(r) == multiset(kept);
    forall i | 0 <= i < |leads| && Matches(leads[i], query, filters) ensures leads[i] in r {
      var j :| 0 <= j < |searched| && searched[j] == leads[i];
      assert leads[i] in kept;
      assert leads[i] in multiset(kept);
    }
  }

  /** Without an order the kept leads stay in input order; "asc" and "desc" order
      them by creation date. */
  lemma FilteredOrder(leads: seq<Lead>, query: string, filters: Filters)
    ensures var r := FilteredLeads(leads, query, filters);
            && (filters.dateOrder == Unordered ==> r == ByPriority(BySearch(leads, query), filters.priority))
            && (filters.dateOrder == Ascending ==>
                  forall i, j | 0 <= i < j < |r| :: r[i].createddate <= r[j].createddate)
            && (filters.dateOrder == Descending ==>
                  forall i, j | 0 <= i < j < |r| :: r[i].createddate >= r[j].createddate)
  {
    var kept := ByPriority(BySearch(leads, query), filters.priority);
    if filters.dateOrder == Ascending {
      StableSort.SortSorted(kept, OldestFirst);
    } else if filters.dateOrder == Descending {
      StableSort.SortSorted(kept, NewestFirst);
    }
  }

  /** The test "created at instant `t`". */
  function CreatedAt(t: int): Lead -> bool {
    (l: Lead) => l.createddate == t
  }

  /** Sorting oldest first keeps leads created at the same instant in input order. */
  lemma OldestFirstStable(kept: seq<Lead>, t: int)
    ensures Seqs.Filter(StableSort.Sort(kept, OldestFirst), CreatedAt(t)) == Seqs.Filter(kept, CreatedAt(t))
  {
    var sorted := StableSort.Sort(kept, OldestFirst);
    StableSort.SortStable(kept, OldestFirst, t);
    forall i | 0 <= i < |sorted| ensures StableSort.HasKey(OldestFirst, t)(sorted[i]) == CreatedAt(t)(sorted[i]) {
    }
    Seqs.FilterSameTest(sorted, StableSort.HasKey(OldestFirst, t), CreatedAt(t));
    Seqs.FilterSameTest(kept, StableSort.HasKey(OldestFirst, t), CreatedAt(t));
  }

  /** The newest-first key equals `-t` exactly for the leads created at `t`. */
  lemma NewestKeyIsCreatedAt(s: seq<Lead>, t: int)
    ensures Seqs.Filter(s, StableSort.HasKey(NewestFirst, -t)) == Seqs.Filter(s, CreatedAt(t))
  {
    forall i | 0 <= i < |s| ensures StableSort.HasKey(NewestFirst, -t)(s[i]) == CreatedAt(t)(s[i]) {
      assert StableSort.HasKey(NewestFirst, -t)(s[i]) == (NewestFirst(s[i]) == -t);
    }
    Seqs.FilterSameTest(s, StableSort.HasKey(NewestFirst, -t), CreatedAt(t));
  }

  /** Sorting newest first keeps leads created at the same instant in input order. */
  lemma NewestFirstStable(kept: seq<Lead>, t: int)
    ensures Seqs.Filter(StableSort.Sort(kept, NewestFirst), CreatedAt(t)) == Seqs.Filter(kept, CreatedAt(t))
  {
    var sorted := StableSort.Sort(kept, NewestFirst);
    calc {
      Seqs.Filter(sorted, CreatedAt(t));
      { NewestKeyIsCreatedAt(sorted, t); }
      Seqs.Filter(sorted, StableSort.HasKey(NewestFirst, -t));
      { StableSort.SortStable(kept, NewestFirst, -t); }
      Seqs.Filter(kept, StableSort.HasKey(NewestFirst, -t));
      { NewestKeyIsCreatedAt(kept, t); }
      Seqs.Filter(kept, CreatedAt(t));
    }
  }

  /** Leads created at the same instant keep their input order under either sort. */
  lemma FilteredStable(leads: seq<Lead>, query: string, filters: Filters, t: int)
    ensures Seqs.Filter(FilteredLeads(leads, query, filters), CreatedAt(t))
            == Seqs.Filter(ByPriority(BySearch(leads, query), filters.priority), CreatedAt(t))
  {
    var kept := ByPriority(BySearch(leads, query), filters.priority);
    if filters.dateOrder == Ascending {
      OldestFirstStable(kept, t);
    } else if filters.dateOrder == Descending {
      NewestFirstStable(kept, t);
    }
  }

  /** With an empty search, no priority and no order, the whole list is shown as it is. */
  lemma FilteredWithoutFilters(leads: seq<Lead>)
    ensures FilteredLeads(leads, "", Filters([], Unordered)) == leads
  {
  }

  // ---------------------------------------------------------------------
  // handlePriorityFilter

  /** Adds the priority when absent, removes every copy of it when present. */
  function TogglePriority(priorities: seq<string>, p: string): (r: seq<string>)
    ensures p in r <==> p !in priorities
    ensures forall q | q != p :: q in r <==> q in priorities
  {
    if p in priorities then Seqs.Filter(priorities, q => q != p) else priorities + [p]
  }

  /** Toggling twice selects the same priorities again, and the very same list
      when the priority was not selected at first. */
  lemma TogglePriorityTwice(priorities: seq<string>, p: string)
    ensures forall q :: q in TogglePriority(TogglePriority(priorities, p), p) <==> q in priorities
    ensures p !in priorities ==> TogglePriority(TogglePriority(priorities, p), p) == priorities
  {
    if p !in priorities {
      var f := (q: string) => q != p;
      Seqs.FilterAppend(priorities, [p], f);
      Seqs.FilterAll(priorities, f);
      assert Seqs.Filter([p], f) == Seqs.Filter([], f);
    }
  }

  // ---------------------------------------------------------------------
  // fetchLeadCounts

  /** How many rows carry this lead id. */
  function Occurrences(ids: seq<string>, k: string): nat
    decreases |ids|
  {
    if |ids| == 0 then 0
    else Occurrences(ids[..|ids| - 1], k) + (if ids[|ids| - 1] == k then 1 else 0)
  }

  /** A lead id that no row carries counts zero. */
  lemma {:induction false} OccurrencesAbsent(ids: seq<string>, k: string)
    ensures k !in ids <==> Occurrences(ids, k) == 0
    decreases |ids|
  {
    if |ids| > 0 {
      var front := ids[..|ids| - 1];
      OccurrencesAbsent(front, k);
      assert ids == front + [ids[|ids| - 1]];
    }
  }

  /** One counter per lead id, incremented once per row. */
  method CountRows(ids: seq<string>) returns (counts: map<string, nat>)
    ensures forall k :: k in counts <==> k in ids
    ensures forall k | k in counts :: counts[k] == Occurrences(ids, k)
  {
    counts := map[];
    var i := 0;
    while i < |ids|
      invariant 0 <= i <= |ids|
      invariant forall k :: k in counts <==> k in ids[..i]
      invariant forall k | k in counts :: counts[k] == Occurrences(ids[..i], k)
    {
      var id := ids[i];
      assert ids[..i + 1][..i] == ids[..i];
      if id !in counts {
        OccurrencesAbsent(ids[..i], id);
      }
      counts := counts[id := (if id in counts then counts[id] else 0) + 1];
      assert ids[..i + 1] == ids[..i] + [id];
      i := i + 1;
    }
    assert ids[..i] == ids;
  }

  datatype LeadCounts = LeadCounts(activities: nat, tags: nat)

  /** The counters of the lead cards: one entry per lead id that has an activity
      row or a tag row, each side counting that lead's rows (zero when it has none). */
  method FetchLeadCounts(activityLeadIds: seq<string>, tagLeadIds: seq<string>)
    returns (combined: map<string, LeadCounts>)
    ensures forall k :: k in combined <==> k in activityLeadIds || k in tagLeadIds
    ensures forall k | k in combined ::
              combined[k] == LeadCounts(Occurrences(activityLeadIds, k), Occurrences(tagLeadIds, k))
  {
    var activities := CountRows(activityLeadIds);
    var tags := CountRows(tagLeadIds);
    forall k | k !in activities { OccurrencesAbsent(activityLeadIds, k); }
    forall k | k !in tags { OccurrencesAbsent(tagLeadIds, k); }
    combined := map k | k in activities.Keys + tags.Keys ::
      LeadCounts(if k in activities then activities[k] else 0, if k in tags then tags[k] else 0);
  }

  // ---------------------------------------------------------------------
  // Local list updates

  /** `handleMoveLead`'s update: the lead with that id takes the new status. */
  function WithStatus(leads: seq<Lead>, leadId: string, newStatus: string): (r: seq<Lead>)
    ensures |r| == |leads|
    ensures forall i | 0 <= i < |leads| ::
              r[i] == if leads[i].id == leadId then leads[i].(status := newStatus) else leads[i]
  {
    seq(|leads|, i requires 0 <= i < |leads| =>
      if leads[i].id == leadId then leads[i].(status := newStatus) else leads[i])
  }

  /** Moving a lead and moving it back to the stage it was in restores the list;
      of two moves only the last one matters. */
  lemma MoveBackRestores(leads: seq<Lead>, leadId: string, s: string, t: string)
    ensures WithStatus(WithStatus(leads, leadId, s), leadId, t) == WithStatus(leads, leadId, t)
    ensures (forall i | 0 <= i < |leads| && leads[i].id == leadId :: leads[i].status == s) ==>
              WithStatus(WithStatus(leads, leadId, t), leadId, s) == leads
  {
  }

  /** `handleDeleteLead`'s update: every lead with that id leaves the list. */
  function WithoutLead(leads: seq<Lead>, leadId: string): (r: seq<Lead>)
    ensures forall i | 0 <= i < |r| :: r[i].id != leadId && r[i] in leads
    ensures forall i | 0 <= i < |leads| :: leads[i].id != leadId ==> leads[i] in r
  {
    Seqs.Filter(leads, (l: Lead) => l.id != leadId)
  }

  predicate UniqueIds(leads: seq<Lead>) {
    forall i, j | 0 <= i < j < |leads| :: leads[i].id != leads[j].id
  }

  function IdCount(leads: seq<Lead>, leadId: string): nat
    decreases |leads|
  {
    if |leads| == 0 then 0
    else IdCount(leads[..|leads| - 1], leadId) + (if leads[|leads| - 1].id == leadId then 1 else 0)
  }

  lemma {:induction false} WithoutLeadLength(leads: seq<Lead>, leadId: string)
    ensures |WithoutLead(leads, leadId)| + IdCount(leads, leadId) == |leads|
    decreases |leads|
  {
    if |leads| > 0 {
      WithoutLeadLength(leads[..|leads| - 1], leadId);
    }
  }

  lemma {:induction false} IdCountUnique(leads: seq<Lead>, leadId: string, k: nat)
    requires UniqueIds(leads) && k < |leads| && leads[k].id == leadId
    ensures IdCount(leads, leadId) == 1
    decreases |leads|
  {
    var front := leads[..|leads| - 1];
    if k == |leads| - 1 {
      IdCountAbsent(front, leadId);
    } else {
      IdCountUnique(front, leadId, k);
    }
  }

  lemma {:induction false} IdCountAbsent(leads: seq<Lead>, leadId: string)
    requires forall i | 0 <= i < |leads| :: leads[i].id != leadId
    ensures IdCount(leads, leadId) == 0
    decreases |leads|
  {
    if |leads| > 0 {
      IdCountAbsent(leads[..|leads| - 1], leadId);
    }
  }

  /** With distinct ids, deleting a listed lead shortens the list by exactly one,
      matching the counter's decrement. */
  lemma DeleteShortensByOne(leads: seq<Lead>, leadId: string, k: nat)
    requires UniqueIds(leads) && k < |leads| && leads[k].id == leadId
    ensures |WithoutLead(leads, leadId)| == |leads| - 1
  {
    WithoutLeadLength(leads, leadId);
    IdCountUnique(leads, leadId, k);
  }

  /** `owner_id: updatedLead.owner_id || (updatedLead.id ? updatedLead.owner_id : user?.id)`. */
  function OwnerOf(updated: Lead, user: Option<SessionUser>): Option<string> {
    if Present(updated.ownerId) then updated.ownerId
    else if updated.id != "" then updated.ownerId
    else UserIdOf(user)
  }

  /** The row `handleSaveLead` writes: the edited lead stamped with the current user. */
  function ToSave(updated: Lead, user: Option<SessionUser>): Lead {
    updated.(responsible := ResponsibleName(user), userId := UserIdOf(user), ownerId := OwnerOf(updated, user))
  }

  /** A new lead without an owner is owned by whoever creates it; an owner already
      set is kept; an existing lead never gains one. */
  lemma OwnerFallback(updated: Lead, user: Option<SessionUser>)
    ensures Present(updated.ownerId) ==> ToSave(updated, user).ownerId == updated.ownerId
    ensures !Present(updated.ownerId) && updated.id == "" ==> ToSave(updated, user).ownerId == UserIdOf(user)
    ensures updated.id != "" ==> ToSave(updated, user).ownerId == updated.ownerId
    ensures ToSave(updated, user).id == updated.id && ToSave(updated, user).status == updated.status
  {
  }

  /** `map(lead => lead.id === saved.id ? saved : lead)`. */
  function Replaced(leads: seq<Lead>, saved: Lead): (r: seq<Lead>)
    ensures |r| == |leads|
    ensures forall i | 0 <= i < |leads| :: r[i] == if leads[i].id == saved.id then saved else leads[i]
  {
    seq(|leads|, i requires 0 <= i < |leads| => if leads[i].id == saved.id then saved else leads[i])
  }

  /** `handleSaveLead`'s update. `stored` is the backend's answer: the new row's id
      on an insert, anything on an update, or the error, which is rethrown. */
  function AfterSave(leads: seq<Lead>, leadCount: int, updated: Lead, user: Option<SessionUser>,
                    stored: Result<string, string>): (r: Result<(seq<Lead>, int), string>)
    ensures stored.Failure? ==> r == Failure(stored.error)
    ensures stored.Success? && updated.id == "" ==>
              r.Success? && r.value.0 == [ToSave(updated, user).(id := stored.value)] + leads
              && r.value.1 == leadCount + 1
    ensures stored.Success? && updated.id != "" ==>
              r.Success? && r.value.0 == Replaced(leads, ToSave(updated, user)) && r.value.1 == leadCount
  {
    if stored.Failure? then Failure(stored.error)
    else if updated.id == "" then Success(([ToSave(updated, user).(id := stored.value)] + leads, leadCount + 1))
    else Success((Replaced(leads, ToSave(updated, user)), leadCount))
  }

  /** After a successful save the list length and the counter move together. */
  lemma SaveKeepsCountInSync(leads: seq<Lead>, leadCount: int, updated: Lead, user: Option<SessionUser>,
                             stored: Result<string, string>)
    requires leadCount == |leads| && stored.Success?
    ensures var r := AfterSave(leads, leadCount, updated, user, stored);
            r.Success? && r.value.1 == |r.value.0|
  {
  }

  /** Saving an existing lead replaces it where it stands and leaves every other lead alone. */
  lemma SaveExistingInPlace(leads: seq<Lead>, leadCount: int, updated: Lead, user: Option<SessionUser>,
                            stored: Result<string, string>, k: nat)
    requires stored.Success? && updated.id != "" && k < |leads|
    ensures var r := AfterSave(leads, leadCount, updated, user, stored).value.0;
            |r| == |leads|
            && (leads[k].id == updated.id ==> r[k] == ToSave(updated, user))
            && (leads[k].id != updated.id ==> r[k] == leads[k])
  {
  }

  datatype AddOutcome = LimitReached | Draft(lead: Lead)

  /** `handleAddLead`: on a free plan holding ten leads or more the limit dialog
      opens; otherwise an unsaved draft in the clicked column. */
  function AddLeadOutcome(sub: Option<Subscription>, leadCount: int, status: string,
                   user: Option<SessionUser>, now: int): (r: AddOutcome)
    ensures r.LimitReached? <==> IsFree(sub) && leadCount >= FreeLeadLimit
    ensures r.Draft? ==> r.lead.status == status && r.lead.priority == "medium" && r.lead.id == ""
    ensures r.Draft? ==> r.lead.createddate == now && r.lead.userId == UserIdOf(user)
    ensures r.Draft? ==> r.lead.responsible == ResponsibleName(user) && r.lead.ownerId == None
    ensures r.Draft? ==> r.lead.companyname == "" && r.lead.contactname == "" && r.lead.email == ""
    ensures r.Draft? ==> r.lead.phone == None && r.lead.jobtitle == None && r.lead.value == None
  {
    if IsFree(sub) && leadCount >= FreeLeadLimit then LimitReached
    else Draft(Lead("", "", "", "", None, None, status, "medium", None, now, ResponsibleName(user), UserIdOf(user), None))
  }

  // ---------------------------------------------------------------------
  // The page

  /** Everything the page holds, so that a handler can state its whole new state. */
  datatype PageState = PageState(leads: seq<Lead>, leadCount: int, searchQuery: string, filters: Filters,
                                 leadCounts: map<string, LeadCounts>, selectedLead: Option<Lead>,
                                 showLeadLimitModal: bool, userSubscription: Option<Subscription>)

  class PipelinePage {
    var leads: seq<Lead>
    var leadCount: int
    var searchQuery: string
    var filters: Filters
    var leadCounts: map<string, LeadCounts>
    var selectedLead: Option<Lead>
    var showLeadLimitModal: bool
    var userSubscription: Option<Subscription>

    function State(): PageState
      reads this
    {
      PageState(leads, leadCount, searchQuery, filters, leadCounts, selectedLead, showLeadLimitModal, userSubscription)
    }

    constructor ()
      ensures State() == PageState([], 0, "", Filters([], Unordered), map[], None, false, None)
    {
      leads := [];
      leadCount := 0;
      searchQuery := "";
      filters := Filters([], Unordered);
      leadCounts := map[];
      selectedLead := None;
      showLeadLimitModal := false;
      userSubscription := None;
    }

    /** `fetchLeads`: the loaded rows and their number; a failed load changes nothing. */
    method LoadLeads(rows: Result<seq<Lead>, string>)
      modifies this
      ensures rows.Success? ==> State() == old(State()).(leads := rows.value, leadCount := |rows.value|)
      ensures rows.Failure? ==> State() == old(State())
    {
      if rows.Success? {
        leads := rows.value;
        leadCount := |rows.value|;
      }
    }

    /** The list the page renders. */
    method Shown() returns (r: seq<Lead>)
      ensures r == FilteredLeads(leads, searchQuery, filters)
    {
      r := ApplyFilters(leads, searchQuery, filters);
    }

    /** `fetchLeadCounts`: only the per-lead counters change. */
    method RefreshCounts(activityLeadIds: seq<string>, tagLeadIds: seq<string>)
      modifies this
      ensures forall k :: k in leadCounts <==> k in activityLeadIds || k in tagLeadIds
      ensures forall k | k in leadCounts ::
                leadCounts[k] == LeadCounts(Occurrences(activityLeadIds, k), Occurrences(tagLeadIds, k))
      ensures State() == old(State()).(leadCounts := leadCounts)
    {
      leadCounts := FetchLeadCounts(activityLeadIds, tagLeadIds);
    }

    /** `handleMoveLead`: the list changes only when the backend accepted the new status. */
    method MoveLead(leadId: string, newStatus: string, updateFailed: bool)
      modifies this
      ensures updateFailed ==> State() == old(State())
      ensures !updateFailed ==> State() == old(State()).(leads := WithStatus(old(leads), leadId, newStatus))
    {
      if !updateFailed {
        leads := WithStatus(leads, leadId, newStatus);
      }
    }

    /** `handleDeleteLead`; the counters are then fetched again (`RefreshCounts`). */
    method DeleteLead(leadId: string, deleteFailed: bool)
      modifies this
      ensures deleteFailed ==> State() == old(State())
      ensures !deleteFailed ==>
                State() == old(State()).(leads := WithoutLead(old(leads), leadId), leadCount := old(leadCount) - 1)
    {
      if !deleteFailed {
        leads := WithoutLead(leads, leadId);
        leadCount := leadCount - 1;
      }
    }

    /** `handleSaveLead`: returns the backend error, which the source rethrows to the
        dialog; the counters are then fetched again (`RefreshCounts`). */
    method SaveLead(updated: Lead, user: Option<SessionUser>, stored: Result<string, string>)
      returns (err: Option<string>)
      modifies this
      ensures var r := AfterSave(old(leads), old(leadCount), updated, user, stored);
              (r.Failure? ==> err == Some(r.error) && State() == old(State()))
              && (r.Success? ==> err == None && State() == old(State()).(leads := r.value.0, leadCount := r.value.1))
    {
      var r := AfterSave(leads, leadCount, updated, user, stored);
      if r.Failure? {
        err := Some(r.error);
      } else {
        err := None;
        leads := r.value.0;
        leadCount := r.value.1;
      }
    }

    /** `handleAddLead`: the limit dialog or the draft opens; nothing else changes. */
    method AddLead(status: string, user: Option<SessionUser>, now: int)
      modifies this
      ensures var r := AddLeadOutcome(old(userSubscription), old(leadCount), status, user, now);
              (r.LimitReached? ==> State() == old(State()).(showLeadLimitModal := true))
              && (r.Draft? ==> State() == old(State()).(selectedLead := Some(r.lead)))
    {
      var r := AddLeadOutcome(userSubscription, leadCount, status, user, now);
      if r.LimitReached? {
        showLeadLimitModal := true;
      } else {
        selectedLead := Some(r.lead);
      }
    }

    /** `handlePriorityFilter`: only the selected priorities change. */
    method PriorityFilter(p: string)
      modifies this
      ensures State() == old(State()).(filters := old(filters).(priority := TogglePriority(old(filters).priority, p)))
    {
      filters := filters.(priority := TogglePriority(filters.priority, p));
    }

    /** `handleDateOrderChange`: only the date order changes. */
    method DateOrderChange(order: DateOrder)
      modifies this
      ensures State() == old(State()).(filters := old(filters).(dateOrder := order))
    {
      filters := filters.(dateOrder := order);
    }

    /** `clearFilters`: no priority and no order; the search text stays. */
    method ClearFilters()
      modifies this
      ensures State() == old(State()).(filters := Filters([], Unordered))
    {
      filters := Filters([], Unordered);
    }
  }
}

=== FILE: register.dfy ===
/** The registration page: the plan step, the account step with its password
    checks, and the subscription created for the chosen plan. Dates are whole
    day numbers. */
module Register {
  import opened Wrappers

  const PasswordsDiffer := "As senhas não coincidem"
  const PasswordTooShort := "A senha deve ter pelo menos 6 caracteres"
  const RegistrationFailed := "Falha ao criar conta. Por favor, tente novamente mais tarde."
  const MinPasswordLength := 6

  datatype SubscriptionPlan = SubscriptionPlan(id: string, name: string, planType: string, price: int,
                                               extractionLimit: int, durationDays: int)

  /** A `user_subscriptions` row as the page inserts it. */
  datatype SubscriptionRow = SubscriptionRow(userId: string, planId: string, status: string, expiresDay: int)

  /** The checks before registering, in their order: the confirmation must match,
      then the password must be long enough. */
  function ValidatePassword(password: string, confirm: string): (r: Option<string>)
    ensures password != confirm ==> r == Some(PasswordsDiffer)
    ensures password == confirm && |password| < MinPasswordLength ==> r == Some(PasswordTooShort)
    ensures r.None? <==> password == confirm && |password| >= MinPasswordLength
  {
    if password != confirm then Some(PasswordsDiffer)
    else if |password| < MinPasswordLength then Some(PasswordTooShort)
    else None
  }

  /** `createUserSubscription`: an active subscription to the plan that expires
      `duration_days` after today. */
  function NewSubscription(userId: string, plan: SubscriptionPlan, today: int): (r: SubscriptionRow)
    ensures r.userId == userId && r.planId == plan.id && r.status == "active"
    ensures r.expiresDay - today == plan.durationDays
  {
    SubscriptionRow(userId, plan.id, "active", today + plan.durationDays)
  }

  class RegisterPage {
    /** 1: plan selection, 2: account creation. */
    var step: int
    var selectedPlan: Option<SubscriptionPlan>
    var error: string
    var loading: bool
    /** The accounts asked of the auth service, as (email, name). */
    var registered: seq<(string, string)>
    /** The subscription rows stored. */
    var subscriptions: seq<SubscriptionRow>
    var navigatedHome: bool

    constructor ()
      ensures step == 1 && selectedPlan == None && error == "" && !loading
      ensures registered == [] && subscriptions == [] && !navigatedHome
    {
      step := 1;
      selectedPlan := None;
      error := "";
      loading := false;
      registered := [];
      subscriptions := [];
      navigatedHome := false;
    }

    /** `handlePlanSelect`. */
    method PlanSelect(plan: SubscriptionPlan)
      modifies this
      ensures selectedPlan == Some(plan) && step == 2
      ensures registered == old(registered) && subscriptions == old(subscriptions) && error == old(error)
      ensures loading == old(loading) && navigatedHome == old(navigatedHome)
    {
      selectedPlan := Some(plan);
      step := 2;
    }

    /** "Alterar plano": back to the plan step, keeping the chosen plan. */
    method ChangePlan()
      modifies this
      ensures step == 1 && selectedPlan == old(selectedPlan)
      ensures registered == old(registered) && subscriptions == old(subscriptions) && error == old(error)
      ensures loading == old(loading) && navigatedHome == old(navigatedHome)
    {
      step := 1;
    }

    /** `handleSubmit`. `registerFails` is whether registering throws, `userId` the
        user the auth service reports afterwards, `insertFails` whether the
        subscription insert fails. */
    method Submit(email: string, password: string, confirm: string, name: string,
                  registerFails: bool, userId: Option<string>, insertFails: bool, today: int)
      modifies this
      ensures ValidatePassword(password, confirm).Some? ==>
                error == ValidatePassword(password, confirm).value
                && registered == old(registered) && subscriptions == old(subscriptions)
                && loading == old(loading) && navigatedHome == old(navigatedHome)
      ensures ValidatePassword(password, confirm).None? ==>
                registered == old(registered) + [(email, name)] && !loading
      ensures ValidatePassword(password, confirm).None? && registerFails ==>
                error == RegistrationFailed && subscriptions == old(subscriptions) && navigatedHome == old(navigatedHome)
      ensures ValidatePassword(password, confirm).None? && !registerFails ==>
                subscriptions == old(subscriptions)
                  + (if userId.Some? && selectedPlan.Some? && !insertFails then [NewSubscription(userId.value, selectedPlan.value, today)] else [])
                && error == (if userId.Some? && selectedPlan.Some? && insertFails then RegistrationFailed else "")
                && (navigatedHome <==> old(navigatedHome) || !(userId.Some? && selectedPlan.Some? && insertFails))
      ensures step == old(step) && selectedPlan == old(selectedPlan)
    {
      error := "";
      var invalid := ValidatePassword(password, confirm);
      if invalid.Some? {
        error := invalid.value;
        return;
      }
      loading := true;
      registered := registered + [(email, name)];
      if registerFails {
        error := RegistrationFailed;
      } else {
        if userId.Some? && selectedPlan.Some? && insertFails {
          error := RegistrationFailed;
        } else {
          if userId.Some? && selectedPlan.Some? {
            subscriptions := subscriptions + [NewSubscription(userId.value, selectedPlan.value, today)];
          }
          navigatedHome := true;
        }
      }
      loading := false;
    }
  }
}

=== FILE: results_table.dfy ===
/** The extraction results table: which rows are expanded, and the fallbacks
    for the Instagram, Facebook and rating columns of a result. */
module ResultsTable {
  import opened Wrappers
  import opened Json

  /** The set with `index` added when absent and removed when present. */
  function Toggled(s: set<int>, index: int): set<int> {
    if index in s then s - {index} else s + {index}
  }

  /** Only the given row changes state. */
  lemma ToggleFlipsOnlyThatRow(s: set<int>, index: int, other: int)
    ensures index in Toggled(s, index) <==> index !in s
    ensures other != index ==> (other in Toggled(s, index) <==> other in s)
  {
  }

  /** Toggling a row twice gives back the expanded rows. */
  lemma ToggleTwice(s: set<int>, index: int)
    ensures Toggled(Toggled(s, index), index) == s
  {
  }

  class Table {
    var expandedRows: set<int>

    constructor ()
      ensures expandedRows == {}
    {
      expandedRows := {};
    }

    /** `toggleRow`: a copy of the set, with the row added or removed, replaces it. */
    method ToggleRow(index: int)
      modifies this
      ensures expandedRows == Toggled(old(expandedRows), index)
    {
      var newSet := expandedRows;
      if index in newSet {
        newSet := newSet - {index};
      } else {
        newSet := newSet + {index};
      }
      expandedRows := newSet;
    }
  }

  // ---------------------------------------------------------------------
  // Column fallbacks

  /** `v?.key`: undefined when `v` is null or undefined. */
  function OptProp(v: Option<Json>, key: string): Option<Json> {
    if v.None? || v.value.JNull? then None else Prop(v.value, key)
  }

  /** `v?.[0]`: the first element of a list, the first character of a text, the
      property "0" of an object; undefined for anything else. */
  function First(v: Option<Json>): Option<Json> {
    if v.None? then None
    else match v.value
      case JArr(items) => if |items| > 0 then Some(items[0]) else None
      case JStr(s) => if |s| > 0 then Some(JStr([s[0]])) else None
      case JObj(fields) => Lookup(fields, "0")
      case _ => None
  }

  /** `a || b || fallback` over property reads. */
  function Either(a: Option<Json>, b: Option<Json>, fallback: Json): (r: Json)
    ensures TruthyOpt(a) ==> r == a.value
    ensures !TruthyOpt(a) && TruthyOpt(b) ==> r == b.value
    ensures !TruthyOpt(a) && !TruthyOpt(b) ==> r == fallback
  {
    if TruthyOpt(a) then a.value else if TruthyOpt(b) then b.value else fallback
  }

  /** `result.instagram || result.completo?.instagrams?.[0] || ''`. */
  function Instagram(result: Json): Json {
    Either(Prop(result, "instagram"), First(OptProp(Prop(result, "completo"), "instagrams")), JStr(""))
  }

  /** `result.facebook || result.completo?.facebooks?.[0] || ''`. */
  function Facebook(result: Json): Json {
    Either(Prop(result, "facebook"), First(OptProp(Prop(result, "completo"), "facebooks")), JStr(""))
  }

  /** `result.pontuacao || result.completo?.totalScore || 'N/A'`. */
  function Rating(result: Json): Json {
    Either(Prop(result, "pontuacao"), OptProp(Prop(result, "completo"), "totalScore"), JStr("N/A"))
  }

  /** A link column shows a truthy value or the empty text, which the table renders
      as "N/A"; the rating always shows something truthy. */
  lemma ColumnsAlwaysShowSomething(result: Json)
    ensures Truthy(Instagram(result)) || Instagram(result) == JStr("")
    ensures Truthy(Facebook(result)) || Facebook(result) == JStr("")
    ensures Truthy(Rating(result))
  {
  }

  /** The nested profile list is read only when the top-level field is missing or
      empty: a record with both shows its own field. */
  lemma TopLevelWins(result: Json)
    requires TruthyOpt(Prop(result, "instagram"))
    ensures Instagram(result) == Prop(result, "instagram").value
  {
  }

  /** Without a top-level field, the first listed profile is shown. */
  lemma NestedFirstProfile(handle: string, more: seq<Json>)
    requires handle != ""
    ensures Instagram(JObj([("completo", JObj([("instagrams", JArr([JStr(handle)] + more))]))])) == JStr(handle)
  {
    var result := JObj([("completo", JObj([("instagrams", JArr([JStr(handle)] + more))]))]);
    assert Prop(result, "instagram") == None;
  }
}

=== FILE: scraping.dfy ===
/** The lead-extraction page: the monthly quota, the submit flow with its guards,
    the decoding of the extraction webhook's reply, usage accounting and the
    export of the results into the pipeline. Times are milliseconds. */
module Scraping {
  import opened Wrappers
  import Text
  import Seqs
  import opened Json
  import opened Leads
  import Dashboard

  const NeedSubscription := "Você precisa de uma assinatura ativa para extrair leads."
  const InvalidReply := "Resposta inválida do servidor"
  const UnknownWebhookError := "Erro desconhecido no webhook"
  const UnrecognisedFormat := "Formato de resposta não reconhecido. Verifique a configuração do webhook."
  const NoValidResults := "Nenhum resultado válido encontrado para os critérios especificados"
  const ServiceUnavailable := "O serviço de extração está temporariamente indisponível. Tente novamente em alguns minutos."
  const ServiceNotFound := "Serviço de extração não encontrado. Verifique a configuração."
  const UnknownText := "Erro desconhecido"
  const ConnectionFailed := "Erro de conexão: Não foi possível conectar ao serviço de extração. Verifique sua conexão com a internet."
  const BadFormat := "Erro de formato: O servidor retornou dados em formato inválido. Tente novamente."
  const Unexpected := "Ocorreu um erro inesperado ao extrair os dados. Por favor, tente novamente."
  const SavePipelineFailed := "Erro ao salvar leads no pipeline."

  // ---------------------------------------------------------------------
  // Quota

  /** `getExtractionLimit`: none without a subscription; a missing plan limit
      counts as 0 in the subtraction that follows. */
  function ExtractionLimit(sub: Option<Subscription>): int {
    if sub.None? then 0 else sub.value.plan.extractionLimit.GetOr(0)
  }

  /** `getRemainingExtractions`: `Math.max(0, limit - monthlyUsage)`. */
  function Remaining(sub: Option<Subscription>, usage: int): (r: int)
    ensures r >= 0 && r >= ExtractionLimit(sub) - usage
    ensures r == 0 || r == ExtractionLimit(sub) - usage
  {
    if ExtractionLimit(sub) - usage > 0 then ExtractionLimit(sub) - usage else 0
  }

  /** Without a subscription nothing is left, whatever the usage. */
  lemma NoSubscriptionNothingLeft(usage: int)
    requires usage >= 0
    ensures Remaining(None, usage) == 0
  {
  }

  predicate SubscriptionActive(sub: Option<Subscription>) {
    sub.Some? && sub.value.status == "active"
  }

  function QuotaMessage(sub: Option<Subscription>, remaining: int): string {
    "Você só pode extrair mais " + Text.IntToString(remaining) + " "
    + (if IsFree(sub) then "extrações de degustação" else "extrações") + " com seu plano atual."
  }

  // ---------------------------------------------------------------------
  // Decoding the webhook's reply

  /** `Object.values(data).find(value => Array.isArray(value))`. */
  function FirstArrayValue(fields: seq<(string, Json)>): (r: Option<seq<Json>>)
    ensures r.Some? ==> exists i | 0 <= i < |fields| :: fields[i].1 == JArr(r.value)
    ensures r.None? <==> forall i | 0 <= i < |fields| :: !fields[i].1.JArr?
    decreases |fields|
  {
    if |fields| == 0 then None
    else if fields[0].1.JArr? then Some(fields[0].1.items)
    else
      var r := FirstArrayValue(fields[1..]);
      assert forall i | 1 <= i < |fields| :: fields[i] == fields[1..][i - 1];
      r
  }

  predicate HasContact(data: Json) {
    TruthyOpt(Prop(data, "title")) || TruthyOpt(Prop(data, "phone")) || TruthyOpt(Prop(data, "email"))
  }

  /** `data.error || data.message || 'Erro desconhecido no webhook'`. */
  function WebhookError(data: Json): Json {
    if TruthyOpt(Prop(data, "error")) then Prop(data, "error").value
    else if TruthyOpt(Prop(data, "message")) then Prop(data, "message").value
    else JStr(UnknownWebhookError)
  }

  /** The shapes of the reply, tried in order: a list; a `results` list; a `data`
      list; an error report; a workflow error; a single record; the first list
      among the properties. Anything else is refused. */
  function DecodeReply(data: Json): Result<seq<Json>, string> {
    if !(data.JArr? || data.JObj?) then Failure(InvalidReply)
    else if data.JArr? then Success(data.items)
    else if IsArray(Prop(data, "results")) then Success(Prop(data, "results").value.items)
    else if IsArray(Prop(data, "data")) then Success(Prop(data, "data").value.items)
    else if Prop(data, "success") == Some(JBool(false)) || TruthyOpt(Prop(data, "error")) then
      Failure("Erro no serviço: " + ToText(WebhookError(data)))
    else if Prop(data, "code") == Some(JNum(0)) && TruthyOpt(Prop(data, "message")) then
      Failure("Erro no workflow: " + ToText(Prop(data, "message").value))
    else if HasContact(data) then Success([data])
    else
      var found := FirstArrayValue(data.fields);
      if found.Some? then Success(found.value) else Failure(UnrecognisedFormat)
  }

  /** Whatever list is decoded was in the reply: the reply itself, one of its
      properties, or the reply alone as a one-item list. */
  lemma DecodeFromReply(data: Json)
    ensures var r := DecodeReply(data);
            r.Success? ==>
              data == JArr(r.value)
              || (data.JObj? && exists i | 0 <= i < |data.fields| :: data.fields[i].1 == JArr(r.value))
              || r.value == [data]
  {
  }

  /** The three envelopes the webhook may use all give back the list inside them. */
  lemma EnvelopeRoundTrip(items: seq<Json>, rest: seq<(string, Json)>)
    ensures DecodeReply(JArr(items)) == Success(items)
    ensures DecodeReply(JObj([("results", JArr(items))] + rest)) == Success(items)
    ensures DecodeReply(JObj([("data", JArr(items))])) == Success(items)
  {
    assert Prop(JObj([("data", JArr(items))]), "results") == None;
  }

  /** An error report wins over a single record and over stray lists, but not
      over a `results` or `data` list. */
  lemma ErrorReportPrecedence(data: Json)
    requires data.JObj? && TruthyOpt(Prop(data, "error"))
    ensures DecodeReply(data).Failure? <==> !IsArray(Prop(data, "results")) && !IsArray(Prop(data, "data"))
  {
  }

  /** A result the page keeps: an object with a truthy title, phone or email. */
  predicate IsValidResult(j: Json) {
    j.JObj? && HasContact(j)
  }

  function ValidResults(items: seq<Json>): (r: seq<Json>)
    ensures forall i | 0 <= i < |r| :: r[i] in items && IsValidResult(r[i])
    ensures forall i | 0 <= i < |items| :: IsValidResult(items[i]) ==> items[i] in r
  {
    Seqs.Filter(items, IsValidResult)
  }

  /** The decoded, validated results, or the message of the error thrown. */
  function Extract(data: Json): (r: Result<seq<Json>, string>)
    ensures r.Success? ==> |r.value| >= 1 && forall i | 0 <= i < |r.value| :: IsValidResult(r.value[i])
  {
    match DecodeReply(data)
    case Failure(m) => Failure(m)
    case Success(items) =>
      var valid := ValidResults(items);
      if |valid| == 0 then Failure(NoValidResults) else Success(valid)
  }

  /** A single record with a contact field is accepted as a one-result list. */
  lemma SingleRecordAccepted(data: Json)
    requires IsValidResult(data)
    requires !IsArray(Prop(data, "results")) && !IsArray(Prop(data, "data"))
    requires Prop(data, "success") != Some(JBool(false)) && !TruthyOpt(Prop(data, "error"))
    requires !(Prop(data, "code") == Some(JNum(0)) && TruthyOpt(Prop(data, "message")))
    ensures Extract(data) == Success([data])
  {
    assert DecodeReply(data) == Success([data]);
    assert [data][..0] == [];
    assert ValidResults([data]) == [data];
  }

  // ---------------------------------------------------------------------
  // handleSubmit

  /** What a failed step throws: the kind decides the message shown. */
  datatype Thrown = TypeError(message: string) | SyntaxError(message: string) | PlainError(message: string) | NotAnError

  /** The webhook call: unreachable (what `fetch` throws), or a response with its
      status, its text (None when reading it fails) and its parsed body. */
  datatype WebhookReply =
    | Unreachable(err: Thrown)
    | Response(status: int, text: Option<string>, body: Result<Json, Thrown>)

  datatype SessionEnd = NoSession | SessionCompleted(id: string, count: nat) | SessionFailed(id: string, message: string)

  /** The page after a submit: whether the webhook was called, the error shown,
      the results shown, the monthly usage and how the session row ended. */
  datatype Submission = Submission(requested: bool, error: string, results: seq<Json>, usage: int, session: SessionEnd)

  function HttpFailure(status: int, text: Option<string>): string {
    if status == 500 then ServiceUnavailable
    else if status == 404 then ServiceNotFound
    else "Erro no servidor (" + Text.IntToString(status) + "): " + text.GetOr(UnknownText)
  }

  /** The results of the webhook call, or what the page throws on its way. */
  function Fetched(reply: WebhookReply): Result<seq<Json>, Thrown> {
    match reply
    case Unreachable(e) => Failure(e)
    case Response(status, text, body) =>
      if !(200 <= status <= 299) then Failure(PlainError(HttpFailure(status, text)))
      else if body.Failure? then Failure(body.error)
      else match Extract(body.value)
        case Failure(m) => Failure(PlainError(m))
        case Success(valid) => Success(valid)
  }

  /** The catch block's message for the page. */
  function ShownError(e: Thrown): string {
    match e
    case TypeError(m) => if Text.Contains(m, "fetch") then ConnectionFailed else m
    case SyntaxError(m) => if Text.Contains(m, "JSON") then BadFormat else m
    case PlainError(m) => m
    case NotAnError => Unexpected
  }

  /** The catch block's message for the session row. */
  function SessionMessage(e: Thrown): string {
    if e.NotAnError? then UnknownText else e.message
  }

  /** `handleSubmit` from the page's subscription, usage and requested limit. `session`
      is the session insert (the new row's id), `reply` the webhook call and `saveError`
      what storing the results threw, if anything. */
  function Submit(sub: Option<Subscription>, usage: int, limit: int, session: Result<string, Thrown>,
                  reply: WebhookReply, saveError: Option<Thrown>): Submission
  {
    if !SubscriptionActive(sub) then Submission(false, NeedSubscription, [], usage, NoSession)
    else if limit > Remaining(sub, usage) then
      Submission(false, QuotaMessage(sub, Remaining(sub, usage)), [], usage, NoSession)
    else if session.Failure? then Submission(false, ShownError(session.error), [], usage, NoSession)
    else
      var id := session.value;
      match Fetched(reply)
      case Failure(e) => Submission(true, ShownError(e), [], usage, SessionFailed(id, SessionMessage(e)))
      case Success(valid) =>
        if saveError.Some? then
          Submission(true, ShownError(saveError.value), valid, usage, SessionFailed(id, SessionMessage(saveError.value)))
        else Submission(true, "", valid, usage + |valid|, SessionCompleted(id, |valid|))
  }

  /** Without an active subscription, or asking for more than is left, nothing is
      requested, no session is opened and the usage stays. */
  lemma GuardsStopEarly(sub: Option<Subscription>, usage: int, limit: int, session: Result<string, Thrown>,
                        reply: WebhookReply, saveError: Option<Thrown>)
    ensures var s := Submit(sub, usage, limit, session, reply, saveError);
            (!SubscriptionActive(sub) ==> s.error == NeedSubscription)
            && (SubscriptionActive(sub) && limit > Remaining(sub, usage) ==>
                  s.error == QuotaMessage(sub, Remaining(sub, usage)))
            && ((!SubscriptionActive(sub) || limit > Remaining(sub, usage)) ==>
                  !s.requested && s.session == NoSession && s.usage == usage && s.results == [])
  {
  }

  /** A successful extraction shows only valid results, at least one, counts them
      once into the monthly usage and records the same count on the session. */
  lemma SuccessAccounting(sub: Option<Subscription>, usage: int, limit: int, session: Result<string, Thrown>,
                          reply: WebhookReply, saveError: Option<Thrown>)
    ensures var s := Submit(sub, usage, limit, session, reply, saveError);
            s.session.SessionCompleted? ==>
              && session == Success(s.session.id)
              && s.session.count == |s.results| >= 1
              && s.usage == usage + |s.results|
              && (forall i | 0 <= i < |s.results| :: IsValidResult(s.results[i]))
  {
  }

  /** Once the session row exists, any failure marks it failed and the usage stays. */
  lemma FailureMarksSession(sub: Option<Subscription>, usage: int, limit: int, id: string,
                            reply: WebhookReply, saveError: Option<Thrown>)
    requires SubscriptionActive(sub) && limit <= Remaining(sub, usage)
    requires Fetched(reply).Failure? || saveError.Some?
    ensures var s := Submit(sub, usage, limit, Success(id), reply, saveError);
            s.session.SessionFailed? && s.session.id == id && s.usage == usage && s.requested
  {
  }

  /** When the webhook returns no more results than were asked for, the usage
      stays within the plan's limit. */
  lemma QuotaRespected(sub: Option<Subscription>, usage: int, limit: int, session: Result<string, Thrown>,
                       reply: WebhookReply, saveError: Option<Thrown>)
    requires Fetched(reply).Success? ==> |Fetched(reply).value| <= limit
    ensures var s := Submit(sub, usage, limit, session, reply, saveError);
            s.session.SessionCompleted? ==> s.usage <= ExtractionLimit(sub)
  {
  }

  // ---------------------------------------------------------------------
  // handleSaveToPipeline

  /** `result.key || ''`, as the text stored in the lead's column. */
  function FieldText(result: Json, key: string): string {
    if TruthyOpt(Prop(result, key)) then ToText(Prop(result, key).value) else ""
  }

  /** The lead stored for one result, created at `createddate`. */
  function ResultLead(result: Json, user: Option<SessionUser>, createddate: int): Lead {
    Lead("", FieldText(result, "title"), "", FieldText(result, "email"), Some(FieldText(result, "phone")),
         Some(""), "leads", "medium", None, createddate, ResponsibleName(user), UserIdOf(user), UserIdOf(user))
  }

  /** The leads as the source writes them: `createddate: Math.floor(Date.now() / 1000)`,
      seconds where every other writer of the column stores milliseconds. */
  function PipelineLeadsAsWritten(results: seq<Json>, user: Option<SessionUser>, nowMs: int): (r: seq<Lead>)
    ensures |r| == |results|
    ensures forall i | 0 <= i < |r| :: r[i] == ResultLead(results[i], user, nowMs / 1000)
  {
    seq(|results|, i requires 0 <= i < |results| => ResultLead(results[i], user, nowMs / 1000))
  }

  /** Under the seconds stamp a lead saved from the extraction never counts as new on
      the dashboard, however recently it was saved. */
  lemma SecondsStampNeverNew(results: seq<Json>, user: Option<SessionUser>, nowMs: int, later: int, k: nat)
    requires nowMs >= 2 * Dashboard.WeekMs && later >= nowMs && k < |results|
    ensures !Dashboard.CreatedWithinWeek(PipelineLeadsAsWritten(results, user, nowMs)[k], later)
  {
    assert nowMs / 1000 <= nowMs / 2;
  }

  /** The leads stamped in milliseconds, like every other lead. */
  function PipelineLeads(results: seq<Json>, user: Option<SessionUser>, nowMs: int): (r: seq<Lead>)
    ensures |r| == |results|
    ensures forall i | 0 <= i < |r| :: r[i] == ResultLead(results[i], user, nowMs)
  {
    seq(|results|, i requires 0 <= i < |results| => ResultLead(results[i], user, nowMs))
  }

  /** One lead per result, in the first column at medium priority, owned by the user,
      with "" for a missing company, email or phone; each counts as new for a week. */
  lemma PipelineLeadsShape(results: seq<Json>, user: Option<SessionUser>, nowMs: int, later: int)
    ensures var r := PipelineLeads(results, user, nowMs);
            |r| == |results|
            && forall i | 0 <= i < |r| ::
                 r[i].status == "leads" && r[i].priority == "medium" && r[i].ownerId == UserIdOf(user)
                 && (!TruthyOpt(Prop(results[i], "title")) ==> r[i].companyname == "")
                 && (!TruthyOpt(Prop(results[i], "email")) ==> r[i].email == "")
                 && (!TruthyOpt(Prop(results[i], "phone")) ==> r[i].phone == Some(""))
                 && (nowMs <= later < nowMs + Dashboard.WeekMs ==> Dashboard.CreatedWithinWeek(r[i], later))
  {
  }

  const ImportedSuffix := " leads importados com sucesso na etapa LEADS!"

  /** The notice the pipeline page shows after an export of `n` leads: the count in
      decimal, then the fixed success text. */
  function ImportedNotice(n: nat): (r: string)
    ensures Text.StartsWith(r, Text.IntToString(n))
    ensures |r| == |Text.IntToString(n)| + |ImportedSuffix|
    ensures r[|Text.IntToString(n)|..] == ImportedSuffix
  {
    Text.IntToString(n) + ImportedSuffix
  }

  /** The notice names the count: two exports of different sizes show different notices. */
  lemma ImportedNoticeDeterminesCount(a: nat, b: nat)
    requires ImportedNotice(a) == ImportedNotice(b)
    ensures a == b
  {
    var sa, sb := Text.IntToString(a), Text.IntToString(b);
    assert |sa| == |sb|;
    assert sa == ImportedNotice(a)[..|sa|] == ImportedNotice(b)[..|sb|] == sb;
    Text.NatToStringInjective(a, b);
  }

  // ---------------------------------------------------------------------
  // The page

  class ScrapePage {
    var userSubscription: Option<Subscription>
    var monthlyUsage: int
    var limit: int
    var isLoading: bool
    var error: string
    var results: seq<Json>
    var lastSession: SessionEnd

    constructor ()
      ensures userSubscription == None && monthlyUsage == 0 && limit == 10
      ensures !isLoading && error == "" && results == [] && lastSession == NoSession
    {
      userSubscription := None;
      monthlyUsage := 0;
      limit := 10;
      isLoading := false;
      error := "";
      results := [];
      lastSession := NoSession;
    }

    method HandleSubmit(session: Result<string, Thrown>, reply: WebhookReply, saveError: Option<Thrown>)
      modifies this
      ensures var s := Submit(old(userSubscription), old(monthlyUsage), old(limit), session, reply, saveError);
              error == s.error && results == s.results && monthlyUsage == s.usage
              && (s.session != NoSession ==> lastSession == s.session)
              && (s.session == NoSession ==> lastSession == old(lastSession))
      ensures !isLoading && userSubscription == old(userSubscription) && limit == old(limit)
    {
      var s := Submit(userSubscription, monthlyUsage, limit, session, reply, saveError);
      error := s.error;
      results := s.results;
      monthlyUsage := s.usage;
      if s.session != NoSession {
        lastSession := s.session;
      }
      isLoading := false;
    }

    /** Stores the shown results as pipeline leads. Returns the leads written and the
        notice the pipeline page opens with, or none when the insert failed; a failed
        insert shows an error. */
    method SaveToPipeline(user: Option<SessionUser>, nowMs: int, insertFailed: bool)
      returns (written: Option<seq<Lead>>, notice: string)
      modifies this
      ensures insertFailed ==> written == None && notice == "" && error == SavePipelineFailed
      ensures !insertFailed ==> written == Some(PipelineLeads(old(results), user, nowMs)) && error == old(error)
      ensures !insertFailed ==> notice == ImportedNotice(|old(results)|)
      ensures results == old(results) && monthlyUsage == old(monthlyUsage) && isLoading == old(isLoading)
      ensures userSubscription == old(userSubscription) && limit == old(limit) && lastSession == old(lastSession)
    {
      if insertFailed {
        written := None;
        notice := "";
        error := SavePipelineFailed;
      } else {
        written := Some(PipelineLeads(results, user, nowMs));
        notice := ImportedNotice(|results|);
      }
    }
  }
}

=== FILE: seqs.dfy ===
/** `filter`, counting and summing over lists: the array operations the pages
    build their derived views from. */
module Seqs {

  /** `s.filter(p)`: the elements satisfying `p`, in their original order. */
  function Filter<T>(s: seq<T>, p: T -> bool): (r: seq<T>)
    ensures |r| <= |s|
    ensures forall i | 0 <= i < |r| :: r[i] in s && p(r[i])
    ensures forall i | 0 <= i < |s| :: p(s[i]) ==> s[i] in r
    decreases |s|
  {
    if |s| == 0 then []
    else if p(s[|s| - 1]) then Filter(s[..|s| - 1], p) + [s[|s| - 1]]
    else Filter(s[..|s| - 1], p)
  }

  /** Filtering distributes over concatenation, so the kept elements stay in input order. */
  lemma {:induction false} FilterAppend<T>(a: seq<T>, b: seq<T>, p: T -> bool)
    ensures Filter(a + b, p) == Filter(a, p) + Filter(b, p)
    decreases |b|
  {
    if |b| > 0 {
      var b' := b[..|b| - 1];
      assert (a + b)[..|a + b| - 1] == a + b';
      FilterAppend(a, b', p);
    } else {
      assert a + b == a;
    }
  }

  /** When every element passes, filtering returns the list unchanged. */
  lemma {:induction false} FilterAll<T>(s: seq<T>, p: T -> bool)
    requires forall i | 0 <= i < |s| :: p(s[i])
    ensures Filter(s, p) == s
    decreases |s|
  {
    if |s| > 0 {
      FilterAll(s[..|s| - 1], p);
      assert s[..|s| - 1] + [s[|s| - 1]] == s;
    }
  }

  /** Two tests that agree on every element keep the same elements. */
  lemma {:induction false} FilterSameTest<T>(s: seq<T>, p: T -> bool, q: T -> bool)
    requires forall i | 0 <= i < |s| :: p(s[i]) == q(s[i])
    ensures Filter(s, p) == Filter(s, q)
    decreases |s|
  {
    if |s| > 0 {
      FilterSameTest(s[..|s| - 1], p, q);
    }
  }

  /** The number of elements satisfying `p`. */
  function Count<T>(s: seq<T>, p: T -> bool): (n: nat)
    ensures n <= |s|
    decreases |s|
  {
    if |s| == 0 then 0
    else Count(s[..|s| - 1], p) + (if p(s[|s| - 1]) then 1 else 0)
  }

  lemma {:induction false} CountIsFilterLength<T>(s: seq<T>, p: T -> bool)
    ensures Count(s, p) == |Filter(s, p)|
    decreases |s|
  {
    if |s| > 0 {
      CountIsFilterLength(s[..|s| - 1], p);
    }
  }

  lemma {:induction false} CountAppend<T>(a: seq<T>, b: seq<T>, p: T -> bool)
    ensures Count(a + b, p) == Count(a, p) + Count(b, p)
    decreases |b|
  {
    if |b| > 0 {
      assert (a + b)[..|a + b| - 1] == a + b[..|b| - 1];
      CountAppend(a, b[..|b| - 1], p);
    } else {
      assert a + b == a;
    }
  }

  /** `s.reduce((acc, x) => acc + f(x), 0)`. */
  function Sum<T>(s: seq<T>, f: T -> int): int
    decreases |s|
  {
    if |s| == 0 then 0 else Sum(s[..|s| - 1], f) + f(s[|s| - 1])
  }

  lemma {:induction false} SumAppend<T>(a: seq<T>, b: seq<T>, f: T -> int)
    ensures Sum(a + b, f) == Sum(a, f) + Sum(b, f)
    decreases |b|
  {
    if |b| > 0 {
      assert (a + b)[..|a + b| - 1] == a + b[..|b| - 1];
      SumAppend(a, b[..|b| - 1], f);
    } else {
      assert a + b == a;
    }
  }

  /** A sum of non-negative terms is non-negative. */
  lemma {:induction false} SumNonNegative<T>(s: seq<T>, f: T -> int)
    requires forall i | 0 <= i < |s| :: f(s[i]) >= 0
    ensures Sum(s, f) >= 0
    decreases |s|
  {
    if |s| > 0 {
      SumNonNegative(s[..|s| - 1], f);
    }
  }
}

=== FILE: stable_sort.dfy ===
/** `Array.prototype.sort` with a numeric comparator `(a, b) => key(a) - key(b)`.
    The language standard requires the sort to be stable (section 22.1.3.27 of
    ECMAScript 2019), so the result is determined: the elements ordered by key,
    equal keys in their input order. `Sort` defines that result; `SortInPlace`
    is the in-place algorithm on an array, proved to produce it. */
module StableSort {
  import Seqs

  predicate SortedBy<T>(s: seq<T>, key: T -> int) {
    forall i, j | 0 <= i < j < |s| :: key(s[i]) <= key(s[j])
  }

  /** Places `x` after every element of `t` whose key is not larger than its own. */
  function Insert<T>(x: T, t: seq<T>, key: T -> int): (r: seq<T>)
    ensures |r| == |t| + 1
    decreases |t|
  {
    if |t| == 0 then [x]
    else if key(t[|t| - 1]) <= key(x) then t + [x]
    else Insert(x, t[..|t| - 1], key) + [t[|t| - 1]]
  }

  /** The stable sort of `s` by `key`. */
  function Sort<T>(s: seq<T>, key: T -> int): (r: seq<T>)
    ensures |r| == |s|
    decreases |s|
  {
    if |s| == 0 then [] else Insert(s[|s| - 1], Sort(s[..|s| - 1], key), key)
  }

  // ---------------------------------------------------------------------
  // Sorted

  lemma {:induction false} InsertSorted<T>(x: T, t: seq<T>, key: T -> int)
    requires SortedBy(t, key)
    ensures SortedBy(Insert(x, t, key), key)
    ensures forall i | 0 <= i < |t| + 1 :: key(Insert(x, t, key)[i]) >= key(x) || i < |t|
    decreases |t|
  {
    if |t| > 0 && key(t[|t| - 1]) > key(x) {
      var t' := t[..|t| - 1];
      InsertSorted(x, t', key);
      InsertBounded(x, t', key, key(t[|t| - 1]));
    }
  }

  /** Inserting keeps every key below a bound that already held for `t` and `x`. */
  lemma {:induction false} InsertBounded<T>(x: T, t: seq<T>, key: T -> int, bound: int)
    requires key(x) <= bound
    requires forall i | 0 <= i < |t| :: key(t[i]) <= bound
    ensures forall i | 0 <= i < |t| + 1 :: key(Insert(x, t, key)[i]) <= bound
    decreases |t|
  {
    if |t| > 0 && key(t[|t| - 1]) > key(x) {
      InsertBounded(x, t[..|t| - 1], key, bound);
    }
  }

  /** The result is ordered by key. */
  lemma {:induction false} SortSorted<T>(s: seq<T>, key: T -> int)
    ensures SortedBy(Sort(s, key), key)
    decreases |s|
  {
    if |s| > 0 {
      SortSorted(s[..|s| - 1], key);
      InsertSorted(s[|s| - 1], Sort(s[..|s| - 1], key), key);
    }
  }

  // ---------------------------------------------------------------------
  // Permutation

  lemma {:induction false} InsertPermutes<T>(x: T, t: seq<T>, key: T -> int)
    ensures multiset(Insert(x, t, key)) == multiset(t) + multiset{x}
    decreases |t|
  {
    if |t| > 0 && key(t[|t| - 1]) > key(x) {
      var t' := t[..|t| - 1];
      InsertPermutes(x, t', key);
      assert t == t' + [t[|t| - 1]];
    }
  }

  /** The result holds exactly the input's elements, each as often. */
  lemma {:induction false} SortPermutes<T>(s: seq<T>, key: T -> int)
    ensures multiset(Sort(s, key)) == multiset(s)
    decreases |s|
  {
    if |s| > 0 {
      var s', x := s[..|s| - 1], s[|s| - 1];
      SortPermutes(s', key);
      SortStepPermutes(s, s', x, key);
    }
  }

  /** Sorting one element more adds that element. */
  lemma SortStepPermutes<T>(s: seq<T>, s': seq<T>, x: T, key: T -> int)
    requires |s| > 0 && s' == s[..|s| - 1] && x == s[|s| - 1]
    requires multiset(Sort(s', key)) == multiset(s')
    ensures multiset(Sort(s, key)) == multiset(s)
  {
    var u := Sort(s', key);
    SortUnfold(s, key);
    InsertPermutes(x, u, key);
    assert s == s' + [x];
    MultisetStep(Sort(s, key), u, s', x, s);
  }

  lemma SortUnfold<T>(s: seq<T>, key: T -> int)
    requires |s| > 0
    ensures Sort(s, key) == Insert(s[|s| - 1], Sort(s[..|s| - 1], key), key)
  {
  }

  lemma MultisetStep<T>(a: seq<T>, u: seq<T>, s': seq<T>, x: T, s: seq<T>)
    requires multiset(a) == multiset(u) + multiset{x} && multiset(u) == multiset(s')
    requires s == s' + [x]
    ensures multiset(a) == multiset(s)
  {
  }

  // ---------------------------------------------------------------------
  // Stable

  /** The test "has key `k`". */
  function HasKey<T>(key: T -> int, k: int): T -> bool {
    y => key(y) == k
  }

  lemma {:induction false} InsertStable<T>(x: T, t: seq<T>, key: T -> int, k: int)
    ensures Seqs.Filter(Insert(x, t, key), HasKey(key, k))
         == Seqs.Filter(t, HasKey(key, k)) + (if key(x) == k then [x] else [])
    decreases |t|
  {
    var p := HasKey(key, k);
    if |t| == 0 {
      assert Seqs.Filter([x], p) == Seqs.Filter([], p) + (if p(x) then [x] else []);
    } else if key(t[|t| - 1]) <= key(x) {
      Seqs.FilterAppend(t, [x], p);
      assert Seqs.Filter([x], p) == Seqs.Filter([], p) + (if p(x) then [x] else []);
    } else {
      var t' := t[..|t| - 1];
      var last := t[|t| - 1];
      InsertStable(x, t', key, k);
      Seqs.FilterAppend(Insert(x, t', key), [last], p);
      Seqs.FilterAppend(t', [last], p);
      assert t' + [last] == t;
      assert Seqs.Filter([last], p) == Seqs.Filter([], p) + (if p(last) then [last] else []);
    }
  }

  /** Elements with equal keys keep their relative input order. */
  lemma {:induction false} SortStable<T>(s: seq<T>, key: T -> int, k: int)
    ensures Seqs.Filter(Sort(s, key), HasKey(key, k)) == Seqs.Filter(s, HasKey(key, k))
    decreases |s|
  {
    if |s| > 0 {
      var s' := s[..|s| - 1];
      SortStable(s', key, k);
      InsertStable(s[|s| - 1], Sort(s', key), key, k);
    }
  }

  /** A list already in order is returned unchanged. */
  lemma {:induction false} SortOfSorted<T>(s: seq<T>, key: T -> int)
    requires SortedBy(s, key)
    ensures Sort(s, key) == s
    decreases |s|
  {
    if |s| > 0 {
      var s' := s[..|s| - 1];
      SortOfSorted(s', key);
      if |s'| > 0 {
        assert key(s'[|s'| - 1]) <= key(s[|s| - 1]);
      }
      assert s' + [s[|s| - 1]] == s;
    }
  }

  // ---------------------------------------------------------------------
  // The in-place algorithm

  /** Where the insertion loop stops, `x` goes right after the prefix. */
  lemma InsertStop<T>(x: T, t: seq<T>, j: nat, key: T -> int)
    requires j <= |t| && (j == 0 || key(t[j - 1]) <= key(x))
    ensures Insert(x, t[..j], key) == t[..j] + [x]
  {
  }

  /** When every element from position `j` on has a larger key than `x` and the one
      before does not, `x` is inserted at `j`. */
  lemma {:induction false} InsertAt<T>(x: T, t: seq<T>, j: nat, key: T -> int)
    requires j <= |t| && (j == 0 || key(t[j - 1]) <= key(x))
    requires forall k | j <= k < |t| :: key(t[k]) > key(x)
    ensures Insert(x, t, key) == t[..j] + [x] + t[j..]
    decreases |t|
  {
    if |t| == j {
      InsertStop(x, t, j, key);
      assert t[..j] == t && t[j..] == [];
    } else {
      var t', last := t[..|t| - 1], t[|t| - 1];
      InsertAt(x, t', j, key);
      assert t'[..j] == t[..j];
      assert t'[j..] + [last] == t[j..];
    }
  }

  /** Moves `a[i]` left past every element of `a[..i]` with a larger key. */
  method InsertInPlace<T>(a: array<T>, i: nat, key: T -> int)
    requires i < a.Length
    modifies a
    ensures a[..i + 1] == Insert(old(a[i]), old(a[..i]), key)
    ensures a[i + 1..] == old(a[i + 1..])
  {
    var x := a[i];
    ghost var t := a[..i];
    var j := i;
    while j > 0 && key(a[j - 1]) > key(x)
      invariant 0 <= j <= i
      invariant forall k | 0 <= k < j :: a[k] == t[k]
      invariant forall k | j < k <= i :: a[k] == t[k - 1]
      invariant forall k | i < k < a.Length :: a[k] == old(a[k])
      invariant forall k | j <= k < i :: key(t[k]) > key(x)
    {
      a[j] := a[j - 1];
      j := j - 1;
    }
    a[j] := x;
    InsertAt(x, t, j, key);
    assert a[..i + 1] == t[..j] + [x] + t[j..];
  }

  /** Sorts `a` in place by insertion, growing a sorted prefix one element at a time. */
  method SortInPlace<T>(a: array<T>, key: T -> int)
    modifies a
    ensures a[..] == Sort(old(a[..]), key)
  {
    ghost var s := a[..];
    var i := 0;
    while i < a.Length
      invariant 0 <= i <= a.Length
      invariant a[..i] == Sort(s[..i], key)
      invariant a[i..] == s[i..]
    {
      InsertInPlace(a, i, key);
      assert s[..i + 1][..i] == s[..i];
      i := i + 1;
    }
    assert a[..] == a[..a.Length];
    assert s == s[..a.Length];
  }

  /** `[...s].sort(cmp)`: sorts a fresh copy, so the caller's list is left as it was. */
  method SortedCopy<T>(s: seq<T>, key: T -> int) returns (r: seq<T>)
    ensures r == Sort(s, key)
  {
    var a := new T[|s|](i requires 0 <= i < |s| => s[i]);
    assert a[..] == s;
    SortInPlace(a, key);
    r := a[..];
  }
}

=== FILE: text.dfy ===
/** The JavaScript string operations the pages rely on: `toLowerCase`,
    `includes`, `trim`, `split` on a one-character separator, `substring`
    cut-offs and number-to-text conversion. Strings are sequences of
    characters. */
module Text {

  // ---------------------------------------------------------------------
  // toLowerCase

  /** Lower-cases one character. Covers ASCII and the Latin-1 capitals
      (the accented letters of Portuguese text); other scripts are kept. */
  function Lower(c: char): char {
    if 'A' <= c <= 'Z' then (c as int + 32) as char
    else if '\U{00C0}' <= c <= '\U{00DE}' && c != '\U{00D7}' then (c as int + 32) as char
    else c
  }

  function LowerStr(s: string): (r: string)
    ensures |r| == |s|
  {
    seq(|s|, i requires 0 <= i < |s| => Lower(s[i]))
  }

  lemma {:induction false} LowerIdempotent(c: char)
    ensures Lower(Lower(c)) == Lower(c)
  {
  }

  /** Lower-casing a text twice is the same as lower-casing it once. */
  lemma LowerStrIdempotent(s: string)
    ensures LowerStr(LowerStr(s)) == LowerStr(s)
  {
    forall i | 0 <= i < |s|
      ensures LowerStr(LowerStr(s))[i] == LowerStr(s)[i]
    {
      LowerIdempotent(s[i]);
    }
  }

  // ---------------------------------------------------------------------
  // includes

  predicate StartsWith(s: string, prefix: string) {
    |prefix| <= |s| && s[..|prefix|] == prefix
  }

  /** `s.includes(sub)`: `sub` occurs somewhere in `s`. */
  predicate Contains(s: string, sub: string)
    decreases |s|
  {
    StartsWith(s, sub) || (|s| > 0 && Contains(s[1..], sub))
  }

  /** `Contains` holds whenever `sub` occurs at some position. */
  lemma {:induction false} ContainsAt(s: string, sub: string, k: nat)
    requires k + |sub| <= |s| && s[k..k + |sub|] == sub
    ensures Contains(s, sub)
    decreases k
  {
    if k > 0 {
      assert s[1..][k - 1..k - 1 + |sub|] == s[k..k + |sub|];
      ContainsAt(s[1..], sub, k - 1);
    }
  }

  /** A text always contains each text it ends with. */
  lemma {:induction false} ContainsSuffix(prefix: string, suffix: string)
    ensures Contains(prefix + suffix, suffix)
  {
    ContainsAt(prefix + suffix, suffix, |prefix|);
  }

  /** Every text contains the empty query, so an empty search keeps everything. */
  lemma ContainsEmpty(s: string)
    ensures Contains(s, "")
  {
  }

  /** Case-insensitive `includes`, as the search boxes use it:
      `a.toLowerCase().includes(q.toLowerCase())`. */
  predicate IncludesIgnoringCase(s: string, query: string) {
    Contains(LowerStr(s), LowerStr(query))
  }

  // ---------------------------------------------------------------------
  // trim

  /** The characters ECMAScript's `trim` removes (white space and line terminators). */
  predicate IsSpace(c: char) {
    c == ' ' || c == '\t' || c == '\n' || c == '\r' || c == '\U{000B}' || c == '\U{000C}'
    || c == '\U{00A0}' || c == '\U{1680}' || ('\U{2000}' <= c <= '\U{200A}')
    || c == '\U{2028}' || c == '\U{2029}' || c == '\U{202F}' || c == '\U{205F}'
    || c == '\U{3000}' || c == '\U{FEFF}'
  }

  predicate AllSpace(s: string) {
    forall i | 0 <= i < |s| :: IsSpace(s[i])
  }

  function TrimStart(s: string): (r: string)
    ensures |r| <= |s| && r == s[|s| - |r|..]
    ensures AllSpace(s[..|s| - |r|])
    ensures r == [] || !IsSpace(r[0])
    decreases |s|
  {
    if |s| > 0 && IsSpace(s[0]) then TrimStart(s[1..]) else s
  }

  function TrimEnd(s: string): (r: string)
    ensures |r| <= |s| && r == s[..|r|]
    ensures AllSpace(s[|r|..])
    ensures r == [] || !IsSpace(r[|r| - 1])
    decreases |s|
  {
    if |s| > 0 && IsSpace(s[|s| - 1]) then TrimEnd(s[..|s| - 1]) else s
  }

  lemma {:induction false} TrimStartEmpty(s: string)
    ensures TrimStart(s) == [] <==> AllSpace(s)
    decreases |s|
  {
    if |s| > 0 && IsSpace(s[0]) {
      TrimStartEmpty(s[1..]);
      assert AllSpace(s) <==> AllSpace(s[1..]) by {
        if AllSpace(s[1..]) {
          forall i | 0 <= i < |s| ensures IsSpace(s[i]) {
            if i > 0 { assert s[i] == s[1..][i - 1]; }
          }
        }
      }
    }
  }

  /** `s.trim()`: the longest slice of `s` that neither starts nor ends with white space. */
  function Trim(s: string): (r: string)
    ensures r == [] || (!IsSpace(r[0]) && !IsSpace(r[|r| - 1]))
    ensures r == [] <==> AllSpace(s)
  {
    var t := TrimStart(s);
    TrimStartEmpty(s);
    var r := TrimEnd(t);
    assert r == [] ==> t == [];
    assert r != [] ==> r[0] == t[0];
    r
  }

  /** `trim` only removes white space: the result is the slice of `s` between a
      blank prefix and a blank suffix. */
  lemma TrimSlice(s: string)
    ensures var r := Trim(s);
            exists i | 0 <= i <= |s| - |r| :: r == s[i..i + |r|] && AllSpace(s[..i]) && AllSpace(s[i + |r|..])
  {
    SliceBetween(s, TrimStart(s), Trim(s));
  }

  /** A blank-prefixed suffix of `s`, cut before a blank suffix of its own, is a
      slice of `s` between a blank prefix and a blank suffix. */
  lemma SliceBetween(s: string, t: string, r: string)
    requires |t| <= |s| && t == s[|s| - |t|..] && AllSpace(s[..|s| - |t|])
    requires |r| <= |t| && r == t[..|r|] && AllSpace(t[|r|..])
    ensures exists i | 0 <= i <= |s| - |r| :: r == s[i..i + |r|] && AllSpace(s[..i]) && AllSpace(s[i + |r|..])
  {
    var i := |s| - |t|;
    assert s[i + |r|..] == t[|r|..];
    assert r == s[i..i + |r|];
  }

  /** A blank text is one that `trim` empties: `!s.trim()` in the source. */
  predicate IsBlank(s: string) {
    Trim(s) == []
  }

  // ---------------------------------------------------------------------
  // split on one character

  /** `s.split(sep)` for a one-character separator: the pieces between separators. */
  function Split(s: string, sep: char): (r: seq<string>)
    ensures |r| >= 1
    ensures forall k | 0 <= k < |r| :: sep !in r[k]
    decreases |s|
  {
    if |s| == 0 then [""]
    else
      var rest := Split(s[1..], sep);
      if s[0] == sep then [""] + rest
      else [[s[0]] + rest[0]] + rest[1..]
  }

  /** `pieces.join(sep)`. */
  function Join(pieces: seq<string>, sep: char): string
    decreases |pieces|
  {
    if |pieces| == 0 then ""
    else if |pieces| == 1 then pieces[0]
    else pieces[0] + [sep] + Join(pieces[1..], sep)
  }

  lemma {:induction false} JoinCons(head: string, pieces: seq<string>, sep: char)
    requires |pieces| >= 1
    ensures Join([head] + pieces, sep) == head + [sep] + Join(pieces, sep)
  {
    assert ([head] + pieces)[1..] == pieces;
  }

  lemma {:induction false} JoinExtendFirst(c: char, pieces: seq<string>, sep: char)
    requires |pieces| >= 1
    ensures Join([[c] + pieces[0]] + pieces[1..], sep) == [c] + Join(pieces, sep)
  {
    if |pieces| == 1 {
      assert [[c] + pieces[0]] + pieces[1..] == [[c] + pieces[0]];
    } else {
      JoinCons([c] + pieces[0], pieces[1..], sep);
      JoinCons(pieces[0], pieces[1..], sep);
      assert [pieces[0]] + pieces[1..] == pieces;
    }
  }

  /** Splitting and joining again on the same separator gives back the text:
      no character is lost or added by the CSV splitter. */
  lemma {:induction false} JoinSplit(s: string, sep: char)
    ensures Join(Split(s, sep), sep) == s
    decreases |s|
  {
    if |s| > 0 {
      var rest := Split(s[1..], sep);
      JoinSplit(s[1..], sep);
      if s[0] == sep {
        JoinCons("", rest, sep);
      } else {
        JoinExtendFirst(s[0], rest, sep);
      }
      assert s == [s[0]] + s[1..];
    }
  }

  /** Extending the first piece of a list commutes with appending more pieces. */
  lemma ExtendFirstAppend(c: char, x: seq<string>, y: seq<string>)
    requires |x| >= 1
    ensures [[c] + (x + y)[0]] + (x + y)[1..] == ([[c] + x[0]] + x[1..]) + y
  {
    assert (x + y)[0] == x[0];
    assert (x + y)[1..] == x[1..] + y;
  }

  /** A separator between two texts splits them apart: the pieces of the whole are
      the pieces of the first followed by the pieces of the second. */
  lemma {:induction false} SplitConcat(a: string, b: string, sep: char)
    ensures Split(a + [sep] + b, sep) == Split(a, sep) + Split(b, sep)
    decreases |a|
  {
    var s := a + [sep] + b;
    if |a| == 0 {
      assert s[1..] == b;
    } else {
      assert s[0] == a[0];
      assert s[1..] == a[1..] + [sep] + b;
      SplitConcat(a[1..], b, sep);
      if a[0] != sep {
        ExtendFirstAppend(a[0], Split(a[1..], sep), Split(b, sep));
      }
    }
  }

  // ---------------------------------------------------------------------
  // numbers as text and cut-offs

  function DigitChar(d: nat): char
    requires d < 10
  {
    ('0' as int + d) as char
  }

  /** Decimal text of a natural number, as `String(n)` prints it. */
  function NatToString(n: nat): (r: string)
    ensures |r| >= 1
    ensures forall i | 0 <= i < |r| :: '0' <= r[i] <= '9'
    decreases n
  {
    if n < 10 then [DigitChar(n)] else NatToString(n / 10) + [DigitChar(n % 10)]
  }

  /** Different numbers print differently. */
  lemma {:induction false} NatToStringInjective(a: nat, b: nat)
    requires NatToString(a) == NatToString(b)
    ensures a == b
    decreases a
  {
    if a >= 10 && b >= 10 {
      var sa := NatToString(a);
      assert sa[..|sa| - 1] == NatToString(a / 10);
      assert NatToString(b)[..|sa| - 1] == NatToString(b / 10);
      NatToStringInjective(a / 10, b / 10);
      assert DigitChar(a % 10) == sa[|sa| - 1] == DigitChar(b % 10);
    }
  }

  function IntToString(n: int): (r: string)
    ensures |r| >= 1
  {
    if n < 0 then "-" + NatToString(-n) else NatToString(n)
  }

  /** `s.length > n ? s.substring(0, n) + "..." : s`: the preview cut-off used for
      post titles and history entries. */
  function Truncate(s: string, n: nat): (r: string)
    ensures |s| <= n ==> r == s
    ensures |s| > n ==> |r| == n + 3 && StartsWith(r, s[..n]) && r[n..] == "..."
    ensures |r| <= n + 3
  {
    if |s| > n then s[..n] + "..." else s
  }
}

=== FILE: user_role.dfy ===
/** The signed-in user's role: the groups the user administers or collaborates in,
    the two role flags derived from them, and the feature gate built on the flags. */
module UserRole {
  import opened Wrappers
  import Seqs

  datatype Group = Group(id: string, name: string, role: string, status: string)

  /** A `user_groups` row the user administers. */
  datatype AdminRow = AdminRow(id: string, name: string)

  /** A `group_collaborators` row of the user, with its joined group. */
  datatype CollabRow = CollabRow(role: string, status: string, groupId: string, groupName: string)

  datatype Role = Role(isAdmin: bool, isCollaborator: bool, groups: seq<Group>)

  const NoRole := Role(false, false, [])

  /** The collaborator query asks only for active memberships. */
  function ActiveMemberships(rows: seq<CollabRow>): (r: seq<CollabRow>)
    ensures forall i | 0 <= i < |r| :: r[i] in rows && r[i].status == "active"
    ensures forall i | 0 <= i < |rows| :: rows[i].status == "active" ==> rows[i] in r
  {
    Seqs.Filter(rows, (c: CollabRow) => c.status == "active")
  }

  function AdminGroup(a: AdminRow): Group {
    Group(a.id, a.name, "admin", "active")
  }

  function CollabGroup(c: CollabRow): Group {
    Group(c.groupId, c.groupName, c.role, c.status)
  }

  /** The groups: every administered group first, then every membership, each in the
      order the query returned it. */
  function Groups(admins: seq<AdminRow>, memberships: seq<CollabRow>): (r: seq<Group>)
    ensures |r| == |admins| + |memberships|
    ensures forall i | 0 <= i < |admins| :: r[i] == AdminGroup(admins[i])
    ensures forall j | 0 <= j < |memberships| :: r[|admins| + j] == CollabGroup(memberships[j])
  {
    seq(|admins|, i requires 0 <= i < |admins| => AdminGroup(admins[i]))
    + seq(|memberships|, j requires 0 <= j < |memberships| => CollabGroup(memberships[j]))
  }

  /** `fetchUserRole`, with the two query results as inputs; no user or a failed
      query gives the empty role. */
  function FetchRole(signedIn: bool, admins: Result<seq<AdminRow>, string>,
                     collabRows: Result<seq<CollabRow>, string>): Role
  {
    if !signedIn || admins.Failure? || collabRows.Failure? then NoRole
    else
      var memberships := ActiveMemberships(collabRows.value);
      Role(|admins.value| > 0, |memberships| > 0, Groups(admins.value, memberships))
  }

  /** A user is an admin exactly when some group lists them as its admin, and a
      collaborator exactly when one of their memberships is active; every group
      listed is active and the administered ones carry the admin role. */
  lemma RoleFlags(admins: seq<AdminRow>, collabRows: seq<CollabRow>)
    ensures var r := FetchRole(true, Success(admins), Success(collabRows));
            (r.isAdmin <==> exists i | 0 <= i < |r.groups| :: i < |admins| && r.groups[i].role == "admin")
            && (r.isCollaborator <==> exists j | 0 <= j < |collabRows| :: collabRows[j].status == "active")
            && (forall i | 0 <= i < |r.groups| :: r.groups[i].status == "active")
  {
    var memberships := ActiveMemberships(collabRows);
    var r := FetchRole(true, Success(admins), Success(collabRows));
    if r.isAdmin {
      assert r.groups[0].role == "admin";
    }
    if exists j | 0 <= j < |collabRows| :: collabRows[j].status == "active" {
      var j :| 0 <= j < |collabRows| && collabRows[j].status == "active";
      assert collabRows[j] in memberships;
    }
    if r.isCollaborator {
      assert memberships[0] in collabRows;
    }
    forall i | 0 <= i < |r.groups| ensures r.groups[i].status == "active" {
      if i >= |admins| {
        assert r.groups[i] == CollabGroup(memberships[i - |admins|]);
      }
    }
  }

  /** Without a user, or when either query fails, the role is reset. */
  lemma FailureResetsRole(signedIn: bool, admins: Result<seq<AdminRow>, string>,
                          collabRows: Result<seq<CollabRow>, string>)
    requires !signedIn || admins.Failure? || collabRows.Failure?
    ensures var r := FetchRole(signedIn, admins, collabRows); !r.isAdmin && !r.isCollaborator && r.groups == []
  {
  }

  predicate HasUserManagementAccess(role: Role) {
    role.isAdmin
  }

  /** `canAccessFeature`: user management for admins only; every other feature is open
      (`isAdmin || isCollaborator || true`). */
  function CanAccessFeature(role: Role, feature: string): (r: bool)
    ensures feature == "user-management" ==> (r <==> role.isAdmin)
    ensures feature != "user-management" ==> r
  {
    if feature == "user-management" then HasUserManagementAccess(role)
    else role.isAdmin || role.isCollaborator || true
  }

  /** A collaborator who administers no group never reaches user management, but
      reaches every other feature. */
  lemma CollaboratorGate(admins: seq<AdminRow>, collabRows: seq<CollabRow>, feature: string)
    requires |admins| == 0
    ensures var r := FetchRole(true, Success(admins), Success(collabRows));
            CanAccessFeature(r, feature) <==> feature != "user-management"
  {
  }
}

=== FILE: wrappers.dfy ===
/** Option and Result values used wherever the source has `null`/`undefined`
    or a backend call that either returns data or an error. */
module Wrappers {

  datatype Option<+T> = None | Some(value: T) {
    function GetOr(default: T): T {
      match this
      case Some(v) => v
      case None => default
    }
  }

  datatype Result<+R, +E> = Success(value: R) | Failure(error: E)
}
